=== FILE: README.md ===
# Roxiller store ratings, modelled in Dafny

Roxiller is a store-rating web application. Users register, log in and rate stores from
1 to 5. Store owners see the ratings of their store. Administrators manage users and
stores and see global counts.

This project models the application's core as pure Dafny functions over an immutable
database value `Db(users, stores, ratings)`. It covers both halves:

- The Express/Sequelize backend:
  - the authentication middleware (public-path classification, token extraction,
    `authenticateUser`, `optionalAuth`, the three role gates);
  - the user and store models (column validators, the password hooks, bcrypt hashing and
    comparison);
  - the four controllers (auth, user, store, rating).
- The React frontend:
  - the route table and the `PrivateRoute` guard;
  - the navigation bar's links;
  - the validation and submission of the registration, user creation, password change and
    both store creation forms;
  - the sortable admin tables, the user's store search, and the owner's rating
    distribution.

A handler is a function from the tables and the request to `Step(db', reply)`. The reply
is either `Ok(status, value)` or `Error(status, message)`. Environment switches
(`DISABLE_AUTH`, `NODE_ENV === 'production'`) are explicit inputs. So are the parts that
are not code in this repository: JWT verification, and Sequelize's `isEmail` validator.

Modules, in dependency order:

| module | file | models |
|---|---|---|
| `Wrappers` | wrappers.dfy | `Option`, `Result`, JavaScript truthiness of optional strings and numbers |
| `Text` | text.dfy | white space as JavaScript's `\s`/`trim` see it, ASCII `toLowerCase`, prefix and substring tests, `length` in UTF-16 code units, UTF-8 bytes |
| `Ordering` | ordering.dfy | code-point string order, sort keys, a sort with a permutation-and-sortedness contract |
| `Policy` | policy.dfy | the password regular expression and the client's email regular expression |
| `Seqs` | seqs.dfy | first-match lookup (`findOne`/`findByPk`) and order-keeping filtering (`findAll`) |
| `Schema` | schema.dfy | the three tables, roles, bcrypt digests, replies, `req.user`, table invariants |
| `UserModel` | user_model.dfy | `models/User.js` |
| `StoreModel` | store_model.dfy | `models/Store.js` |
| `Aggregation` | aggregation.dfy | the `AVG`/`COUNT` aggregates over a store's ratings |
| `AccessGate` | access_gate.dfy | `middleware/auth.js` |
| `RatingLedger` | rating_ledger.dfy | `controllers/ratingController.js` |
| `StoreRegistry` | store_registry.dfy | `controllers/storeController.js` |
| `UserRegistry` | user_registry.dfy | `controllers/userController.js` |
| `Accounts` | accounts.dfy | `controllers/authController.js` |
| `ClientRouting` | client_routing.dfy | `App.js`, `PrivateRoute.js`, `Navbar.js` |
| `ClientForms` | client_forms.dfy | the registration, user creation, password and store creation forms |
| `ClientLists` | client_lists.dfy | the admin user and store tables, the store search, the owner's store details |

Where the application's stated requirements and the code disagree, the model follows the
code:

- A rating is accepted for any number from 1 to 5. Fractions such as 2.5 pass, not only
  integers.
- The store list reports `averageRating` 0, `ratingCount` 0 and `userRating` null for
  every store. It does not attach real aggregates.
- On a public path outside production the gate sets a fixed identity (id 1, role
  `'user'`). The role gates are skipped on public paths altogether.
- The user-list filters are SQL `LIKE '%v%'` conditions. They are modelled as
  case-sensitive substring tests, not as case-insensitive ones.
- Most handlers turn a thrown error into a 400 reply, not a 500 one. Only the rating
  handlers, login's password check and the store list's connection check reply 500.
- The server accepts names of 2 to 60 characters. Only the client forms demand 20 to 60.
- The store owner's creation page sends no `ownerId`, and the backend sets none. A store
  created from that page is unowned, whatever the page's comment expects.

## Model

| member | source | states |
|---|---|---|
| Text.Trim | frontend/src/components/admin/CreateStore.js:63 | the trimmed text is a slice of the text with only white space before and after it; it is empty exactly when the text is all white space, and otherwise starts and ends with a non-space character |
| Text.Utf16Length | frontend/src/components/common/Register.js:32 | JavaScript's `length` counts each character once, or twice above U+FFFF, so it lies between the character count and twice that, and equals the character count for text without such characters |
| Text.DecodeEncodeChar | backend/models/User.js:63 | decoding the UTF-8 bytes bcrypt reads for a character gives back that character |
| Text.Utf8Injective | backend/models/User.js:63 | different strings have different UTF-8 bytes |
| Text.Utf8Append | backend/models/User.js:63 | the UTF-8 bytes of a concatenation are the bytes of the first part followed by those of the second |
| Ordering.Sort | frontend/src/components/admin/UserList.js:71-79 | the sorted list is a permutation of the input and is ordered by the key in the chosen direction |
| Policy.TestPassword | backend/models/User.js:50-51 | the password regular expression accepts exactly 8 to 16 characters from letters, digits and `!@#$%^&*` with at least one upper-case letter and one of the symbols |
| Policy.StrongPasswordLength | backend/models/User.js:31 | every password meeting the policy also passes the 4-to-100 length validator |
| Policy.EmailPatternShape | frontend/src/components/common/Register.js:37-38 | the email regular expression accepts exactly the texts without white space that have one `@` (not first) and a `.` after at least one character past the `@`, not last |
| Schema.ParseRole | backend/models/User.js:41-44 | a role string parses exactly when it is the name of one of the three enum values, and then to that value |
| Schema.HashMatches | backend/models/User.js:90-92 | a digest accepts a candidate exactly when the candidate is the plaintext it was made from or both are at least 72 UTF-8 bytes long and agree in their first 72 bytes |
| Schema.TruncatedAfterKeyBytes | backend/models/User.js:90-92 | text appended after the first 72 bytes of a password does not change which passwords its digest accepts: the shorter password still compares equal |
| Schema.ShortPasswordsCompareExactly | backend/models/User.js:90-92 | the digest of a password shorter than 72 UTF-8 bytes accepts that password and no other |
| Schema.RatingKeysKept | backend/models/index.js:6-10 | the foreign keys of the ratings hold after any change that leaves the ratings alone and keeps every user and store findable |
| Schema.NextUserIdFresh | backend/models/User.js:6-10 | the auto-increment id handed to a new user is used by no existing row |
| UserModel.ResolveRole | backend/models/User.js:41-44 | an absent role defaults to `'user'`; a present one resolves only to the enum value it names |
| UserModel.Create | backend/models/User.js:11-64 | creation succeeds exactly when every column validator passes, the hook's password rule holds and the role is absent or one of the enum's values; failures are checked in that order, the hook reporting its own message and the database the enum refusal; the row keeps the fields, hashes the password, takes a fresh id and the resolved role |
| UserModel.DevelopmentHookRedundant | backend/models/User.js:54-58 | outside production the hook's `length` check (in UTF-16 code units) never rejects a password the length validator accepted |
| UserModel.ProductionCreateNeedsStrongPassword | backend/models/User.js:49-53 | in production a created user's password met the full policy |
| UserModel.ChangePassword | backend/models/User.js:65-84 | a password change succeeds exactly when the new password is present, passes the length validator and the hook's rule; only the digest changes, to the new password's |
| UserModel.ChangeRole | backend/models/User.js:65-67 | a role update sets the role and keeps the digest, id, email, name and address |
| UserModel.StrongPasswordFitsKey | backend/models/User.js:49-53 | a password meeting the production policy is shorter than the 72 bytes bcrypt reads |
| UserModel.CreatedPasswordCompares | backend/models/User.js:61-63 | a created user's password compares equal to the plaintext it was created with and to the passwords sharing its first 72 bytes, and to nothing else; in production to that plaintext alone |
| UserModel.ChangedPasswordCompares | backend/models/User.js:81-84 | after a change the stored password compares equal to the new password and the passwords sharing its first 72 bytes, and to nothing else; in production to the new password alone |
| StoreModel.Create | backend/models/Store.js:4-41 | store creation succeeds exactly when name, email and address pass their validators; the row has a fresh id and keeps the fields and owner |
| Aggregation.AverageWithin | backend/controllers/storeController.js:68-74 | the mean of values that all lie in a range lies in that range |
| Aggregation.NoRatingsAverageZero | backend/controllers/storeController.js:78-79 | a store nobody rated has average 0 and count 0 |
| Aggregation.AppendedRatingAggregates | backend/controllers/storeController.js:68-74 | a new rating row leaves every other store's rows alone; for its own store the count grows by one, the sum by the new value, and the mean is the new sum over the new count |
| AccessGate.PublicPathCharacterization | backend/middleware/auth.js:26-46 | a path is public exactly when it is a store-id path or equals a listed entry or extends one with `/`; the wildcard branch never decides |
| AccessGate.NoWildcardEntries | backend/middleware/auth.js:9-20 | no entry of the public-path list contains `*` |
| AccessGate.RootEntryMatches | backend/middleware/auth.js:36-41 | the `'/'` entry makes public exactly `/` and the paths starting with `//` |
| AccessGate.UsersPathsProtected | backend/middleware/auth.js:9-45 | no path starting with `/api/users` is public; the gate never sees such a path on the user routes, which it reaches through the mounted router (see the next row) |
| AccessGate.UsersRouterRootOpen | backend/routes/userRoutes.js:7-10 | `GET` and `POST /api/users` reach the gate with the router-relative path `/`, which is public, so the admin chain lets every such request through: as the default identity outside production, with no user in production |
| AccessGate.StoresSubpathsPublic | backend/middleware/auth.js:36-42 | every path starting with `/api/stores/` is public, whatever follows |
| AccessGate.ExtractToken | backend/middleware/auth.js:77-86 | a non-empty `x-auth-token` wins; otherwise the token is the `Authorization` value after `Bearer `, and only a non-empty token is kept |
| AccessGate.Authenticate | backend/middleware/auth.js:51-115 | a bypassed request continues with the default identity (none in production); otherwise it continues exactly when a token is present, verifies and names a stored user, and then carries that user; every refusal is 401 |
| AccessGate.OptionalAuth | backend/middleware/auth.js:119-182 | optional authentication always continues: with the token's stored user when there is one on a protected path, else with the default identity |
| AccessGate.OptionalAuthAgrees | backend/middleware/auth.js:140-181 | on a protected path optional authentication sets the same user as `authenticateUser` where that succeeds, and the default identity where it answers 401 |
| AccessGate.RequireRole | backend/middleware/auth.js:184-224 | a role gate passes a bypassed request unchanged; otherwise it passes exactly a present user with the required role, and refuses with 403 |
| AccessGate.AdminChainOnProtectedPath | backend/middleware/auth.js:185-196 | on a protected admin route no token gives 401, a valid non-admin token gives 403, and only a stored admin passes |
| AccessGate.PublicPathAdminBypass | backend/middleware/auth.js:58-73 | on a public path outside production the admin chain passes any request as the default identity, whose role is `'user'` |
| RatingLedger.ActingUser | backend/controllers/ratingController.js:9 | a truthy body `userId` overrides the caller; without it the caller's id is used, or 1 without a caller |
| RatingLedger.RatingRejectedMeansOutOfRange | backend/controllers/ratingController.js:20-23 | the rating check accepts exactly a present value from 1 to 5 inclusive |
| RatingLedger.UpsertEffect | backend/controllers/ratingController.js:35-61 | the upsert keeps one row per (user, store) pair, stores the value in the pair's row, changes no other row, and appends a row exactly when the pair had none |
| RatingLedger.SubmitRating | backend/controllers/ratingController.js:4-66 | submission fails with 400 without a store id or with an out-of-range rating, 404 for an unknown store, 500 when a new row would name an acting user with no Users row, and otherwise upserts the acting user's rating and replies with it; a failure changes nothing |
| RatingLedger.SubmitKeepsConsistent | backend/controllers/ratingController.js:35-61 | a submission keeps every table invariant, the foreign keys of the ratings included, and afterwards the acting user's rating of the store is the submitted value |
| RatingLedger.UpsertKeepsKeys | backend/models/index.js:6-10 | the upsert keeps every rating's user and store existing when the submitted pair's user and store exist |
| RatingLedger.FindRating | backend/controllers/storeController.js:86-91 | a user's rating of a store is found exactly when a row for that pair exists, and it is that row's value |
| RatingLedger.QueryUser | backend/controllers/ratingController.js:81 | a query `userId` overrides the caller; without it the caller's id is used, or 1 without a caller |
| RatingLedger.JoinedStore | backend/controllers/ratingController.js:88-93 | a rating's store is present exactly when a store has its id, and then carries that store's id, name and address |
| RatingLedger.WithStore | backend/controllers/ratingController.js:86-94 | each rating row keeps its place and is paired with the store it joins to |
| RatingLedger.GetUserRatings | backend/controllers/ratingController.js:77-101 | the list holds exactly the chosen user's rating rows, once each and in table order (a subsequence of the table), each with the id, name and address of its store, or no store when none has its id |
| RatingLedger.ListedRatingsHaveStores | backend/controllers/ratingController.js:86-94 | when every rating names an existing store, every listed rating carries its store |
| RatingLedger.SubmittedRatingListed | backend/controllers/ratingController.js:85-94 | a rating just submitted appears in the acting user's rating list |
| StoreRegistry.GetAllStores | backend/controllers/storeController.js:18-35 | the store list is a permutation of the stores, ordered by name, each with average 0, count 0 and no user rating |
| StoreRegistry.GetStoreById | backend/controllers/storeController.js:46-98 | an unknown id gives 404 and a known one succeeds; the store comes with its owner's id, name and email exactly when its owner id names an existing user, its rating count and mean, and the caller's own rating exactly when the caller has role `'user'` |
| StoreRegistry.StoreAverageInRange | backend/controllers/storeController.js:68-79 | when every stored rating passed the range check, a rated store's average lies from 1 to 5, and an unrated store's is 0 |
| StoreRegistry.SubmitCountEffect | backend/controllers/ratingController.js:35-61 | a submission raises the store's rating count by one for a new pair and leaves it unchanged for a re-rating |
| StoreRegistry.PromoteOwner | backend/controllers/storeController.js:132-135 | promotion gives the first user with the id the store-owner role and changes no other row |
| StoreRegistry.CreateStore | backend/controllers/storeController.js:110-153 | store creation fails on a missing or taken email and, for a truthy owner id, on an unknown owner; it succeeds exactly when those pass and the store validators pass, appending a store with a fresh id and the owner only if given; users change only by promoting the owner |
| StoreRegistry.CreateStorePromotesOwner | backend/controllers/storeController.js:125-137 | after a creation with an owner, that user has the store-owner role and the store references them |
| StoreRegistry.FailedCreateKeepsPromotion | backend/controllers/storeController.js:132-146 | when the store validators reject after the owner check, the reply is 400 but the owner's promotion stays |
| StoreRegistry.CreateStoreKeepsConsistent | backend/controllers/storeController.js:116-146 | store creation keeps unique store ids and emails, keeps every store owner an existing user, and keeps every rating's user and store existing |
| StoreRegistry.Raters | backend/controllers/storeController.js:189-210 | the rater list has one entry per rating row, in order, with the id, name and email of that row's user and the row's value; it is absent when a row's user is missing |
| StoreRegistry.GetStoreOwnerDashboard | backend/controllers/storeController.js:165-219 | the dashboard fails without a caller or without an owned store; otherwise it shows the caller's store, its rating mean and count, and one rater per rating, carrying that rating's user's id, name and email and its value |
| StoreRegistry.OwnerDashboardSucceeds | backend/controllers/storeController.js:170-219 | an owner with a store gets a dashboard whenever every rating's author exists, as the foreign key on `Rating.userId` ensures |
| UserRegistry.GetAllUsers | backend/controllers/userController.js:5-35 | the user list holds exactly the users passing every given filter, without passwords, ordered by name; a role filter naming no role is an error |
| UserRegistry.KeepMeans | backend/controllers/userController.js:12-26 | a user passes the filters exactly when each non-empty text filter is a substring of its field and a non-empty role filter names its role |
| UserRegistry.GetAllUsersListsMatches | backend/controllers/userController.js:9-33 | with unique ids, a user is listed exactly when it passes every given filter |
| UserRegistry.NoFiltersListAll | backend/controllers/userController.js:10-33 | without filters every user is listed |
| UserRegistry.StoreRating | backend/controllers/userController.js:61-72 | a store rating is reported only for a store owner with a store that has ratings |
| UserRegistry.GetUserById | backend/controllers/userController.js:42-87 | an unknown id gives 404 and a known one succeeds, giving the user without password and the owner's store rating |
| UserRegistry.StoreRatingAgreesWithStore | backend/controllers/userController.js:63-71 | an owner's store rating is present exactly when the store detail counts ratings, and then equals the store detail's average |
| UserRegistry.InsertUser | backend/controllers/userController.js:98-111 | insertion fails with 400 on a missing or taken email or a failed creation and changes nothing; otherwise it appends the created row |
| UserRegistry.InsertUserKeepsConsistent | backend/controllers/userController.js:98-111 | inserting a user keeps unique user ids and emails and every other table invariant |
| UserRegistry.CreateUser | backend/controllers/userController.js:94-121 | creation succeeds exactly when the duplicate check and the model's creation pass, and otherwise replies 400 and changes nothing; an admin-created user is appended with a fresh id, the email sent, and the role the request names (`'user'` when absent) |
| UserRegistry.CreateUserKeepsRequestedRole | backend/controllers/userController.js:96-111 | a request naming `'admin'` creates an administrator |
| UserRegistry.GetDashboardStats | backend/controllers/userController.js:128-149 | the statistics always reply 200, with the user, store and rating counts equal to the sizes of the three tables |
| UserRegistry.CreateUserCounts | backend/controllers/userController.js:128-145 | after a creation the dashboard counts one more user and the same stores and ratings |
| Accounts.Register | backend/controllers/authController.js:6-41 | registration succeeds exactly when the duplicate check and the model's creation pass; it creates a user with the role fixed to `'user'` and returns a 24-hour token for its id; it fails with 400 and changes nothing when the email is taken or creation fails |
| Accounts.Login | backend/controllers/authController.js:44-98 | login succeeds exactly when email and password are given, a user has the email, and the password compares; it returns that user and a 24-hour token for its id; every failure is 400 |
| Accounts.LoginFailuresIndistinguishable | backend/controllers/authController.js:59-74 | an unknown email and a wrong password get the same reply |
| Accounts.RegisterThenLogin | backend/controllers/authController.js:11-26 | a freshly registered user logs in with its password and gets the same user back |
| Accounts.UpdatePassword | backend/controllers/authController.js:101-126 | a password change succeeds exactly when the caller exists, the current password compares and the new one is accepted by the model; only that user's digest changes, every other row stays in place; failures change nothing |
| Accounts.UpdateThenLogin | backend/controllers/authController.js:113-120 | after a password change the user logs in with the new password and the passwords sharing its first 72 bytes, and with no other; in production with the new password alone |
| Accounts.GetCurrentUser | backend/controllers/authController.js:129-146 | it succeeds exactly when there is a caller with a user row, and then gives that row without password; no caller gives 400 and an unknown caller 404 |
| ClientRouting.Home | frontend/src/App.js:94-111 | an unauthenticated visitor goes to the login page; an authenticated one to the dashboard of its role, or to login for an unknown role |
| ClientRouting.HomeInApp | frontend/src/App.js:95-98 | as the app runs, the home route always leads to the login page |
| ClientRouting.Resolve | frontend/src/App.js:122-228 | the catch-all is shown exactly when no route matches; otherwise the element of a matching route, one with a parameter only when no route without parameters matches |
| ClientRouting.MismatchTarget | frontend/src/utils/PrivateRoute.js:15-24 | a user with the wrong role goes to the admin, store-owner or user dashboard by its own role |
| ClientRouting.PrivateRoute | frontend/src/utils/PrivateRoute.js:6-27 | the guard renders exactly for a logged-in user when no role is required or the role matches; it sends others to login or to their dashboard |
| ClientRouting.DashboardLink | frontend/src/components/common/Navbar.js:16-27 | the dashboard link is login without a user, else the dashboard of the user's role, the user dashboard for any other role |
| ClientRouting.NavbarAgreesWithGuard | frontend/src/components/common/Navbar.js:16-27 | the navigation bar's dashboard link is the page the guard sends a mismatched user to |
| ClientRouting.AdminDashboardResolves | frontend/src/App.js:141-148 | `/admin/dashboard` shows the admin dashboard guarded for `'admin'` |
| ClientRouting.OwnerDashboardResolves | frontend/src/App.js:183-190 | `/store-owner/dashboard` shows the owner dashboard guarded for `'store_owner'` |
| ClientRouting.UserDashboardResolves | frontend/src/App.js:209-216 | `/user/dashboard` shows the user dashboard guarded for `'user'` |
| ClientRouting.NoRedirectLoop | frontend/src/utils/PrivateRoute.js:15-24 | for the three known roles, the dashboard the guard sends a mismatched user to renders for that user, so the guard cannot loop |
| ClientRouting.UnknownRoleRedirectsToItself | frontend/src/utils/PrivateRoute.js:21-23 | a user with an unknown role is sent from the user dashboard to the user dashboard again |
| ClientRouting.LoginAndRegisterOpen | frontend/src/App.js:124-125 | the login and registration pages render for anyone |
| ClientRouting.PasswordUpdateNeedsLogin | frontend/src/App.js:131-138 | the password page renders for any logged-in user and sends others to login |
| ClientRouting.RouteRoles | frontend/src/App.js:140-224 | every route under `/admin`, `/store-owner` and `/user` is guarded for the matching role |
| ClientRouting.OwnerCreateBeatsDetails | frontend/src/App.js:191-206 | `/store-owner/stores/create` shows the creation page, not the details page with id `create` |
| ClientRouting.RootGoesToLogin | frontend/src/App.js:128 | `/` leads to the login page for everyone |
| ClientRouting.StoresLinkFallsThrough | frontend/src/components/common/Navbar.js:48-56 | the "Stores" link names a path no route declares, so it falls to `/` and from there to login |
| ClientForms.TestEmail | frontend/src/components/common/Register.js:37-38 | a one-pass scan accepts exactly the texts the email regular expression accepts |
| ClientForms.ValidateAccountForm | frontend/src/components/common/Register.js:28-55 | an error is set on a field exactly when its rule fails (lengths in UTF-16 code units), with that rule's message, and the form is valid exactly when all four rules hold |
| ClientForms.SubmitRegister | frontend/src/components/common/Register.js:64-155 | the registration page sends the four fields exactly when none is empty (the `required` attributes) and the form is valid |
| ClientForms.RequiredAddsOnlyAddress | frontend/src/components/common/Register.js:98-155 | of the `required` attributes only the address's refuses a form the validation accepts |
| ClientForms.AccountFormMeetsServer | frontend/src/components/common/Register.js:31-51 | a form the validation accepts meets the server's name, address and password-length rules and its password rule in either mode; the server's validators still need a non-blank name, a non-empty address (which `required` enforces) and the email validator; creation then succeeds exactly when those hold and the role is known |
| ClientForms.AcceptedRegistrationSucceeds | frontend/src/components/common/Register.js:64-76 | a registration the page submits succeeds exactly when the email is unused, passes the email validator and the name is not blank |
| ClientForms.RoleOptionsAreRoles | frontend/src/components/admin/CreateUser.js:171-173 | the role select offers each of the three roles once and starts on `'user'` |
| ClientForms.SubmitCreateUser | frontend/src/components/admin/CreateUser.js:68-159 | the user creation page sends the fields and the chosen role exactly when none is empty and the form is valid |
| ClientForms.AcceptedUserCreated | frontend/src/components/admin/CreateUser.js:68-80 | a creation form the page submits succeeds under the same conditions as registration, and the user gets the chosen role |
| ClientForms.ValidatePasswordForm | frontend/src/components/common/PasswordUpdate.js:26-42 | the new password gets an error exactly when it breaks the policy, the confirmation exactly when it differs; the form is valid exactly when neither happens |
| ClientForms.SubmitPasswordUpdate | frontend/src/components/common/PasswordUpdate.js:51-140 | a form with no empty field that the validation accepts sends the current and new password; the fields are cleared exactly on success |
| ClientForms.AcceptedPasswordChangeSucceeds | frontend/src/components/common/PasswordUpdate.js:62-66 | a valid password form's change succeeds exactly when the caller exists and the current password compares |
| ClientForms.ValidateStoreForm | frontend/src/components/admin/CreateStore.js:59-82 | the name errs exactly when blank, the email exactly when the pattern fails, the address exactly when blank or over 400 UTF-16 code units, each with its message |
| ClientForms.SubmitAdminStore | frontend/src/components/admin/CreateStore.js:91-103 | the admin page sends the fields and the chosen owner exactly when the form is valid |
| ClientForms.AcceptedStoreCreated | frontend/src/components/admin/CreateStore.js:91-103 | a valid admin store form succeeds exactly when the email is unused, a given owner exists, the email passes the validator and the name fits 60 characters |
| ClientForms.ListedWithRole | frontend/src/components/admin/CreateStore.js:42-43 | every user listed for a role has that role and exists |
| ClientForms.NonAdminsAreCandidates | frontend/src/components/admin/CreateStore.js:41-49 | every store owner and normal user is offered as an owner |
| ClientForms.CandidatesAreNonAdmins | frontend/src/components/admin/CreateStore.js:41-49 | every offered owner exists and is not an administrator |
| ClientForms.StoreOwnersFirst | frontend/src/components/admin/CreateStore.js:46-49 | the offered owners list the store owners before the normal users |
| ClientForms.SubmitOwnerStore | frontend/src/components/storeOwner/CreateStore.js:60-73 | the owner page sends name, email and address and no owner exactly when the form is valid |
| ClientForms.OwnerFormStoreUnowned | frontend/src/components/storeOwner/CreateStore.js:70-72 | a store created from the owner page has no owner, and no user is promoted |
| ClientLists.RequestSort | frontend/src/components/admin/UserList.js:65-69 | clicking a column sorts by it, descending exactly when it was already sorted ascending by it |
| ClientLists.RequestSortAlternates | frontend/src/components/admin/UserList.js:65-69 | clicking the same column again flips the direction, and a third click restores the first state |
| ClientLists.RequestOtherColumnAscends | frontend/src/components/admin/UserList.js:65-69 | clicking a column other than the current one sorts ascending by it |
| ClientLists.CompareMeaning | frontend/src/components/admin/UserList.js:71-79 | the comparator is 0 exactly for equal keys, antisymmetric, and at most 0 exactly when the pair is in the chosen order |
| ClientLists.SortedUsers | frontend/src/components/admin/UserList.js:71-79 | the shown users are a permutation of the fetched users with the comparator at most 0 for every earlier-later pair |
| ClientLists.SortedStores | frontend/src/components/admin/StoreList.js:70-87 | the shown stores are a permutation of the fetched stores with the comparator at most 0 for every earlier-later pair |
| ClientLists.StoresByRating | frontend/src/components/admin/StoreList.js:74-78 | sorted by rating, the stores are ordered by their rating with a missing rating counted as 0 |
| ClientLists.RoleLabel | frontend/src/components/admin/UserList.js:223-224 | the table shows "Administrator" exactly for `'admin'`, "Store Owner" exactly for `'store_owner'`, and "Normal User" otherwise |
| ClientLists.RoleLabelAgreesWithMenu | frontend/src/components/admin/UserList.js:223-224 | the table labels every role as the creation page's select does, and tells the three roles apart |
| ClientLists.SearchStores | frontend/src/components/user/Dashboard.js:34-47 | a blank term shows every store; any other term shows, in order, exactly the stores whose lower-cased name or address contains the lower-cased term |
| ClientLists.SearchIgnoresCase | frontend/src/components/user/Dashboard.js:39-43 | terms equal up to case show the same stores |
| ClientLists.RatingDistribution | frontend/src/components/storeOwner/StoreDetails.js:53-67 | the distribution has the five star buckets plus any other rated value, each holding the number of ratings with that value |
| ClientLists.StarsAddUp | frontend/src/components/storeOwner/StoreDetails.js:53-67 | when every rating is a whole star, the five buckets add up to the number of ratings |
| ClientLists.StoreDetailsSummary | frontend/src/components/storeOwner/StoreDetails.js:38-95 | a missing ratings field counts as no ratings, giving five empty buckets and a total of 0; otherwise the total is the number of ratings |

## Left out

- `backend/models/Rating.js` is not part of this model. A rating row is stored as
  accepted by the controller, with its value as a JavaScript number (`real`).
- The route files, `server.js`, `checkDb.js` and `testRoutes.js` are not modelled, apart
  from the users router's root (`AccessGate.UsersRouterRootOpen`). The gate is stated for
  the path it is given. Inside a mounted router that path is relative to the mount point.
- bcrypt's salt and cost, and JWT signing, its secret and expiry checking, are left out.
  A digest stands for an ideal hash of the first 72 UTF-8 bytes of the password, which is
  all bcrypt reads. A token is its claims (user id, 24-hour lifetime). This is because
  they are library code.
- Schema.HashMatches: a password holding U+0000 is not modelled. The native binding hands
  bcrypt a C string, which ends at that byte.
- Text.Utf8: JavaScript strings with unpaired surrogates are not modelled. A Dafny
  character is a Unicode scalar value.
- UserModel.ValidName: the server's `len` validators count code points, where the
  validator library also leaves U+FE0E and U+FE0F uncounted; that exception is not
  modelled. The same holds for UserModel.ValidPasswordLength, UserModel.ValidAddress,
  StoreModel.ValidStoreName and StoreModel.ValidStoreAddress.
- The email validator of the server is an input function, because it is library code.
- Sequelize `LIKE` is modelled as plain substring search. Its `%` and `_` metacharacters
  and any case-insensitive database collation are left out, because they depend on the
  database.
- JavaScript `toLowerCase` is modelled for ASCII only. Unicode case mapping is left out.
- Strings compare by code point. UTF-16 code-unit order and database collations are left
  out.
- The client sort's result is stated up to the order of equal keys. `Array.prototype.sort`
  stability is not claimed.
- NaN ratings and the `|| 0` rule applied to NaN are left out. Ratings are reals.
- Timestamps (`createdAt`, `updatedAt`, `ratedAt`) are left out, because they come from
  the clock.
- The 500 replies for database connection and storage failures are left out, and so is
  all console logging. The 500 for a new rating whose user does not exist is modelled.
- Requests are handled one at a time. The race between the existing-rating check and the
  insert, and between the duplicate-email check and the insert, is left out.
- Parsing a path string into segments on the client is left out. Client paths are
  sequences of segments.
- Non-numeric ids in request parameters are left out. Ids are integers.
- `AVG` and `COUNT` returned by the database as strings, and their `parseFloat` and
  `parseInt`, are left out. The aggregates are exact numbers.
- The frontend services, `AuthContext`, the loading and error states, and the
  presentational parts of the components are left out, because they hold no decisions.
  The context holds no `isAuthenticated`, which `ClientRouting.HomeInApp` reflects.
- The owner's store-details page is stated for the `ratings` field as given. The page
  fetches the store through `/test/store/:id` (frontend/src/services/storeService.js:31,
  served by backend/routes/testRoutes.js:49-79), whose reply has no such field, so the
  page always shows no ratings. That route is not modelled.
- UserModel.Create: a validation failure is reported as the fixed text "Validation
  error". Sequelize's `ValidationError` message, which lists the message of every failed
  validator, is not derived, because it is library formatting.
- StoreModel.Create: the same abstraction of the validation failure text as in
  UserModel.Create.
- UserModel.ChangePassword: a new password equal to the stored digest's text, which
  `changed('password')` would not count as a change, is not modelled.

=== FILE: access_gate.dfy ===
/** The backend's access-control middleware: public-path classification, token
    extraction, `authenticateUser`, `optionalAuth` and the role gates `isAdmin`,
    `isStoreOwner`, `isUser`. The `DISABLE_AUTH` switch and production mode are explicit
    inputs; JWT verification is an input function from a token to the `id` claim it
    carries, or `None` when the token does not verify. */
module AccessGate {
  import opened Wrappers
  import opened Text
  import opened Schema

  /** `DISABLE_AUTH === 'true'` and `NODE_ENV === 'production'`. */
  datatype Env = Env(disableAuth: bool, production: bool)

  /** The two headers a token may come in; `None` for an absent header. */
  datatype Headers = Headers(xAuthToken: Option<string>, authorization: Option<string>)

  /** A middleware's decision: call `next()` with this `req.user`, or reply with an error. */
  datatype GateResult = Continue(user: Option<Principal>) | Reject(status: nat, message: string)

  /** The path list that bypasses authentication. */
  const PublicPaths: seq<string> := [
    "/api/auth/register",
    "/api/auth/login",
    "/api/ratings",
    "/api/stores",
    "/api/stores/",
    "/api/ratings/user",
    "/ping",
    "/",
    "/api/test",
    "/test"
  ]

  const StoreIdPrefix: string := "/api/stores/"

  /** `/^\/api\/stores\/\d+$/`: the prefix followed by one or more ASCII digits and nothing else. */
  predicate StoreIdPath(p: string) {
    && StartsWith(p, StoreIdPrefix)
    && |p| > |StoreIdPrefix|
    && forall k :: |StoreIdPrefix| <= k < |p| ==> IsDigit(p[k])
  }

  /** Position of the first `c` in `s`. */
  function IndexOf(s: string, c: char): (k: nat)
    requires c in s
    ensures k < |s| && s[k] == c
    ensures forall m :: 0 <= m < k ==> s[m] != c
  {
    if s[0] == c then 0 else 1 + IndexOf(s[1..], c)
  }

  /** An unanchored test of `pre.*post` against `path`. Both parts are read literally,
      not as regular expressions as `new RegExp(...)` would read them; the difference never
      shows, since no listed entry has a `*` (`NoWildcardEntries`). */
  predicate WildcardTest(path: string, pre: string, post: string)
    decreases |path|
  {
    (StartsWith(path, pre) && Contains(path[|pre|..], post))
    || (|path| > 0 && WildcardTest(path[1..], pre, post))
  }

  /** One entry of the `some` callback: exact, sub-path, or (for an entry with `*`) wildcard. */
  predicate EntryMatches(entry: string, path: string) {
    || path == entry
    || StartsWith(path, entry + "/")
    || ('*' in entry
        && WildcardTest(path, entry[..IndexOf(entry, '*')], entry[IndexOf(entry, '*') + 1..]))
  }

  predicate AnyEntryMatches(entries: seq<string>, path: string)
    decreases |entries|
  {
    |entries| > 0 && (EntryMatches(entries[0], path) || AnyEntryMatches(entries[1..], path))
  }

  /** `isPublicPath(path)`. */
  predicate IsPublicPath(path: string) {
    StoreIdPath(path) || AnyEntryMatches(PublicPaths, path)
  }

  /** An entry is matched by a path equal to it or starting with it and a slash. */
  ghost predicate PlainMatch(entries: seq<string>, path: string) {
    exists k :: 0 <= k < |entries| && (path == entries[k] || StartsWith(path, entries[k] + "/"))
  }

  lemma {:induction false} AnyEntryWithoutWildcard(entries: seq<string>, path: string)
    requires forall k :: 0 <= k < |entries| ==> '*' !in entries[k]
    ensures AnyEntryMatches(entries, path) <==> PlainMatch(entries, path)
    decreases |entries|
  {
    if |entries| > 0 {
      AnyEntryWithoutWildcard(entries[1..], path);
      if PlainMatch(entries[1..], path) {
        var k :| 0 <= k < |entries[1..]|
                 && (path == entries[1..][k] || StartsWith(path, entries[1..][k] + "/"));
        assert entries[k + 1] == entries[1..][k];
      }
      if PlainMatch(entries, path) && !EntryMatches(entries[0], path) {
        var k :| 0 <= k < |entries| && (path == entries[k] || StartsWith(path, entries[k] + "/"));
        assert k > 0 && entries[1..][k - 1] == entries[k];
      }
    }
  }

  /** `isPublicPath` holds exactly for store-id paths and for paths equal to a listed entry
      or extending one with `/`; the wildcard branch never fires, since no entry has `*`. */
  lemma PublicPathCharacterization(path: string)
    ensures IsPublicPath(path) <==> StoreIdPath(path) || PlainMatch(PublicPaths, path)
  {
    NoWildcardEntries();
    AnyEntryWithoutWildcard(PublicPaths, path);
  }

  lemma NoWildcardEntries()
    ensures forall k :: 0 <= k < |PublicPaths| ==> '*' !in PublicPaths[k]
  {
    forall k | 0 <= k < |PublicPaths|
      ensures '*' !in PublicPaths[k]
    {
      var e := PublicPaths[k];
      assert forall m :: 0 <= m < |e| ==> e[m] != '*';
    }
  }

  /** The `'/'` entry makes public only `/` itself and paths beginning with `//`. */
  lemma RootEntryMatches(path: string)
    ensures EntryMatches("/", path) <==> path == "/" || StartsWith(path, "//")
  {
    assert "/" + "/" == "//";
  }

  /** A path whose character at `i` is not the one `e + "/"` has there neither equals the
      entry `e` nor extends it with `/`. */
  lemma EntryMissesAt(p: string, e: string, i: nat)
    requires i < |p| && i <= |e|
    requires if i < |e| then e[i] != p[i] else p[i] != '/'
    ensures p != e && !StartsWith(p, e + "/")
  {
    assert (e + "/")[i] != p[i];
  }

  /** A list misses `p` when its first entry misses and the rest of the list misses. */
  lemma Peel(entries: seq<string>, p: string)
    requires |entries| > 0 && p != entries[0] && !StartsWith(p, entries[0] + "/")
    requires '*' !in entries[0]
    requires !AnyEntryMatches(entries[1..], p)
    ensures !AnyEntryMatches(entries, p)
  {
  }

  /** The last five entries miss every path whose second character is `a` and sixth `u`. */
  lemma LaterEntriesMiss(p: string)
    requires |p| > 5 && p[1] == 'a' && p[5] == 'u'
    ensures !AnyEntryMatches(PublicPaths[5..], p)
  {
    NoWildcardEntries();
    assert !AnyEntryMatches(PublicPaths[10..], p);
    EntryMissesAt(p, PublicPaths[9], 1);
    Peel(PublicPaths[9..], p);
    EntryMissesAt(p, PublicPaths[8], 5);
    Peel(PublicPaths[8..], p);
    EntryMissesAt(p, PublicPaths[7], 1);
    Peel(PublicPaths[7..], p);
    EntryMissesAt(p, PublicPaths[6], 1);
    Peel(PublicPaths[6..], p);
    EntryMissesAt(p, PublicPaths[5], 5);
    Peel(PublicPaths[5..], p);
  }

  /** No entry matches a path whose second character is `a` and sixth `u`. */
  lemma EntriesMiss(p: string)
    requires |p| > 5 && p[1] == 'a' && p[5] == 'u'
    ensures !AnyEntryMatches(PublicPaths, p)
  {
    NoWildcardEntries();
    LaterEntriesMiss(p);
    EntryMissesAt(p, PublicPaths[4], 5);
    Peel(PublicPaths[4..], p);
    EntryMissesAt(p, PublicPaths[3], 5);
    Peel(PublicPaths[3..], p);
    EntryMissesAt(p, PublicPaths[2], 5);
    Peel(PublicPaths[2..], p);
    EntryMissesAt(p, PublicPaths[1], 5);
    Peel(PublicPaths[1..], p);
    EntryMissesAt(p, PublicPaths[0], 5);
    Peel(PublicPaths[0..], p);
    assert PublicPaths[0..] == PublicPaths;
  }

  /** No path that starts with `/api/users` is public. The gate never sees such a path on
      the user routes, though: it runs inside the users router and reads the path relative
      to the router's mount point (`UsersRouterRootOpen`). */
  lemma UsersPathsProtected(p: string)
    requires StartsWith(p, "/api/users")
    ensures !IsPublicPath(p)
  {
    assert p[..10] == "/api/users";
    assert p[1] == 'a' && p[5] == 'u';
    assert p[5] != StoreIdPrefix[5];
    EntriesMiss(p);
  }

  /** Every path below `/api/stores/` is public, not only the store-id paths: it extends the
      `/api/stores` entry with `/`. This includes the store owner's dashboard when the gate
      sees its full path. */
  lemma StoresSubpathsPublic(p: string)
    requires StartsWith(p, StoreIdPrefix)
    ensures IsPublicPath(p)
  {
    PublicPathCharacterization(p);
    assert PublicPaths[3] + "/" == StoreIdPrefix;
  }

  const BearerPrefix: string := "Bearer "

  /** The token the middleware reads: a non-empty `x-auth-token` wins; otherwise the
      `Authorization` value after `Bearer `; a token is only kept if non-empty. */
  function ExtractToken(h: Headers): (t: Option<string>)
    ensures t.Some? ==> t.value != ""
    ensures Truthy(h.xAuthToken) ==> t == h.xAuthToken
    ensures !Truthy(h.xAuthToken) ==>
      (t.Some? <==> h.authorization.Some? && StartsWith(h.authorization.value, BearerPrefix)
                    && |h.authorization.value| > |BearerPrefix|)
    ensures !Truthy(h.xAuthToken) && t.Some? ==> t.value == h.authorization.value[7..]
  {
    if Truthy(h.xAuthToken) then h.xAuthToken
    else
      match h.authorization
      case None => None
      case Some(a) =>
        if a != "" && StartsWith(a, BearerPrefix) && a[7..] != "" then Some(a[7..]) else None
  }

  /** The identity set on a bypassed request: the fixed test user outside production,
      none in production. */
  function DefaultIdentity(env: Env): Option<Principal> {
    if env.production then None else Some(DefaultPrincipal)
  }

  predicate Bypassed(env: Env, path: string) {
    env.disableAuth || IsPublicPath(path)
  }

  /** The user a request's token names, when it has a token that verifies and names a
      user in the table. */
  function TokenUser(h: Headers, verify: string -> Option<int>, users: seq<UserRow>): Option<UserRow> {
    match ExtractToken(h)
    case None => None
    case Some(t) =>
      match verify(t)
      case None => None
      case Some(id) => FindUser(users, id)
  }

  /** `authenticateUser`. */
  function Authenticate(env: Env, path: string, h: Headers, verify: string -> Option<int>,
                        users: seq<UserRow>): (r: GateResult)
    ensures Bypassed(env, path) ==> r == Continue(DefaultIdentity(env))
    ensures !Bypassed(env, path) ==>
      (r.Continue? <==> && ExtractToken(h).Some? && verify(ExtractToken(h).value).Some?
                        && FindUser(users, verify(ExtractToken(h).value).value).Some?)
    ensures !Bypassed(env, path) && r.Continue? ==>
      && r.user.Some? && r.user.value.Account?
      && r.user.value.user in users
      && verify(ExtractToken(h).value) == Some(r.user.value.user.id)
    ensures r.Reject? ==> r.status == 401
  {
    if Bypassed(env, path) then Continue(DefaultIdentity(env))
    else
      match ExtractToken(h)
      case None => Reject(401, "No authentication token, access denied")
      case Some(t) =>
        match verify(t)
        case None => Reject(401, "Token is not valid")
        case Some(id) =>
          match FindUser(users, id)
          case None => Reject(401, "User not found")
          case Some(u) => Continue(Some(Account(u)))
  }

  /** `optionalAuth`. */
  function OptionalAuth(env: Env, path: string, h: Headers, verify: string -> Option<int>,
                        users: seq<UserRow>): (r: GateResult)
    ensures r.Continue?
    ensures Bypassed(env, path) || TokenUser(h, verify, users).None? ==>
      r.user == DefaultIdentity(env)
    ensures !Bypassed(env, path) && TokenUser(h, verify, users).Some? ==>
      r.user == Some(Account(TokenUser(h, verify, users).value))
  {
    if Bypassed(env, path) then Continue(DefaultIdentity(env))
    else
      match ExtractToken(h)
      case None => Continue(DefaultIdentity(env))
      case Some(t) =>
        match verify(t)
        case None => Continue(DefaultIdentity(env))
        case Some(id) =>
          match FindUser(users, id)
          case None => Continue(DefaultIdentity(env))
          case Some(u) => Continue(Some(Account(u)))
  }

  /** Where `authenticateUser` lets a protected request through, `optionalAuth` sets the
      same user; where it answers 401, `optionalAuth` falls back to the default identity. */
  lemma OptionalAuthAgrees(env: Env, path: string, h: Headers, verify: string -> Option<int>,
                           users: seq<UserRow>)
    requires !Bypassed(env, path)
    ensures Authenticate(env, path, h, verify, users).Continue? ==>
      OptionalAuth(env, path, h, verify, users) == Authenticate(env, path, h, verify, users)
    ensures Authenticate(env, path, h, verify, users).Reject? ==>
      OptionalAuth(env, path, h, verify, users) == Continue(DefaultIdentity(env))
  {
  }

  /** A role gate: bypassed like authentication, otherwise 403 unless `req.user` exists and
      has exactly `role`. */
  function RequireRole(env: Env, path: string, user: Option<Principal>, role: Role, message: string)
    : (r: GateResult)
    ensures Bypassed(env, path) ==> r == Continue(user)
    ensures !Bypassed(env, path) ==>
      (r.Continue? <==> user.Some? && user.value.RoleOf() == role)
    ensures r.Continue? ==> r.user == user
    ensures r.Reject? ==> r.status == 403
  {
    if Bypassed(env, path) then Continue(user)
    else if user.None? || user.value.RoleOf() != role then Reject(403, message)
    else Continue(user)
  }

  function IsAdmin(env: Env, path: string, user: Option<Principal>): GateResult {
    RequireRole(env, path, user, Admin, "Access denied. Admin role required.")
  }

  function IsStoreOwner(env: Env, path: string, user: Option<Principal>): GateResult {
    RequireRole(env, path, user, StoreOwner, "Access denied. Store owner role required.")
  }

  function IsUser(env: Env, path: string, user: Option<Principal>): GateResult {
    RequireRole(env, path, user, NormalUser, "Access denied. User role required.")
  }

  /** `authenticateUser` followed by `isAdmin`, as on the admin routes. */
  function AdminChain(env: Env, path: string, h: Headers, verify: string -> Option<int>,
                      users: seq<UserRow>): GateResult {
    match Authenticate(env, path, h, verify, users)
    case Reject(s, m) => Reject(s, m)
    case Continue(u) => IsAdmin(env, path, u)
  }

  /** On a protected path the admin chain answers 401 without a token, 403 for a valid
      token of a non-admin, and lets through only a stored admin. */
  lemma AdminChainOnProtectedPath(env: Env, path: string, h: Headers, verify: string -> Option<int>,
                                  users: seq<UserRow>)
    requires !Bypassed(env, path)
    ensures ExtractToken(h).None? ==>
      AdminChain(env, path, h, verify, users) == Reject(401, "No authentication token, access denied")
    ensures TokenUser(h, verify, users).Some? && TokenUser(h, verify, users).value.role != Admin ==>
      AdminChain(env, path, h, verify, users).Reject? && AdminChain(env, path, h, verify, users).status == 403
    ensures AdminChain(env, path, h, verify, users).Continue? ==>
      && TokenUser(h, verify, users).Some?
      && TokenUser(h, verify, users).value.role == Admin
  {
  }

  /** On a public path outside production the admin chain lets any request through, as the
      default identity whose role is `'user'`: the gate does not enforce the role there. */
  lemma PublicPathAdminBypass(env: Env, path: string, h: Headers, verify: string -> Option<int>,
                              users: seq<UserRow>)
    requires IsPublicPath(path) && !env.production
    ensures AdminChain(env, path, h, verify, users) == Continue(Some(DefaultPrincipal))
    ensures DefaultPrincipal.RoleOf() == NormalUser && DefaultPrincipal.UserId() == 1
  {
  }

  /** The gate runs inside the routers and reads `req.path` relative to the mount point, so
      `GET /api/users` and `POST /api/users` reach it as `/`. That path is public through
      the `'/'` entry, so the admin chain lets every such request through: as the default
      identity outside production, with no user in production. */
  lemma UsersRouterRootOpen(env: Env, h: Headers, verify: string -> Option<int>, users: seq<UserRow>)
    ensures IsPublicPath("/")
    ensures AdminChain(env, "/", h, verify, users) == Continue(DefaultIdentity(env))
  {
    PublicPathCharacterization("/");
    assert PublicPaths[7] == "/";
  }
}

=== FILE: accounts.dfy ===
/** The authentication handlers: `register`, `login`, `updatePassword` and `getCurrentUser`.
    A signed token is represented by the claims it carries; signing and its secret are
    not modelled. */
module Accounts {
  import opened Wrappers
  import opened Seqs
  import opened Schema
  import opened UserModel
  import opened StoreRegistry
  import opened UserRegistry

  /** The claims of a token `jwt.sign` issues: the user id and the lifetime in hours. */
  datatype Token = Claims(id: int, expiresInHours: nat)

  const TokenLifetimeHours: nat := 24

  /** A token with the user it was issued to. */
  datatype Session = Session(token: Token, user: CreatedUser)

  /** The registration body: `register` reads no role from it. */
  datatype Registration = Registration(name: Option<string>, email: Option<string>,
                                       password: Option<string>, address: Option<string>)

  /** `register`: the duplicate check and `User.create` with the role fixed to `'user'`. */
  function Register(db: Db, body: Registration, production: bool, isEmail: string -> bool)
    : (st: Step<Session>)
    ensures var d := Draft(body.name, body.email, body.password, body.address, Some("user"));
      && (st.reply.Ok? <==> InsertUser(db, d, production, isEmail).reply.Ok?)
      && (InsertUser(db, d, production, isEmail).reply.Error? ==>
            st == Step(db, Error(400, InsertUser(db, d, production, isEmail).reply.message)))
      && (st.reply.Ok? ==>
            && st.reply.status == 201
            && st.db == InsertUser(db, d, production, isEmail).db
            && st.reply.value.user == Created(InsertUser(db, d, production, isEmail).reply.value))
    ensures st.reply.Ok? ==>
      && st.reply.value.user.role == NormalUser
      && st.reply.value.token == Claims(st.reply.value.user.id, TokenLifetimeHours)
      && FindUserByEmail(db.users, body.email.value).None?
  {
    var d := Draft(body.name, body.email, body.password, body.address, Some("user"));
    var ins := InsertUser(db, d, production, isEmail);
    match ins.reply
    case Error(s, m) => Step(ins.db, Error(s, m))
    case Ok(_, u) => Step(ins.db, Ok(201, Session(Claims(u.id, TokenLifetimeHours), Created(u))))
  }

  const CredentialsRequiredMessage: string := "Email and password are required"
  const InvalidCredentialsMessage: string := "Invalid credentials"

  /** `login`. */
  function Login(db: Db, email: Option<string>, password: Option<string>): (r: Reply<Session>)
    ensures !Truthy(email) || !Truthy(password) ==> r == Error(400, CredentialsRequiredMessage)
    ensures r.Ok? <==>
      && Truthy(email) && Truthy(password)
      && FindUserByEmail(db.users, email.value).Some?
      && ComparePassword(FindUserByEmail(db.users, email.value).value, password.value)
    ensures r.Ok? ==>
      && r.status == 200
      && r.value.user == Created(FindUserByEmail(db.users, email.value).value)
      && r.value.token == Claims(r.value.user.id, TokenLifetimeHours)
    ensures r.Error? ==> r.status == 400
  {
    if !Truthy(email) || !Truthy(password) then Error(400, CredentialsRequiredMessage)
    else
      match FindUserByEmail(db.users, email.value)
      case None => Error(400, InvalidCredentialsMessage)
      case Some(u) =>
        if !ComparePassword(u, password.value) then Error(400, InvalidCredentialsMessage)
        else Ok(200, Session(Claims(u.id, TokenLifetimeHours), Created(u)))
  }

  /** An unknown email and a wrong password get the same reply, so the reply does not tell
      which accounts exist. */
  lemma LoginFailuresIndistinguishable(db: Db, email: string, password: string)
    requires email != "" && password != ""
    requires FindUserByEmail(db.users, email).None?
             || !ComparePassword(FindUserByEmail(db.users, email).value, password)
    ensures Login(db, Some(email), Some(password)) == Error(400, InvalidCredentialsMessage)
  {
  }

  /** A freshly registered user can log in with the password it registered with, and gets
      the same user back. */
  lemma RegisterThenLogin(db: Db, body: Registration, production: bool, isEmail: string -> bool)
    requires !isEmail("")
    requires Register(db, body, production, isEmail).reply.Ok?
    ensures var st := Register(db, body, production, isEmail);
      var r := Login(st.db, body.email, body.password);
      r.Ok? && r.value.user == st.reply.value.user
  {
    var d := Draft(body.name, body.email, body.password, body.address, Some("user"));
    var ins := InsertUser(db, d, production, isEmail);
    var u := ins.reply.value;
    var users := ins.db.users;
    assert users == db.users + [u];
    assert FindUserByEmail(users, body.email.value) == Some(u) by {
      FirstAfterMiss(db.users, u, (v: UserRow) => v.email == body.email.value);
    }
    assert Matches(u.password, body.password.value);
  }

  /** When no element of `s` satisfies `p`, the first match in `s + [x]` is `x` itself. */
  lemma {:induction false} FirstAfterMiss<T>(s: seq<T>, x: T, p: T -> bool)
    requires First(s, p).None? && p(x)
    ensures First(s + [x], p) == Some(x)
    decreases |s|
  {
    if |s| == 0 {
      assert s + [x] == [x];
    } else {
      assert (s + [x])[1..] == s[1..] + [x];
      assert !p(s[0]);
      assert First(s[1..], p).None?;
      FirstAfterMiss(s[1..], x, p);
      assert FirstIndex(s[1..] + [x], p) == Some(|s| - 1);
    }
  }

  const CurrentPasswordMessage: string := "Current password is incorrect"
  /** bcrypt's refusal to compare with an absent candidate. */
  const MissingCandidateMessage: string := "data and hash arguments required"

  /** Replace the row with `u`'s id by `u`, at the first row with that id. */
  function ReplaceUser(users: seq<UserRow>, u: UserRow): (r: seq<UserRow>)
    ensures |r| == |users|
    ensures FindUser(users, u.id).None? ==> r == users
    ensures FindUser(users, u.id).Some? ==> FindUser(r, u.id) == Some(u)
    ensures forall k :: 0 <= k < |users| ==> r[k] == users[k] || (r[k] == u && users[k].id == u.id)
  {
    var p := (v: UserRow) => v.id == u.id;
    match FirstIndex(users, p)
    case None => users
    case Some(i) =>
      FirstIndexAfterUpdate(users, i, u, p);
      users[i := u]
  }

  /** `updatePassword` for a request whose `req.user` is `caller`. */
  function UpdatePassword(db: Db, caller: Option<Principal>, currentPassword: Option<string>,
                          newPassword: Option<string>, production: bool): (st: Step<()>)
    ensures st.db.stores == db.stores && st.db.ratings == db.ratings
    ensures caller.None? ==> st == Step(db, Error(400, NoCallerMessage))
    ensures caller.Some? && FindUser(db.users, caller.value.UserId()).None? ==>
      st == Step(db, Error(404, "User not found"))
    ensures caller.Some? && FindUser(db.users, caller.value.UserId()).Some? && currentPassword.Some?
            && !ComparePassword(FindUser(db.users, caller.value.UserId()).value, currentPassword.value) ==>
      st == Step(db, Error(400, CurrentPasswordMessage))
    ensures st.reply.Ok? <==>
      && caller.Some?
      && FindUser(db.users, caller.value.UserId()).Some?
      && currentPassword.Some?
      && ComparePassword(FindUser(db.users, caller.value.UserId()).value, currentPassword.value)
      && ChangePassword(FindUser(db.users, caller.value.UserId()).value, newPassword, production).Success?
    ensures st.reply.Ok? ==>
      && st.reply.status == 200
      && FindUser(st.db.users, caller.value.UserId())
         == Some(FindUser(db.users, caller.value.UserId()).value.(password := Hash(newPassword.value)))
    ensures st.reply.Ok? ==>
      var changed := FindUser(db.users, caller.value.UserId()).value.(password := Hash(newPassword.value));
      && |st.db.users| == |db.users|
      && (forall k :: 0 <= k < |db.users| && db.users[k].id != caller.value.UserId() ==>
            st.db.users[k] == db.users[k])
      && (forall k :: 0 <= k < |db.users| ==> st.db.users[k] in {db.users[k], changed})
    ensures st.reply.Error? ==> st.db == db && st.reply.status in {400, 404}
  {
    if caller.None? then Step(db, Error(400, NoCallerMessage))
    else
      match FindUser(db.users, caller.value.UserId())
      case None => Step(db, Error(404, "User not found"))
      case Some(u) =>
        if currentPassword.None? then Step(db, Error(400, MissingCandidateMessage))
        else if !ComparePassword(u, currentPassword.value) then Step(db, Error(400, CurrentPasswordMessage))
        else
          match ChangePassword(u, newPassword, production)
          case Failure(msg) => Step(db, Error(400, msg))
          case Success(v) =>
            assert FindUser(db.users, v.id) == Some(u);
            Step(db.(users := ReplaceUser(db.users, v)), Ok(200, ()))
  }

  /** After a password change the user logs in with the new password and with the
      passwords sharing its first 72 bytes, and with no other one, such as the old password
      unless bcrypt cannot tell it from the new one. In production only the new password
      logs in. */
  lemma UpdateThenLogin(db: Db, caller: Principal, current: string, newPassword: string,
                        production: bool, candidate: string)
    requires UniqueUserIds(db.users) && UniqueUserEmails(db.users)
    requires candidate != ""
    requires UpdatePassword(db, Some(caller), Some(current), Some(newPassword), production).reply.Ok?
    requires FindUser(db.users, caller.UserId()).value.email != ""
    ensures var after := UpdatePassword(db, Some(caller), Some(current), Some(newPassword), production).db;
      var email := FindUser(db.users, caller.UserId()).value.email;
      Login(after, Some(email), Some(candidate)).Ok? <==> SameBcryptInput(candidate, newPassword)
    ensures var after := UpdatePassword(db, Some(caller), Some(current), Some(newPassword), production).db;
      var email := FindUser(db.users, caller.UserId()).value.email;
      production ==> (Login(after, Some(email), Some(candidate)).Ok? <==> candidate == newPassword)
  {
    var u := FindUser(db.users, caller.UserId()).value;
    var v := u.(password := Hash(newPassword));
    var after := UpdatePassword(db, Some(caller), Some(current), Some(newPassword), production).db;
    assert after.users == ReplaceUser(db.users, v);
    var i :| 0 <= i < |db.users| && db.users[i] == u;
    assert after.users[i] == v;
    FindUserByEmailAfterReplace(db.users, after.users, i);
    HashMatches(newPassword, candidate);
    if production {
      StrongPasswordFitsKey(newPassword);
      ShortPasswordsCompareExactly(newPassword, candidate);
    }
  }

  /** Replacing row `i` by a row with the same email keeps the email lookup on row `i`. */
  lemma FindUserByEmailAfterReplace(before: seq<UserRow>, after: seq<UserRow>, i: nat)
    requires UniqueUserEmails(before) && |before| == |after| && i < |before|
    requires forall k :: 0 <= k < |before| ==> after[k].email == before[k].email
    ensures FindUserByEmail(after, before[i].email) == Some(after[i])
  {
  }

  /** `getCurrentUser` for a request whose `req.user` is `caller`: its row without the
      password. */
  function GetCurrentUser(db: Db, caller: Option<Principal>): (r: Reply<UserView>)
    ensures caller.None? ==> r == Error(400, NoCallerMessage)
    ensures caller.Some? ==>
      (FindUser(db.users, caller.value.UserId()).None? <==> r == Error(404, "User not found"))
    ensures r.Ok? <==> caller.Some? && FindUser(db.users, caller.value.UserId()).Some?
    ensures r.Ok? ==>
      && r.status == 200
      && r.value == ViewOf(FindUser(db.users, caller.value.UserId()).value)
      && r.value.id == caller.value.UserId()
  {
    if caller.None? then Error(400, NoCallerMessage)
    else
      match FindUser(db.users, caller.value.UserId())
      case None => Error(404, "User not found")
      case Some(u) => Ok(200, ViewOf(u))
  }
}

=== FILE: aggregation.dfy ===
/** Read-side aggregates over the Ratings table: the ratings of one store, their sum,
    count and mean. The mean is exact (`real`), and 0 when there is nothing to average,
    which is what the handlers report for a store nobody rated. */
module Aggregation {
  import opened Seqs
  import opened Schema

  /** The rows of `storeId`, in table order (`Rating.findAll({ where: { storeId } })`). */
  function RatingsOf(ratings: seq<RatingRow>, storeId: int): seq<RatingRow> {
    Filter(ratings, (r: RatingRow) => r.storeId == storeId)
  }

  /** The rating values of `rows`, in order. */
  function Values(rows: seq<RatingRow>): (vs: seq<real>)
    ensures |vs| == |rows|
    ensures forall k :: 0 <= k < |rows| ==> vs[k] == rows[k].value
  {
    seq(|rows|, k requires 0 <= k < |rows| => rows[k].value)
  }

  function Sum(vs: seq<real>): real
    decreases |vs|
  {
    if |vs| == 0 then 0.0 else vs[0] + Sum(vs[1..])
  }

  /** The mean of `vs`, or 0 for no values (never undefined). */
  function Average(vs: seq<real>): real {
    if |vs| == 0 then 0.0 else Sum(vs) / (|vs| as real)
  }

  /** A sum of values in `[lo, hi]` lies between `|vs| * lo` and `|vs| * hi`. */
  lemma {:induction false} SumWithin(vs: seq<real>, lo: real, hi: real)
    requires forall k :: 0 <= k < |vs| ==> lo <= vs[k] <= hi
    ensures (|vs| as real) * lo <= Sum(vs) <= (|vs| as real) * hi
    decreases |vs|
  {
    if |vs| > 0 {
      SumWithin(vs[1..], lo, hi);
    }
  }

  /** The mean of ratings that all lie in `[lo, hi]` lies in `[lo, hi]` too. */
  lemma AverageWithin(vs: seq<real>, lo: real, hi: real)
    requires |vs| > 0
    requires forall k :: 0 <= k < |vs| ==> lo <= vs[k] <= hi
    ensures lo <= Average(vs) <= hi
  {
    SumWithin(vs, lo, hi);
    var n := |vs| as real;
    assert Sum(vs) / n >= lo by {
      assert Sum(vs) >= n * lo;
    }
    assert Sum(vs) / n <= hi by {
      assert Sum(vs) <= n * hi;
    }
  }

  /** No ratings: mean 0 and count 0. */
  lemma NoRatingsAverageZero(ratings: seq<RatingRow>, storeId: int)
    requires forall k :: 0 <= k < |ratings| ==> ratings[k].storeId != storeId
    ensures Average(Values(RatingsOf(ratings, storeId))) == 0.0
    ensures |RatingsOf(ratings, storeId)| == 0
  {
  }

  /** Adding a value at the end adds it to the sum. */
  lemma {:induction false} SumAppend(vs: seq<real>, v: real)
    ensures Sum(vs + [v]) == Sum(vs) + v
    decreases |vs|
  {
    if |vs| == 0 {
      assert vs + [v] == [v];
      assert [v][1..] == [];
    } else {
      assert (vs + [v])[1..] == vs[1..] + [v];
      SumAppend(vs[1..], v);
    }
  }

  /** A new rating row changes the aggregates of its own store only: the count grows by one,
      the sum by the new value, and the mean is the new sum over the new count. Every
      other store keeps its rows. */
  lemma AppendedRatingAggregates(ratings: seq<RatingRow>, row: RatingRow, storeId: int)
    ensures row.storeId != storeId ==> RatingsOf(ratings + [row], storeId) == RatingsOf(ratings, storeId)
    ensures row.storeId == storeId ==>
      var before, after := Values(RatingsOf(ratings, storeId)), Values(RatingsOf(ratings + [row], storeId));
      && |after| == |before| + 1
      && Sum(after) == Sum(before) + row.value
      && Average(after) == (Sum(before) + row.value) / ((|before| + 1) as real)
  {
    var p := (r: RatingRow) => r.storeId == storeId;
    FilterAppend(ratings, row, p);
    if row.storeId == storeId {
      var rows := RatingsOf(ratings, storeId);
      assert Values(rows + [row]) == Values(rows) + [row.value];
      SumAppend(Values(rows), row.value);
    }
  }
}

=== FILE: client_forms.dfy ===
/** The browser-side form checks (`validateForm`) of the registration, user creation,
    password change and store creation pages, what each page submits, and how the
    checks relate to the server's validators. */
module ClientForms {
  import opened Wrappers
  import opened Text
  import opened Seqs
  import opened Policy
  import opened Schema
  import opened UserModel
  import opened StoreModel
  import opened StoreRegistry
  import opened UserRegistry
  import opened Accounts

  /** `emailRegex.test(s)` as one left-to-right pass: it remembers the first `@`, whether
      another `@` follows it, whether white space occurs, and whether a `.` has been seen
      where it can separate the domain run from the last run. */
  method TestEmail(s: string) returns (ok: bool)
    ensures ok <==> EmailPattern(s)
  {
    var at: Option<nat> := None;
    var secondAt, space, dot := false, false, false;
    var i := 0;
    while i < |s|
      invariant 0 <= i <= |s|
      invariant at.None? <==> forall k :: 0 <= k < i ==> s[k] != '@'
      invariant at.Some? ==> at.value < i && s[at.value] == '@'
      invariant at.Some? ==> forall k :: 0 <= k < at.value ==> s[k] != '@'
      invariant secondAt <==> at.Some? && exists k :: at.value < k < i && s[k] == '@'
      invariant space <==> exists k :: 0 <= k < i && IsSpace(s[k])
      invariant dot <==> at.Some? && exists j :: at.value + 1 < j < i && j < |s| - 1 && s[j] == '.'
    {
      if s[i] == '@' {
        if at.None? {
          at := Some(i);
        } else {
          secondAt := true;
        }
      } else if s[i] == '.' && at.Some? && at.value + 1 < i < |s| - 1 {
        dot := true;
      }
      space := space || IsSpace(s[i]);
      i := i + 1;
    }
    ok := at.Some? && at.value > 0 && !secondAt && !space && dot;
    EmailPatternShape(s);
    if EmailShape(s) {
      var a :| && 0 < a < |s| && s[a] == '@'
               && (forall k :: 0 <= k < |s| && k != a ==> s[k] != '@')
               && (exists j :: a + 1 < j < |s| - 1 && s[j] == '.');
      assert at.Some? && at.value == a;
    }
  }

  /** The fields a form can flag: the keys of its `errors` object. */
  datatype Field = NameField | EmailField | PasswordField | AddressField
                 | NewPasswordField | ConfirmField

  /** The `errors` object; the form is valid when it has no keys. */
  type Errors = map<Field, string>

  const NameLengthMessage: string := "Name must be between 20 and 60 characters"
  const EmailFormatMessage: string := "Please enter a valid email address"
  const AddressLengthMessage: string := "Address must not exceed 400 characters"
  const MismatchMessage: string := "Passwords do not match"
  const StoreNameRequiredMessage: string := "Store name is required"
  const AddressRequiredMessage: string := "Address is required"

  // Registration and user creation

  /** The four account fields of the registration and user creation forms. */
  datatype AccountForm = AccountForm(name: string, email: string, password: string, address: string)

  /** What the account forms accept, read declaratively: a name of 20 to 60 characters, an
      email of the shape the pattern describes, a password meeting the policy, and an
      address of at most 400 characters (possibly empty). Lengths are JavaScript's
      `length`, in UTF-16 code units. */
  predicate AccountFormAccepted(f: AccountForm) {
    && 20 <= Utf16Length(f.name) <= 60
    && EmailShape(f.email)
    && StrongPassword(f.password)
    && Utf16Length(f.address) <= 400
  }

  /** `validateForm` of the registration and user creation pages. */
  method ValidateAccountForm(f: AccountForm) returns (errors: Errors)
    ensures errors.Keys <= {NameField, EmailField, PasswordField, AddressField}
    ensures NameField in errors <==> !(20 <= Utf16Length(f.name) <= 60)
    ensures EmailField in errors <==> !EmailShape(f.email)
    ensures PasswordField in errors <==> !StrongPassword(f.password)
    ensures AddressField in errors <==> Utf16Length(f.address) > 400
    ensures NameField in errors ==> errors[NameField] == NameLengthMessage
    ensures EmailField in errors ==> errors[EmailField] == EmailFormatMessage
    ensures PasswordField in errors ==> errors[PasswordField] == PolicyMessage
    ensures AddressField in errors ==> errors[AddressField] == AddressLengthMessage
    ensures errors == map[] <==> AccountFormAccepted(f)
  {
    errors := map[];
    if Utf16Length(f.name) < 20 || Utf16Length(f.name) > 60 {
      errors := errors[NameField := NameLengthMessage];
    }
    var emailOk := TestEmail(f.email);
    EmailPatternShape(f.email);
    if !emailOk {
      errors := errors[EmailField := EmailFormatMessage];
    }
    var passwordOk := TestPassword(f.password);
    if !passwordOk {
      errors := errors[PasswordField := PolicyMessage];
    }
    if Utf16Length(f.address) > 400 {
      errors := errors[AddressField := AddressLengthMessage];
    }
  }

  /** The four fields carry `required`: while one is empty the browser refuses the submit
      before `validateForm` runs. White space alone counts as filled. */
  predicate AccountFieldsFilled(f: AccountForm) {
    f.name != "" && f.email != "" && f.password != "" && f.address != ""
  }

  /** Of the `required` checks only the address's adds anything to `validateForm`: the
      name, email and password rules already refuse an empty field. */
  lemma RequiredAddsOnlyAddress(f: AccountForm)
    ensures AccountFieldsFilled(f) && AccountFormAccepted(f) <==> AccountFormAccepted(f) && f.address != ""
  {
    if AccountFormAccepted(f) {
      assert |f.email| > 0;
      StrongPasswordLength(f.password);
    }
  }

  /** The body the account forms send for their four fields. */
  function AccountDraft(f: AccountForm, role: Option<string>): Draft {
    Draft(Some(f.name), Some(f.email), Some(f.password), Some(f.address), role)
  }

  /** The registration page's submit: a form with an empty field or one `validateForm`
      flags sends nothing; otherwise it sends its four fields. */
  method SubmitRegister(f: AccountForm) returns (request: Option<Registration>)
    ensures request.Some? <==> AccountFieldsFilled(f) && AccountFormAccepted(f)
    ensures request.Some? ==>
      request.value == Registration(Some(f.name), Some(f.email), Some(f.password), Some(f.address))
  {
    if !AccountFieldsFilled(f) {
      return None;
    }
    var errors := ValidateAccountForm(f);
    if errors == map[] {
      request := Some(Registration(Some(f.name), Some(f.email), Some(f.password), Some(f.address)));
    } else {
      request := None;
    }
  }

  /** An account form `validateForm` accepts meets every server validator on its own fields
      except two that function does not check: the name must not be all white space, and the
      address must not be empty, which the address field's `required` attribute enforces
      (`AccountFieldsFilled`). The password passes the hook in production as well as outside
      it, so a creation from it succeeds exactly when those validators pass and the role is
      one of the enum's. */
  lemma AccountFormMeetsServer(f: AccountForm, role: Option<string>, production: bool,
                               isEmail: string -> bool)
    requires AccountFormAccepted(f)
    ensures 2 <= |f.name| <= 60 && |f.address| <= 400
    ensures ValidPasswordLength(f.password) && PasswordRule(production, f.password)
    ensures FieldsValid(AccountDraft(f, role), isEmail) <==>
      !IsBlank(f.name) && f.address != "" && isEmail(f.email)
    ensures forall users :: UserModel.Create(users, AccountDraft(f, role), production, isEmail).Success? <==>
      !IsBlank(f.name) && f.address != "" && isEmail(f.email) && ResolveRole(role).Some?
  {
    StrongPasswordLength(f.password);
  }

  /** A registration the page submits succeeds on the server unless the email is taken,
      the server's email validator refuses it or the name is all white space, whatever the
      environment. */
  lemma AcceptedRegistrationSucceeds(db: Db, f: AccountForm, production: bool,
                                     isEmail: string -> bool)
    requires AccountFieldsFilled(f) && AccountFormAccepted(f)
    ensures var body := Registration(Some(f.name), Some(f.email), Some(f.password), Some(f.address));
      Register(db, body, production, isEmail).reply.Ok? <==>
        && FindUserByEmail(db.users, f.email).None?
        && isEmail(f.email) && !IsBlank(f.name)
  {
    AccountFormMeetsServer(f, Some("user"), production, isEmail);
    assert AccountDraft(f, Some("user")) == Draft(Some(f.name), Some(f.email), Some(f.password),
                                                 Some(f.address), Some("user"));
  }

  /** The user creation form: the account fields and the selected role. */
  datatype CreateUserForm = CreateUserForm(account: AccountForm, role: string)

  /** The values the role select offers. */
  const RoleOptions: seq<string> := ["user", "store_owner", "admin"]

  /** The form as the page first shows it: empty fields and role `'user'`. */
  const InitialCreateUserForm: CreateUserForm := CreateUserForm(AccountForm("", "", "", ""), "user")

  /** The role select offers exactly the three roles, each once, and starts on the normal
      user role. */
  lemma RoleOptionsAreRoles()
    ensures forall r :: r in RoleOptions ==> ParseRole(r).Some?
    ensures forall q: Role :: RoleName(q) in RoleOptions
    ensures |RoleOptions| == 3 && RoleOptions[0] != RoleOptions[1] && RoleOptions[1] != RoleOptions[2]
    ensures RoleOptions[0] != RoleOptions[2]
    ensures ParseRole(InitialCreateUserForm.role) == Some(NormalUser)
  {
  }

  /** The user creation page's submit: a form with an empty field or one `validateForm`
      flags sends nothing; otherwise it sends the four fields and the selected role. */
  method SubmitCreateUser(f: CreateUserForm) returns (request: Option<Draft>)
    ensures request.Some? <==> AccountFieldsFilled(f.account) && AccountFormAccepted(f.account)
    ensures request.Some? ==> request.value == AccountDraft(f.account, Some(f.role))
  {
    if !AccountFieldsFilled(f.account) {
      return None;
    }
    var errors := ValidateAccountForm(f.account);
    request := if errors == map[] then Some(AccountDraft(f.account, Some(f.role))) else None;
  }

  /** A user the admin page submits, with a role from the select, is created with that role
      unless the email is taken, the server's email validator refuses it or the name is all
      white space. */
  lemma AcceptedUserCreated(db: Db, f: CreateUserForm, production: bool, isEmail: string -> bool)
    requires AccountFieldsFilled(f.account) && AccountFormAccepted(f.account) && f.role in RoleOptions
    ensures var st := CreateUser(db, AccountDraft(f.account, Some(f.role)), production, isEmail);
      && (st.reply.Ok? <==>
            && FindUserByEmail(db.users, f.account.email).None?
            && isEmail(f.account.email) && !IsBlank(f.account.name))
      && (st.reply.Ok? ==> RoleName(st.reply.value.role) == f.role)
  {
    RoleOptionsAreRoles();
    AccountFormMeetsServer(f.account, Some(f.role), production, isEmail);
  }

  // Password change

  datatype PasswordForm = PasswordForm(currentPassword: string, newPassword: string,
                                       confirmPassword: string)

  const EmptyPasswordForm: PasswordForm := PasswordForm("", "", "")

  /** The three password fields carry `required`: while one is empty the browser refuses
      the submit before `validateForm` runs. */
  predicate PasswordFieldsFilled(f: PasswordForm) {
    f.currentPassword != "" && f.newPassword != "" && f.confirmPassword != ""
  }

  /** The new password meets the policy and the confirmation repeats it; the current
      password is not looked at. */
  predicate PasswordFormAccepted(f: PasswordForm) {
    StrongPassword(f.newPassword) && f.confirmPassword == f.newPassword
  }

  /** `validateForm` of the password change page. */
  method ValidatePasswordForm(f: PasswordForm) returns (errors: Errors)
    ensures errors.Keys <= {NewPasswordField, ConfirmField}
    ensures NewPasswordField in errors <==> !StrongPassword(f.newPassword)
    ensures ConfirmField in errors <==> f.confirmPassword != f.newPassword
    ensures NewPasswordField in errors ==> errors[NewPasswordField] == PolicyMessage
    ensures ConfirmField in errors ==> errors[ConfirmField] == MismatchMessage
    ensures errors == map[] <==> PasswordFormAccepted(f)
  {
    errors := map[];
    var ok := TestPassword(f.newPassword);
    if !ok {
      errors := errors[NewPasswordField := PolicyMessage];
    }
    if f.newPassword != f.confirmPassword {
      errors := errors[ConfirmField := MismatchMessage];
    }
  }

  /** The password change page's submit against `updatePassword`: a form with an empty
      field or one `validateForm` flags sends nothing; otherwise it sends the current and the new password (never the confirmation),
      and on success all three fields are cleared. `st` is the server's step, if a request
      was sent. */
  method SubmitPasswordUpdate(db: Db, caller: Option<Principal>, f: PasswordForm, production: bool)
    returns (st: Option<Step<()>>, after: PasswordForm)
    ensures st.Some? <==> PasswordFieldsFilled(f) && PasswordFormAccepted(f)
    ensures st.Some? ==>
      st.value == UpdatePassword(db, caller, Some(f.currentPassword), Some(f.newPassword), production)
    ensures st.Some? && st.value.reply.Ok? ==> after == EmptyPasswordForm
    ensures st.None? || st.value.reply.Error? ==> after == f
  {
    if !PasswordFieldsFilled(f) {
      return None, f;
    }
    var errors := ValidatePasswordForm(f);
    if errors != map[] {
      return None, f;
    }
    var step := UpdatePassword(db, caller, Some(f.currentPassword), Some(f.newPassword), production);
    st := Some(step);
    after := if step.reply.Ok? then EmptyPasswordForm else f;
  }

  /** Once the page accepts the form, the server's policy never refuses the new password:
      the request succeeds exactly when the caller exists and the current password is
      right. */
  lemma AcceptedPasswordChangeSucceeds(db: Db, caller: Principal, f: PasswordForm, production: bool)
    requires PasswordFormAccepted(f)
    ensures var st := UpdatePassword(db, Some(caller), Some(f.currentPassword), Some(f.newPassword), production);
      st.reply.Ok? <==>
        && FindUser(db.users, caller.UserId()).Some?
        && ComparePassword(FindUser(db.users, caller.UserId()).value, f.currentPassword)
  {
    StrongPasswordLength(f.newPassword);
  }

  // Store creation

  /** Both store forms: a non-blank name, an email of the pattern's shape, and a non-blank
      address of at most 400 UTF-16 code units counted before trimming. The name has no
      upper bound here. */
  predicate StoreFormAccepted(name: string, email: string, address: string) {
    && !IsBlank(name)
    && EmailShape(email)
    && !IsBlank(address)
    && Utf16Length(address) <= 400
  }

  /** `validateForm` of both store creation pages. */
  method ValidateStoreForm(name: string, email: string, address: string) returns (errors: Errors)
    ensures errors.Keys <= {NameField, EmailField, AddressField}
    ensures NameField in errors <==> IsBlank(name)
    ensures EmailField in errors <==> !EmailShape(email)
    ensures AddressField in errors <==> IsBlank(address) || Utf16Length(address) > 400
    ensures NameField in errors ==> errors[NameField] == StoreNameRequiredMessage
    ensures EmailField in errors ==> errors[EmailField] == EmailFormatMessage
    ensures AddressField in errors && IsBlank(address) ==> errors[AddressField] == AddressRequiredMessage
    ensures AddressField in errors && !IsBlank(address) ==> errors[AddressField] == AddressLengthMessage
    ensures errors == map[] <==> StoreFormAccepted(name, email, address)
  {
    var nameBlank := Trim(name) == "";
    var emailOk := TestEmail(email);
    EmailPatternShape(email);
    var addressBlank := Trim(address) == "";
    errors := StoreFormErrors(nameBlank, !emailOk, addressBlank, Utf16Length(address) > 400);
  }

  /** The `errors` object of the store forms, from the outcome of each check. */
  function StoreFormErrors(nameBlank: bool, emailBad: bool, addressBlank: bool, addressLong: bool)
    : (errors: Errors)
    ensures errors.Keys <= {NameField, EmailField, AddressField}
    ensures NameField in errors <==> nameBlank
    ensures EmailField in errors <==> emailBad
    ensures AddressField in errors <==> addressBlank || addressLong
    ensures NameField in errors ==> errors[NameField] == StoreNameRequiredMessage
    ensures EmailField in errors ==> errors[EmailField] == EmailFormatMessage
    ensures AddressField in errors ==>
      errors[AddressField] == if addressBlank then AddressRequiredMessage else AddressLengthMessage
    ensures errors == map[] <==> !nameBlank && !emailBad && !addressBlank && !addressLong
  {
    var e1: Errors := if nameBlank then map[NameField := StoreNameRequiredMessage] else map[];
    var e2 := if emailBad then e1[EmailField := EmailFormatMessage] else e1;
    var e3 := if addressBlank then e2[AddressField := AddressRequiredMessage]
              else if addressLong then e2[AddressField := AddressLengthMessage]
              else e2;
    assert NameField in e3 ==> NameField in e1;
    e3
  }

  /** The admin's store form. `ownerId` is the owner select's value: `None` for its empty
      entry `''`, which the store service sends as `null`. */
  datatype StoreForm = StoreForm(name: string, email: string, address: string, ownerId: Option<int>)

  /** The admin page's submit: an invalid form sends nothing; a valid one sends the fields
      and the chosen owner, or no owner. */
  method SubmitAdminStore(f: StoreForm) returns (request: Option<StoreDraft>)
    ensures request.Some? <==> StoreFormAccepted(f.name, f.email, f.address)
    ensures request.Some? ==>
      request.value == StoreDraft(Some(f.name), Some(f.email), Some(f.address), f.ownerId)
  {
    var errors := ValidateStoreForm(f.name, f.email, f.address);
    request := if errors == map[] then Some(StoreDraft(Some(f.name), Some(f.email), Some(f.address), f.ownerId))
               else None;
  }

  /** A store form the page accepts creates the store unless the email is taken, the owner
      does not exist, the server's email validator refuses the email or the name is longer
      than the 60 characters the client never checks. */
  lemma AcceptedStoreCreated(db: Db, f: StoreForm, isEmail: string -> bool)
    requires StoreFormAccepted(f.name, f.email, f.address)
    ensures var d := StoreDraft(Some(f.name), Some(f.email), Some(f.address), f.ownerId);
      CreateStore(db, d, isEmail).reply.Ok? <==>
        && FindStoreByEmail(db.stores, f.email).None?
        && (TruthyNumber(f.ownerId) ==> FindUser(db.users, f.ownerId.value).Some?)
        && isEmail(f.email) && |f.name| <= 60
  {
  }

  /** The user list query that filters by role only. */
  function RoleQuery(role: Role): UserQuery {
    UserQuery(None, None, None, Some(RoleName(role)))
  }

  /** The owner select's entries: the store owners, then the normal users, each list as
      `getAllUsers` returns it for that role. */
  function OwnerCandidates(users: seq<UserRow>): seq<UserView> {
    GetAllUsers(users, RoleQuery(StoreOwner)).value + GetAllUsers(users, RoleQuery(NormalUser)).value
  }

  /** Every entry of a role-filtered user list has that role and names an existing user. */
  lemma ListedWithRole(users: seq<UserRow>, role: Role, v: UserView)
    requires v in GetAllUsers(users, RoleQuery(role)).value
    ensures v.role == role && FindUser(users, v.id).Some?
  {
    var q := RoleQuery(role);
    assert ParseRole(RoleName(role)) == Some(role);
    assert RoleFilter(q) == Some(role);
    var p := (u: UserRow) => Keep(q, RoleFilter(q), u);
    var kept := Filter(users, p);
    assert v in multiset(GetAllUsers(users, q).value);
    assert v in multiset(Views(kept));
    var m :| 0 <= m < |kept| && Views(kept)[m] == v;
    assert kept[m] in users && p(kept[m]);
    var i :| 0 <= i < |users| && users[i] == kept[m];
    assert users[i].id == v.id;
  }

  /** Every store owner and every normal user is a candidate. */
  lemma NonAdminsAreCandidates(users: seq<UserRow>, k: nat)
    requires UniqueUserIds(users)
    requires k < |users| && users[k].role != Admin
    ensures ViewOf(users[k]) in OwnerCandidates(users)
  {
    GetAllUsersListsMatches(users, RoleQuery(StoreOwner), k);
    GetAllUsersListsMatches(users, RoleQuery(NormalUser), k);
  }

  /** The same for a whole role-filtered list. */
  lemma AllListedWithRole(users: seq<UserRow>, role: Role)
    ensures forall v :: v in GetAllUsers(users, RoleQuery(role)).value ==>
      v.role == role && FindUser(users, v.id).Some?
  {
    forall v | v in GetAllUsers(users, RoleQuery(role)).value
      ensures v.role == role && FindUser(users, v.id).Some?
    {
      ListedWithRole(users, role, v);
    }
  }

  /** Every candidate is a store owner or a normal user and names an existing user, so
      choosing one never draws the server's owner-not-found reply. */
  lemma CandidatesAreNonAdmins(users: seq<UserRow>)
    ensures forall v :: v in OwnerCandidates(users) ==>
      v.role != Admin && FindUser(users, v.id).Some?
  {
    AllListedWithRole(users, StoreOwner);
    AllListedWithRole(users, NormalUser);
  }

  /** The store owners come before the normal users. */
  lemma StoreOwnersFirst(users: seq<UserRow>)
    ensures var r := OwnerCandidates(users);
      forall a, b :: 0 <= a < b < |r| && r[b].role == StoreOwner ==> r[a].role == StoreOwner
  {
    var o := GetAllUsers(users, RoleQuery(StoreOwner)).value;
    var n := GetAllUsers(users, RoleQuery(NormalUser)).value;
    var r := OwnerCandidates(users);
    assert r == o + n;
    AllListedWithRole(users, StoreOwner);
    AllListedWithRole(users, NormalUser);
    forall a, b | 0 <= a < b < |r| && r[b].role == StoreOwner
      ensures r[a].role == StoreOwner
    {
      if b >= |o| {
        assert false;
      }
      assert r[a] == o[a] && r[a] in o;
    }
  }

  /** The store owner's form. */
  datatype OwnerStoreForm = OwnerStoreForm(name: string, email: string, address: string)

  /** The store owner page's submit: an invalid form sends nothing; a valid one sends the
      name, email and address and no `ownerId`. */
  method SubmitOwnerStore(f: OwnerStoreForm) returns (request: Option<StoreDraft>)
    ensures request.Some? <==> StoreFormAccepted(f.name, f.email, f.address)
    ensures request.Some? ==> request.value == StoreDraft(Some(f.name), Some(f.email), Some(f.address), None)
  {
    var errors := ValidateStoreForm(f.name, f.email, f.address);
    request := if errors == map[] then Some(StoreDraft(Some(f.name), Some(f.email), Some(f.address), None))
               else None;
  }

  /** A store created from the owner's form has no owner and promotes nobody: the server
      does not fill in the submitting owner. */
  lemma OwnerFormStoreUnowned(db: Db, f: OwnerStoreForm, isEmail: string -> bool)
    requires CreateStore(db, StoreDraft(Some(f.name), Some(f.email), Some(f.address), None), isEmail).reply.Ok?
    ensures var st := CreateStore(db, StoreDraft(Some(f.name), Some(f.email), Some(f.address), None), isEmail);
      st.reply.value.ownerId.None? && st.db.users == db.users
  {
  }
}

=== FILE: client_lists.dfy ===
/** The list logic of the browser pages: the sortable user and store tables of the admin
    pages, the role labels, the normal user's store search, and the store owner's rating
    distribution. */
module ClientLists {
  import opened Wrappers
  import opened Text
  import opened Seqs
  import opened Ordering
  import opened Schema
  import opened StoreRegistry

  // Sorting the admin tables

  /** The sortable columns of the user table. */
  datatype UserColumn = UserName | UserEmail | UserAddress | UserRole

  /** The sortable columns of the store table. */
  datatype StoreColumn = StoreName | StoreEmail | StoreAddress | AverageRating

  /** The `order` and `orderBy` state of a table. */
  datatype SortState<C> = SortState(order: Direction, orderBy: C)

  /** Both tables start sorted ascending by name. */
  const InitialUserSort: SortState<UserColumn> := SortState(Asc, UserName)
  const InitialStoreSort: SortState<StoreColumn> := SortState(Asc, StoreName)

  /** `handleRequestSort(property)`: the clicked column becomes the sort column, descending
      exactly when it already was the sort column in ascending order. */
  function RequestSort<C(==)>(s: SortState<C>, property: C): (r: SortState<C>)
    ensures r.orderBy == property
    ensures r.order == Desc <==> s.orderBy == property && s.order == Asc
  {
    var isAsc := s.orderBy == property && s.order == Asc;
    SortState(if isAsc then Desc else Asc, property)
  }

  /** Clicking one column again and again alternates its direction, and every click on it
      after the first flips the direction the previous click set. */
  lemma RequestSortAlternates<C>(s: SortState<C>, property: C)
    ensures var once := RequestSort(s, property);
      var twice := RequestSort(once, property);
      && twice.orderBy == property && twice.order != once.order
      && RequestSort(twice, property) == once
  {
  }

  /** Clicking a column that is not the sort column always sorts ascending by it. */
  lemma RequestOtherColumnAscends<C>(s: SortState<C>, property: C)
    requires s.orderBy != property
    ensures RequestSort(s, property) == SortState(Asc, property)
  {
  }

  /** The comparator of both tables on the chosen keys: negative when `a` goes first,
      positive when `b` does, zero for equal keys. */
  function Compare(order: Direction, a: Key, b: Key): (c: int)
    ensures -1 <= c <= 1
  {
    if KeyLess(a, b) then (if order == Asc then -1 else 1)
    else if KeyLess(b, a) then (if order == Asc then 1 else -1)
    else 0
  }

  /** The comparator is antisymmetric, gives zero exactly for equal keys, and keeps a pair
      in place exactly when the pair is in the table's order. */
  lemma CompareMeaning(order: Direction, a: Key, b: Key)
    ensures Compare(order, a, b) == 0 <==> a == b
    ensures Compare(order, a, b) == -Compare(order, b, a)
    ensures Compare(order, a, b) <= 0 <==> InOrder(order, a, b)
  {
    KeyLessAsymmetric(a, b);
    KeyLessTotal(a, b);
    if a.Text? {
      LessIrreflexive(a.s);
    }
  }

  /** A sequence sorted by `key` in direction `order` is one the comparator accepts at
      every pair of positions. */
  lemma SortedCompares<T>(r: seq<T>, key: T -> Key, order: Direction)
    requires SortedBy(r, key, order)
    ensures forall i, j :: 0 <= i < j < |r| ==> Compare(order, key(r[i]), key(r[j])) <= 0
  {
    forall i, j | 0 <= i < j < |r|
      ensures Compare(order, key(r[i]), key(r[j])) <= 0
    {
      CompareMeaning(order, key(r[i]), key(r[j]));
    }
  }

  /** The user field a column shows. */
  function UserKey(c: UserColumn, u: UserView): Key {
    match c
    case UserName => Text(u.name)
    case UserEmail => Text(u.email)
    case UserAddress => Text(u.address)
    case UserRole => Text(RoleName(u.role))
  }

  /** `sortedUsers`: a sorted copy of the fetched users; the fetched list itself stays as
      it is. */
  function SortedUsers(users: seq<UserView>, s: SortState<UserColumn>): (r: seq<UserView>)
    ensures multiset(r) == multiset(users)
    ensures forall i, j :: 0 <= i < j < |r| ==>
      Compare(s.order, UserKey(s.orderBy, r[i]), UserKey(s.orderBy, r[j])) <= 0
  {
    var key := (u: UserView) => UserKey(s.orderBy, u);
    var r := Sort(users, key, s.order);
    SortedCompares(r, key, s.order);
    r
  }

  /** A store as the store table holds it; `averageRating` is `None` when it is missing or
      `null`. */
  datatype StoreEntry = StoreEntry(name: string, email: string, address: string,
                                   averageRating: Option<real>)

  /** The entry the table gets for a listed store. */
  function EntryOf(l: StoreListing): StoreEntry {
    StoreEntry(l.info.name, l.info.email, l.info.address, Some(l.averageRating))
  }

  /** `value || 0` on a rating: a missing rating and `0` both count as zero. */
  function RatingOrZero(v: Option<real>): real {
    if v.Some? && v.value != 0.0 then v.value else 0.0
  }

  /** The store field a column shows; only the rating column substitutes zero. */
  function StoreKey(c: StoreColumn, s: StoreEntry): Key {
    match c
    case StoreName => Text(s.name)
    case StoreEmail => Text(s.email)
    case StoreAddress => Text(s.address)
    case AverageRating => Number(RatingOrZero(s.averageRating))
  }

  /** `sortedStores`: a sorted copy of the fetched stores. */
  function SortedStores(stores: seq<StoreEntry>, s: SortState<StoreColumn>): (r: seq<StoreEntry>)
    ensures multiset(r) == multiset(stores)
    ensures forall i, j :: 0 <= i < j < |r| ==>
      Compare(s.order, StoreKey(s.orderBy, r[i]), StoreKey(s.orderBy, r[j])) <= 0
  {
    var key := (e: StoreEntry) => StoreKey(s.orderBy, e);
    var r := Sort(stores, key, s.order);
    SortedCompares(r, key, s.order);
    r
  }

  /** Sorted by rating, the stores run from the lowest to the highest rating ascending and
      the other way descending, a store without a rating standing where a zero would. */
  lemma StoresByRating(stores: seq<StoreEntry>, order: Direction)
    ensures var r := SortedStores(stores, SortState(order, AverageRating));
      forall i, j :: 0 <= i < j < |r| ==>
        if order == Asc then RatingOrZero(r[i].averageRating) <= RatingOrZero(r[j].averageRating)
        else RatingOrZero(r[i].averageRating) >= RatingOrZero(r[j].averageRating)
  {
    var r := SortedStores(stores, SortState(order, AverageRating));
    forall i, j | 0 <= i < j < |r|
      ensures if order == Asc then RatingOrZero(r[i].averageRating) <= RatingOrZero(r[j].averageRating)
              else RatingOrZero(r[i].averageRating) >= RatingOrZero(r[j].averageRating)
    {
      var a := StoreKey(AverageRating, r[i]);
      var b := StoreKey(AverageRating, r[j]);
      assert Compare(order, a, b) <= 0;
      CompareMeaning(order, a, b);
    }
  }

  /** The role column's text. */
  function RoleLabel(role: string): (shown: string)
    ensures shown == "Administrator" <==> role == "admin"
    ensures shown == "Store Owner" <==> role == "store_owner"
    ensures shown in {"Administrator", "Store Owner", "Normal User"}
  {
    if role == "admin" then "Administrator"
    else if role == "store_owner" then "Store Owner"
    else "Normal User"
  }

  /** The role select of the user creation page: the label shown for each value. */
  function MenuLabel(r: Role): string {
    match r
    case NormalUser => "Normal User"
    case StoreOwner => "Store Owner"
    case Admin => "Administrator"
  }

  /** The user table labels every role as the creation page's select does, and tells the
      three roles apart. */
  lemma RoleLabelAgreesWithMenu(r: Role, q: Role)
    ensures RoleLabel(RoleName(r)) == MenuLabel(r)
    ensures RoleLabel(RoleName(r)) == RoleLabel(RoleName(q)) <==> r == q
  {
  }

  // The normal user's store search

  /** The store's lowercased name or address contains the lowercased term. */
  predicate SearchHit(s: StoreListing, term: string) {
    Contains(ToLower(s.info.name), ToLower(term)) || Contains(ToLower(s.info.address), ToLower(term))
  }

  /** The search effect: a term that is empty after trimming shows every store; any other
      term, untrimmed, keeps the stores it hits, in their order. */
  function SearchStores(stores: seq<StoreListing>, term: string): (r: seq<StoreListing>)
    ensures IsBlank(term) ==> r == stores
    ensures !IsBlank(term) ==> forall k :: 0 <= k < |r| ==> SearchHit(r[k], term)
    ensures !IsBlank(term) ==> forall k :: 0 <= k < |stores| && SearchHit(stores[k], term) ==> stores[k] in r
    ensures Subsequence(r, stores)
  {
    if Trim(term) == "" then
      SubsequenceOfSelf(stores);
      stores
    else Filter(stores, (s: StoreListing) => SearchHit(s, term))
  }

  lemma {:induction false} SubsequenceOfSelf<T>(s: seq<T>)
    ensures Subsequence(s, s)
    decreases |s|
  {
    if |s| > 0 {
      SubsequenceOfSelf(s[1..]);
    }
  }

  /** Filtering by two predicates that agree on every element gives the same result. */
  lemma {:induction false} FilterAgrees<T>(s: seq<T>, p: T -> bool, q: T -> bool)
    requires forall k :: 0 <= k < |s| ==> p(s[k]) == q(s[k])
    ensures Filter(s, p) == Filter(s, q)
    decreases |s|
  {
    if |s| > 0 {
      FilterAgrees(s[1..], p, q);
    }
  }

  /** The search ignores case: two terms with the same lowercase form find the same
      stores. */
  lemma SearchIgnoresCase(stores: seq<StoreListing>, t: string, u: string)
    requires ToLower(t) == ToLower(u)
    ensures SearchStores(stores, t) == SearchStores(stores, u)
  {
    LowerKeepsBlank(t);
    LowerKeepsBlank(u);
    FilterAgrees(stores, (s: StoreListing) => SearchHit(s, t), (s: StoreListing) => SearchHit(s, u));
  }

  // The store owner's rating distribution

  /** How many of `ratings` equal `v`. */
  function Count(ratings: seq<real>, v: real): nat
    decreases |ratings|
  {
    if |ratings| == 0 then 0
    else Count(ratings[..|ratings| - 1], v) + (if ratings[|ratings| - 1] == v then 1 else 0)
  }

  lemma CountAppend(ratings: seq<real>, x: real, v: real)
    ensures Count(ratings + [x], v) == Count(ratings, v) + (if x == v then 1 else 0)
  {
    assert (ratings + [x])[..|ratings|] == ratings;
  }

  lemma {:induction false} CountAbsent(ratings: seq<real>, v: real)
    requires v !in ratings
    ensures Count(ratings, v) == 0
    decreases |ratings|
  {
    if |ratings| > 0 {
      assert ratings[..|ratings| - 1] <= ratings;
      CountAbsent(ratings[..|ratings| - 1], v);
    }
  }

  /** The five star buckets the distribution starts with. */
  const Stars: set<real> := {1.0, 2.0, 3.0, 4.0, 5.0}

  /** `calculateRatingDistribution`: the five buckets at zero, then one increment per rating
      in the bucket of its own value, which is added when it is not one of the five. */
  method RatingDistribution(ratings: seq<real>) returns (dist: map<real, nat>)
    ensures dist.Keys == Stars + set r | r in ratings
    ensures forall v :: v in dist ==> dist[v] == Count(ratings, v)
  {
    dist := map[1.0 := 0, 2.0 := 0, 3.0 := 0, 4.0 := 0, 5.0 := 0];
    var i := 0;
    while i < |ratings|
      invariant 0 <= i <= |ratings|
      invariant dist.Keys == Stars + set r | r in ratings[..i]
      invariant forall v :: v in dist ==> dist[v] == Count(ratings[..i], v)
    {
      var r := ratings[i];
      assert ratings[..i + 1] == ratings[..i] + [r];
      if r !in dist {
        CountAbsent(ratings[..i], r);
      }
      forall v | v in dist || v == r
        ensures Count(ratings[..i + 1], v) == (if v in dist then Count(ratings[..i], v) else 0)
                                              + (if r == v then 1 else 0)
      {
        CountAppend(ratings[..i], r, v);
      }
      dist := dist[r := (if r in dist then dist[r] else 0) + 1];
      i := i + 1;
    }
    assert ratings[..i] == ratings;
  }

  /** When every rating is one to five stars, the five buckets add up to the number of
      ratings. */
  lemma {:induction false} StarsAddUp(ratings: seq<real>)
    requires forall k :: 0 <= k < |ratings| ==> ratings[k] in Stars
    ensures Count(ratings, 1.0) + Count(ratings, 2.0) + Count(ratings, 3.0)
            + Count(ratings, 4.0) + Count(ratings, 5.0) == |ratings|
    decreases |ratings|
  {
    if |ratings| > 0 {
      StarsAddUp(ratings[..|ratings| - 1]);
    }
  }

  /** What the store owner's detail page shows: the distribution, the total (the number of
      ratings), and whether it reads "No ratings yet". The page reads the `ratings` field of
      the store reply, `None` when absent, as an empty list. */
  method StoreDetailsSummary(ratingsField: Option<seq<real>>)
    returns (dist: map<real, nat>, totalRatings: nat, noRatings: bool)
    ensures var ratings := ratingsField.GetOr([]);
      && totalRatings == |ratings|
      && (noRatings <==> |ratings| == 0)
      && (forall v :: v in dist ==> dist[v] == Count(ratings, v))
      && ((forall k :: 0 <= k < |ratings| ==> ratings[k] in Stars) ==>
            dist.Keys == Stars && dist[1.0] + dist[2.0] + dist[3.0] + dist[4.0] + dist[5.0] == totalRatings)
    ensures ratingsField.None? ==> noRatings && dist == map[1.0 := 0, 2.0 := 0, 3.0 := 0, 4.0 := 0, 5.0 := 0]
  {
    var ratings := ratingsField.GetOr([]);
    dist := RatingDistribution(ratings);
    totalRatings := |ratings|;
    noRatings := totalRatings == 0;
    if forall k :: 0 <= k < |ratings| ==> ratings[k] in Stars {
      StarsAddUp(ratings);
    }
  }
}

=== FILE: client_routing.dfy ===
/** The client's navigation decisions: the `Home` redirect, the route table with each
    route's `requiredRole`, the `PrivateRoute` guard, and the navigation bar's dashboard
    link and role-conditional "Stores" link. A logged-in user is known to the client only
    by the role string the server sent. */
module ClientRouting {
  import opened Wrappers
  import opened Text

  /** The user object the auth context holds; only its role is read here. */
  datatype ClientUser = ClientUser(role: string)

  /** A client path as the router reads it: its segments between slashes, after the
      leading slash, with a trailing slash dropped (`/admin/users` is `["admin", "users"]`). */
  type Path = seq<string>

  const LoginPath: Path := ["login"]
  const RootPath: Path := []
  const AdminDashboardPath: Path := ["admin", "dashboard"]
  const OwnerDashboardPath: Path := ["store-owner", "dashboard"]
  const UserDashboardPath: Path := ["user", "dashboard"]

  /** `Home`, given what `useAuth()` returns for `isAuthenticated` and `user`. */
  function Home(isAuthenticated: bool, user: Option<ClientUser>): (to: Path)
    ensures !isAuthenticated ==> to == LoginPath
    ensures isAuthenticated && user.Some? && user.value.role == "admin" ==> to == AdminDashboardPath
    ensures isAuthenticated && user.Some? && user.value.role == "store_owner" ==> to == OwnerDashboardPath
    ensures isAuthenticated && user.Some? && user.value.role == "user" ==> to == UserDashboardPath
    ensures isAuthenticated && (user.None? || user.value.role !in {"admin", "store_owner", "user"}) ==>
      to == LoginPath
  {
    if !isAuthenticated then LoginPath
    else if user.None? then LoginPath
    else if user.value.role == "admin" then AdminDashboardPath
    else if user.value.role == "store_owner" then OwnerDashboardPath
    else if user.value.role == "user" then UserDashboardPath
    else LoginPath
  }

  /** `Home` as the application runs it: the auth context supplies no `isAuthenticated`, so
      the value read is `undefined`, which is falsy. */
  function HomeInApp(user: Option<ClientUser>): (to: Path)
    ensures to == LoginPath
  {
    Home(false, user)
  }

  /** What a route renders: a page, the home redirect, a guarded page, or the catch-all
      redirect to `/`. */
  datatype Element = Page(name: string) | HomeRedirect | Guarded(requiredRole: Option<string>, name: string)
                   | ToRoot

  /** A pattern segment: literal text, or a parameter such as `:id`. */
  datatype Segment = Static(text: string) | Param(name: string)

  datatype Route = Route(pattern: seq<Segment>, element: Element)

  /** The route table, in declaration order. */
  const Routes: seq<Route> := [
    Route([Static("login")], Page("Login")),
    Route([Static("register")], Page("Register")),
    Route([], HomeRedirect),
    Route([Static("password-update")], Guarded(None, "PasswordUpdate")),
    Route([Static("admin"), Static("dashboard")], Guarded(Some("admin"), "AdminDashboard")),
    Route([Static("admin"), Static("users")], Guarded(Some("admin"), "UserList")),
    Route([Static("admin"), Static("users"), Static("create")], Guarded(Some("admin"), "CreateUser")),
    Route([Static("admin"), Static("stores")], Guarded(Some("admin"), "StoreList")),
    Route([Static("admin"), Static("stores"), Static("create")], Guarded(Some("admin"), "CreateStore")),
    Route([Static("store-owner"), Static("dashboard")],
          Guarded(Some("store_owner"), "StoreOwnerDashboard")),
    Route([Static("store-owner"), Static("stores"), Param("id")],
          Guarded(Some("store_owner"), "StoreOwnerStoreDetails")),
    Route([Static("store-owner"), Static("stores"), Static("create")],
          Guarded(Some("store_owner"), "StoreOwnerCreateStore")),
    Route([Static("user"), Static("dashboard")], Guarded(Some("user"), "UserDashboard")),
    Route([Static("user"), Static("stores"), Param("id")], Guarded(Some("user"), "UserStoreDetails"))
  ]

  /** Equal up to the case of letters (the router matches case-insensitively). */
  predicate SameIgnoringCase(a: string, b: string) {
    |a| == |b| && forall i :: 0 <= i < |a| ==> LowerChar(a[i]) == LowerChar(b[i])
  }

  /** A parameter takes any non-empty segment; a literal must be equal up to case. */
  predicate SegmentMatches(pat: Segment, seg: string) {
    match pat
    case Param(_) => seg != ""
    case Static(t) => SameIgnoringCase(t, seg)
  }

  predicate PatternMatches(pattern: seq<Segment>, path: Path) {
    |pattern| == |path| && forall k :: 0 <= k < |path| ==> SegmentMatches(pattern[k], path[k])
  }

  predicate HasParam(pattern: seq<Segment>) {
    exists k :: 0 <= k < |pattern| && pattern[k].Param?
  }

  /** The first route of `routes` with (`dynamic`) or without parameters that matches
      `path`. */
  function FirstMatch(routes: seq<Route>, path: Path, dynamic: bool): (r: Option<Element>)
    ensures r.Some? ==> exists k :: 0 <= k < |routes| && routes[k].element == r.value
                                    && PatternMatches(routes[k].pattern, path)
                                    && HasParam(routes[k].pattern) == dynamic
    ensures r.None? ==> forall k :: 0 <= k < |routes| && HasParam(routes[k].pattern) == dynamic ==>
                          !PatternMatches(routes[k].pattern, path)
    decreases |routes|
  {
    if |routes| == 0 then None
    else if HasParam(routes[0].pattern) == dynamic && PatternMatches(routes[0].pattern, path) then
      Some(routes[0].element)
    else
      var r := FirstMatch(routes[1..], path, dynamic);
      assert forall k :: 1 <= k < |routes| ==> routes[k] == routes[1..][k - 1];
      r
  }

  /** The element the router picks for `path`: a route without parameters ranks above
      one with; no match is the catch-all. */
  function Resolve(path: Path): (e: Element)
    ensures e == ToRoot <==> forall k :: 0 <= k < |Routes| ==> !PatternMatches(Routes[k].pattern, path)
    ensures e != ToRoot ==>
      exists k :: && 0 <= k < |Routes| && Routes[k].element == e
                  && PatternMatches(Routes[k].pattern, path)
                  && (HasParam(Routes[k].pattern) ==> !StaticRouteMatches(path))
  {
    NoRouteIsCatchAll();
    match FirstMatch(Routes, path, false)
    case Some(e) => e
    case None =>
      match FirstMatch(Routes, path, true)
      case Some(e) => e
      case None => ToRoot
  }

  /** Some route without parameters matches `path`. */
  predicate StaticRouteMatches(path: Path) {
    exists k :: 0 <= k < |Routes| && !HasParam(Routes[k].pattern) && PatternMatches(Routes[k].pattern, path)
  }

  /** The catch-all is not the element of any declared route. */
  lemma NoRouteIsCatchAll()
    ensures forall k :: 0 <= k < |Routes| ==> Routes[k].element != ToRoot
  {
  }

  /** What showing a route does. */
  datatype Outcome = Render | Redirect(to: Path)

  /** The page a user whose role differs from the required one is sent to. */
  function MismatchTarget(role: string): (to: Path)
    ensures role == "admin" ==> to == AdminDashboardPath
    ensures role == "store_owner" ==> to == OwnerDashboardPath
    ensures role != "admin" && role != "store_owner" ==> to == UserDashboardPath
  {
    if role == "admin" then AdminDashboardPath
    else if role == "store_owner" then OwnerDashboardPath
    else UserDashboardPath
  }

  /** `PrivateRoute`. */
  function PrivateRoute(user: Option<ClientUser>, requiredRole: Option<string>): (o: Outcome)
    ensures user.None? ==> o == Redirect(LoginPath)
    ensures user.Some? && Truthy(requiredRole) && user.value.role != requiredRole.value ==>
      o == Redirect(MismatchTarget(user.value.role))
    ensures o == Render <==>
      user.Some? && (!Truthy(requiredRole) || user.value.role == requiredRole.value)
  {
    if user.None? then Redirect(LoginPath)
    else if Truthy(requiredRole) && user.value.role != requiredRole.value then
      Redirect(MismatchTarget(user.value.role))
    else Render
  }

  /** Showing `path` to `user`: the element's own decision. */
  function Show(user: Option<ClientUser>, path: Path): Outcome {
    match Resolve(path)
    case Page(_) => Render
    case HomeRedirect => Redirect(HomeInApp(user))
    case Guarded(role, _) => PrivateRoute(user, role)
    case ToRoot => Redirect(RootPath)
  }

  /** `getDashboardLink`. */
  function DashboardLink(user: Option<ClientUser>): (to: Path)
    ensures user.None? ==> to == LoginPath
    ensures user.Some? && user.value.role == "admin" ==> to == AdminDashboardPath
    ensures user.Some? && user.value.role == "store_owner" ==> to == OwnerDashboardPath
    ensures user.Some? && user.value.role != "admin" && user.value.role != "store_owner" ==>
      to == UserDashboardPath
  {
    if user.None? then LoginPath
    else
      match user.value.role
      case "admin" => AdminDashboardPath
      case "store_owner" => OwnerDashboardPath
      case _ => UserDashboardPath
  }

  /** The "Stores" link is shown to logged-in users with role `'user'` only. */
  predicate ShowsStoresLink(user: Option<ClientUser>) {
    user.Some? && user.value.role == "user"
  }

  const StoresLinkPath: Path := ["user", "stores"]

  /** The navigation bar's dashboard link is the page `PrivateRoute` sends a mismatched
      user to. */
  lemma NavbarAgreesWithGuard(user: ClientUser, requiredRole: string)
    requires requiredRole != "" && user.role != requiredRole
    ensures PrivateRoute(Some(user), Some(requiredRole)) == Redirect(DashboardLink(Some(user)))
  {
  }

  /** A route that matches, with no earlier route of its kind matching, is the one picked. */
  lemma {:induction false} FirstMatchAt(routes: seq<Route>, path: Path, dynamic: bool, k: nat)
    requires k < |routes| && HasParam(routes[k].pattern) == dynamic
    requires PatternMatches(routes[k].pattern, path)
    requires forall j :: 0 <= j < k ==>
      HasParam(routes[j].pattern) != dynamic || !PatternMatches(routes[j].pattern, path)
    ensures FirstMatch(routes, path, dynamic) == Some(routes[k].element)
    decreases k
  {
    if k > 0 {
      assert routes[1..][k - 1] == routes[k];
      FirstMatchAt(routes[1..], path, dynamic, k - 1);
    }
  }

  /** Each dashboard resolves to its own guarded page. */
  lemma AdminDashboardResolves()
    ensures Resolve(AdminDashboardPath) == Guarded(Some("admin"), "AdminDashboard")
  {
    var p := AdminDashboardPath;
    forall j | 0 <= j < 4
      ensures !PatternMatches(Routes[j].pattern, p)
    {
      assert |Routes[j].pattern| < 2;
    }
    assert SameIgnoringCase("admin", p[0]) && SameIgnoringCase("dashboard", p[1]);
    assert PatternMatches(Routes[4].pattern, p);
    assert !HasParam(Routes[4].pattern);
    FirstMatchAt(Routes, p, false, 4);
  }

  lemma OwnerDashboardResolves()
    ensures Resolve(OwnerDashboardPath) == Guarded(Some("store_owner"), "StoreOwnerDashboard")
  {
    var p := OwnerDashboardPath;
    forall j | 0 <= j < 9
      ensures HasParam(Routes[j].pattern) || !PatternMatches(Routes[j].pattern, p)
    {
      if j >= 4 {
        assert Routes[j].pattern[0] == Static("admin");
        assert !SameIgnoringCase("admin", p[0]);
      } else {
        assert |Routes[j].pattern| < 2;
      }
    }
    assert SameIgnoringCase("store-owner", p[0]) && SameIgnoringCase("dashboard", p[1]);
    assert PatternMatches(Routes[9].pattern, p);
    assert !HasParam(Routes[9].pattern);
    FirstMatchAt(Routes, p, false, 9);
  }

  lemma UserDashboardResolves()
    ensures Resolve(UserDashboardPath) == Guarded(Some("user"), "UserDashboard")
  {
    var p := UserDashboardPath;
    forall j | 0 <= j < 12
      ensures HasParam(Routes[j].pattern) || !PatternMatches(Routes[j].pattern, p)
    {
      if 4 <= j < 9 {
        assert Routes[j].pattern[0] == Static("admin");
        assert !SameIgnoringCase("admin", p[0]);
      } else if j == 9 {
        assert !SameIgnoringCase("store-owner", p[0]);
      } else {
        assert |Routes[j].pattern| != 2;
      }
    }
    assert SameIgnoringCase("user", p[0]) && SameIgnoringCase("dashboard", p[1]);
    assert PatternMatches(Routes[12].pattern, p);
    assert !HasParam(Routes[12].pattern);
    FirstMatchAt(Routes, p, false, 12);
  }

  /** For the three known roles a mismatch redirect lands on a page the user may see, so
      the guard cannot loop. */
  lemma NoRedirectLoop(user: ClientUser)
    requires user.role in {"admin", "store_owner", "user"}
    ensures Show(Some(user), MismatchTarget(user.role)) == Render
  {
    AdminDashboardResolves();
    OwnerDashboardResolves();
    UserDashboardResolves();
  }

  /** A user whose role is none of the three is sent to the user dashboard, which sends it
      to itself again. */
  lemma UnknownRoleRedirectsToItself(user: ClientUser)
    requires user.role !in {"admin", "store_owner", "user"}
    ensures Show(Some(user), UserDashboardPath) == Redirect(UserDashboardPath)
  {
    UserDashboardResolves();
    assert Show(Some(user), UserDashboardPath) == PrivateRoute(Some(user), Some("user"));
    assert user.role != "admin" && user.role != "store_owner" && user.role != "user";
    assert MismatchTarget(user.role) == UserDashboardPath;
  }

  /** No route of a kind matching means the search finds none of that kind. */
  lemma {:induction false} FirstMatchNone(routes: seq<Route>, path: Path, dynamic: bool)
    requires forall j :: 0 <= j < |routes| ==>
      HasParam(routes[j].pattern) != dynamic || !PatternMatches(routes[j].pattern, path)
    ensures FirstMatch(routes, path, dynamic).None?
    decreases |routes|
  {
    if |routes| > 0 {
      assert forall j :: 0 <= j < |routes| - 1 ==> routes[1..][j] == routes[j + 1];
      FirstMatchNone(routes[1..], path, dynamic);
    }
  }

  /** The login and registration pages render for anyone, logged in or not. */
  lemma LoginAndRegisterOpen(user: Option<ClientUser>)
    ensures Show(user, LoginPath) == Render
    ensures Show(user, ["register"]) == Render
  {
    assert SameIgnoringCase("login", "login") && SameIgnoringCase("register", "register");
    assert !SameIgnoringCase("login", "register");
    assert PatternMatches(Routes[0].pattern, LoginPath) && !HasParam(Routes[0].pattern);
    FirstMatchAt(Routes, LoginPath, false, 0);
    var reg: Path := ["register"];
    assert |"register"| == 8 && reg[0] == "register";
    assert !SegmentMatches(Routes[0].pattern[0], reg[0]);
    assert PatternMatches(Routes[1].pattern, reg) && !HasParam(Routes[1].pattern);
    FirstMatchAt(Routes, reg, false, 1);
  }

  /** The password page needs a logged-in user of any role. */
  lemma PasswordUpdateNeedsLogin(user: Option<ClientUser>)
    ensures Show(user, ["password-update"]) == (if user.Some? then Render else Redirect(LoginPath))
  {
    var p: Path := ["password-update"];
    forall j | 0 <= j < 3
      ensures !PatternMatches(Routes[j].pattern, p)
    {
      if j < 2 {
        assert !SameIgnoringCase(Routes[j].pattern[0].text, p[0]);
      }
    }
    assert SameIgnoringCase("password-update", p[0]);
    assert PatternMatches(Routes[3].pattern, p) && !HasParam(Routes[3].pattern);
    FirstMatchAt(Routes, p, false, 3);
  }

  /** Every route under `/admin` requires `'admin'`, every route under `/store-owner`
      requires `'store_owner'`, and every route under `/user` requires `'user'`. */
  lemma RouteRoles(k: nat)
    requires k < |Routes| && |Routes[k].pattern| > 0
    ensures Routes[k].pattern[0] == Static("admin") ==>
      Routes[k].element.Guarded? && Routes[k].element.requiredRole == Some("admin")
    ensures Routes[k].pattern[0] == Static("store-owner") ==>
      Routes[k].element.Guarded? && Routes[k].element.requiredRole == Some("store_owner")
    ensures Routes[k].pattern[0] == Static("user") ==>
      Routes[k].element.Guarded? && Routes[k].element.requiredRole == Some("user")
  {
  }

  /** The store page `/store-owner/stores/create` is the creation form, not the details
      page with id `create`: a route without parameters wins. */
  lemma OwnerCreateBeatsDetails()
    ensures Resolve(["store-owner", "stores", "create"])
            == Guarded(Some("store_owner"), "StoreOwnerCreateStore")
  {
    var p: Path := ["store-owner", "stores", "create"];
    forall j | 0 <= j < 11
      ensures HasParam(Routes[j].pattern) || !PatternMatches(Routes[j].pattern, p)
    {
      if j == 6 || j == 8 {
        assert !SameIgnoringCase("admin", p[0]);
      } else if j == 10 {
        assert Routes[j].pattern[2].Param?;
      } else {
        assert |Routes[j].pattern| != 3;
      }
    }
    assert SameIgnoringCase("store-owner", p[0]) && SameIgnoringCase("stores", p[1]);
    assert SameIgnoringCase("create", p[2]);
    assert PatternMatches(Routes[11].pattern, p) && !HasParam(Routes[11].pattern);
    FirstMatchAt(Routes, p, false, 11);
  }

  /** `/` shows the home redirect, which always leads to the login page. */
  lemma RootGoesToLogin(user: Option<ClientUser>)
    ensures Show(user, RootPath) == Redirect(LoginPath)
  {
    forall j | 0 <= j < 2
      ensures !PatternMatches(Routes[j].pattern, RootPath)
    {
    }
    assert PatternMatches(Routes[2].pattern, RootPath) && !HasParam(Routes[2].pattern);
    FirstMatchAt(Routes, RootPath, false, 2);
  }

  /** The navigation bar's "Stores" link names a path no route declares, so it falls to
      the catch-all, then to `/`, and from there to the login page. */
  lemma StoresLinkFallsThrough(user: ClientUser)
    requires ShowsStoresLink(Some(user))
    ensures Resolve(StoresLinkPath) == ToRoot
    ensures Show(Some(user), StoresLinkPath) == Redirect(RootPath)
    ensures Show(Some(user), RootPath) == Redirect(LoginPath)
  {
    var p := StoresLinkPath;
    forall j | 0 <= j < |Routes|
      ensures !PatternMatches(Routes[j].pattern, p)
    {
      if j == 4 || j == 5 || j == 7 {
        assert !SameIgnoringCase("admin", p[0]);
      } else if j == 9 {
        assert !SameIgnoringCase("store-owner", p[0]);
      } else if j == 12 {
        assert !SameIgnoringCase("dashboard", p[1]);
      } else {
        assert |Routes[j].pattern| != 2;
      }
    }
    FirstMatchNone(Routes, p, false);
    FirstMatchNone(Routes, p, true);
    RootGoesToLogin(Some(user));
  }
}

=== FILE: ordering.dfy ===
/** The orders lists are sorted by: code-point lexicographic order on strings (JavaScript's
    `<` on strings and the model's reading of SQL `ORDER BY ... ASC`), numeric order on
    numbers, and a stable insertion sort ascending or descending by a key. */
module Ordering {

  /** `a < b` on strings: `a` is a proper prefix of `b`, or differs first at a smaller
      character. */
  predicate Less(a: string, b: string)
    decreases |a|
  {
    |b| > 0 && (|a| == 0 || a[0] < b[0] || (a[0] == b[0] && Less(a[1..], b[1..])))
  }

  lemma {:induction false} LessIrreflexive(a: string)
    ensures !Less(a, a)
    decreases |a|
  {
    if |a| > 0 {
      LessIrreflexive(a[1..]);
    }
  }

  lemma {:induction false} LessTransitive(a: string, b: string, c: string)
    requires Less(a, b) && Less(b, c)
    ensures Less(a, c)
    decreases |a|
  {
    if |a| > 0 && a[0] == b[0] && b[0] == c[0] {
      LessTransitive(a[1..], b[1..], c[1..]);
    }
  }

  /** Any two distinct strings are ordered one way or the other. */
  lemma {:induction false} LessTotal(a: string, b: string)
    ensures a == b || Less(a, b) || Less(b, a)
    decreases |a|
  {
    if |a| > 0 && |b| > 0 && a[0] == b[0] {
      LessTotal(a[1..], b[1..]);
      if a[1..] == b[1..] {
        assert a == [a[0]] + a[1..] && b == [b[0]] + b[1..];
      }
    }
  }

  /** A sort key: the text of a column or a number. Within one column every key has the
      same kind; numbers are put before text only to make the order total. */
  datatype Key = Text(s: string) | Number(x: real)

  /** The comparator's `a < b` on keys. */
  predicate KeyLess(a: Key, b: Key) {
    match (a, b)
    case (Text(s), Text(t)) => Less(s, t)
    case (Number(x), Number(y)) => x < y
    case (Number(_), Text(_)) => true
    case (Text(_), Number(_)) => false
  }

  lemma KeyLessAsymmetric(a: Key, b: Key)
    ensures !(KeyLess(a, b) && KeyLess(b, a))
  {
    if a.Text? && b.Text? && Less(a.s, b.s) && Less(b.s, a.s) {
      LessTransitive(a.s, b.s, a.s);
      LessIrreflexive(a.s);
    }
  }

  lemma KeyLessTotal(a: Key, b: Key)
    ensures a == b || KeyLess(a, b) || KeyLess(b, a)
  {
    if a.Text? && b.Text? {
      LessTotal(a.s, b.s);
    }
  }

  lemma KeyLessTransitive(a: Key, b: Key, c: Key)
    requires KeyLess(a, b) && KeyLess(b, c)
    ensures KeyLess(a, c)
  {
    if a.Text? && b.Text? && c.Text? {
      LessTransitive(a.s, b.s, c.s);
    }
  }

  /** Sort direction of a list column. */
  datatype Direction = Asc | Desc

  /** `a` may stand before `b`: the comparator does not return a positive number. */
  predicate InOrder(dir: Direction, a: Key, b: Key) {
    if dir == Asc then !KeyLess(b, a) else !KeyLess(a, b)
  }

  lemma InOrderTotal(dir: Direction, a: Key, b: Key)
    ensures InOrder(dir, a, b) || InOrder(dir, b, a)
  {
    KeyLessAsymmetric(a, b);
  }

  lemma InOrderTransitive(dir: Direction, a: Key, b: Key, c: Key)
    requires InOrder(dir, a, b) && InOrder(dir, b, c)
    ensures InOrder(dir, a, c)
  {
    KeyLessTotal(a, b);
    KeyLessTotal(b, c);
    if dir == Asc {
      if KeyLess(c, a) {
        if KeyLess(a, b) { KeyLessTransitive(c, a, b); }
        else if a != b { KeyLessTransitive(c, a, b); }
      }
    } else {
      if KeyLess(a, c) {
        if KeyLess(b, a) { KeyLessTransitive(b, a, c); }
        else if a != b { KeyLessTransitive(b, a, c); }
      }
    }
  }

  /** Every earlier element may stand before every later one. */
  ghost predicate SortedBy<T>(s: seq<T>, key: T -> Key, dir: Direction) {
    forall i, j :: 0 <= i < j < |s| ==> InOrder(dir, key(s[i]), key(s[j]))
  }

  /** Inserts `x` before the first element it must precede; elements with a key equal to
      `x`'s stay in front of it. */
  function Insert<T>(x: T, s: seq<T>, key: T -> Key, dir: Direction): (r: seq<T>)
    requires SortedBy(s, key, dir)
    ensures multiset(r) == multiset(s) + multiset{x}
    ensures SortedBy(r, key, dir)
    decreases |s|
  {
    if |s| == 0 then [x]
    else if !InOrder(dir, key(s[0]), key(x)) then
      InsertFront(x, s, key, dir);
      [x] + s
    else
      var t := Insert(x, s[1..], key, dir);
      InsertBehind(x, s, t, key, dir);
      [s[0]] + t
  }

  /** `x` may stand in front of a sorted list whose head must not precede it. */
  lemma InsertFront<T>(x: T, s: seq<T>, key: T -> Key, dir: Direction)
    requires SortedBy(s, key, dir) && |s| > 0 && !InOrder(dir, key(s[0]), key(x))
    ensures SortedBy([x] + s, key, dir)
  {
    InOrderTotal(dir, key(s[0]), key(x));
    forall i, j | 0 <= i < j < |s| + 1
      ensures InOrder(dir, key(([x] + s)[i]), key(([x] + s)[j]))
    {
      if i == 0 && j > 1 {
        InOrderTransitive(dir, key(x), key(s[0]), key(s[j - 1]));
      }
    }
  }

  /** The head of a sorted list may stand in front of `t`, the rest with `x` inserted, when
      it may stand in front of `x`. */
  lemma InsertBehind<T>(x: T, s: seq<T>, t: seq<T>, key: T -> Key, dir: Direction)
    requires SortedBy(s, key, dir) && |s| > 0 && InOrder(dir, key(s[0]), key(x))
    requires multiset(t) == multiset(s[1..]) + multiset{x} && SortedBy(t, key, dir)
    ensures multiset([s[0]] + t) == multiset(s) + multiset{x}
    ensures SortedBy([s[0]] + t, key, dir)
  {
    assert s == [s[0]] + s[1..];
    var r := [s[0]] + t;
    forall j | 0 < j < |r|
      ensures InOrder(dir, key(s[0]), key(r[j]))
    {
      assert r[j] == t[j - 1];
      assert r[j] in multiset(t);
      if r[j] != x {
        assert r[j] in multiset(s[1..]);
        var k :| 0 <= k < |s[1..]| && s[1..][k] == r[j];
        assert s[k + 1] == r[j];
      }
    }
  }

  /** A stable insertion sort of `s` by `key` in direction `dir`: the result is a
      permutation of `s` ordered by the keys. */
  function Sort<T>(s: seq<T>, key: T -> Key, dir: Direction): (r: seq<T>)
    ensures multiset(r) == multiset(s)
    ensures SortedBy(r, key, dir)
    decreases |s|
  {
    if |s| == 0 then []
    else
      var r := Insert(s[|s| - 1], Sort(s[..|s| - 1], key, dir), key, dir);
      assert s == s[..|s| - 1] + [s[|s| - 1]];
      r
  }
}

=== FILE: policy.dfy ===
/** The two text patterns the application shares between browser and server: the password
    policy (`^(?=.*[A-Z])(?=.*[!@#$%^&*])[a-zA-Z0-9!@#$%^&*]{8,16}$`, enforced by the user
    model in production and by every client form that sets a password) and the client's
    email pattern (`^[^\s@]+@[^\s@]+\.[^\s@]+$`). */
module Policy {
  import opened Text

  /** The symbols the password policy allows and requires one of. */
  const Symbols: string := "!@#$%^&*"

  predicate IsUpper(c: char) { 'A' <= c <= 'Z' }

  predicate IsLower(c: char) { 'a' <= c <= 'z' }

  /** The character class `[a-zA-Z0-9!@#$%^&*]`. */
  predicate PolicyChar(c: char) {
    IsUpper(c) || IsLower(c) || IsDigit(c) || c in Symbols
  }

  /** The password policy, read declaratively: 8 to 16 characters, all from the allowed
      class, with an uppercase letter and a symbol somewhere. */
  predicate StrongPassword(p: string) {
    && 8 <= |p| <= 16
    && (forall i :: 0 <= i < |p| ==> PolicyChar(p[i]))
    && (exists i :: 0 <= i < |p| && IsUpper(p[i]))
    && (exists i :: 0 <= i < |p| && p[i] in Symbols)
  }

  /** `passwordRegex.test(p)`: one left-to-right pass that checks the class of every
      character and remembers whether the two lookaheads have been satisfied. */
  method TestPassword(p: string) returns (ok: bool)
    ensures ok <==> StrongPassword(p)
  {
    var sawUpper, sawSymbol, allowed := false, false, true;
    var i := 0;
    while i < |p|
      invariant 0 <= i <= |p|
      invariant allowed <==> forall k :: 0 <= k < i ==> PolicyChar(p[k])
      invariant sawUpper <==> exists k :: 0 <= k < i && IsUpper(p[k])
      invariant sawSymbol <==> exists k :: 0 <= k < i && p[k] in Symbols
    {
      allowed := allowed && PolicyChar(p[i]);
      sawUpper := sawUpper || IsUpper(p[i]);
      sawSymbol := sawSymbol || p[i] in Symbols;
      i := i + 1;
    }
    ok := 8 <= |p| <= 16 && allowed && sawUpper && sawSymbol;
  }

  /** A strong password also meets the user model's stored-length rule of 4 to 100. */
  lemma StrongPasswordLength(p: string)
    requires StrongPassword(p)
    ensures 4 <= |p| <= 100
  {
  }

  /** `[^\s@]`: neither white space nor an at sign. */
  predicate Plain(c: char) {
    !IsSpace(c) && c != '@'
  }

  predicate AllPlain(s: string) {
    forall k :: 0 <= k < |s| ==> Plain(s[k])
  }

  /** The email pattern read as its three runs: `local@domain.tld`, each run non-empty and
      free of white space and `@`; the `.` is one the domain run may be followed by. */
  predicate EmailPattern(s: string) {
    exists i, j ::
      && 0 < i < |s| && i + 1 < j < |s| - 1
      && s[i] == '@' && s[j] == '.'
      && AllPlain(s[..i]) && AllPlain(s[i + 1..j]) && AllPlain(s[j + 1..])
  }

  /** What the email pattern accepts, stated independently: no white space anywhere,
      exactly one `@` with a non-empty local part before it, and after it a domain with a
      `.` that is neither its first nor its last character. */
  predicate EmailShape(s: string) {
    && (forall k :: 0 <= k < |s| ==> !IsSpace(s[k]))
    && exists i ::
      && 0 < i < |s| && s[i] == '@'
      && (forall k :: 0 <= k < |s| && k != i ==> s[k] != '@')
      && (exists j :: i + 1 < j < |s| - 1 && s[j] == '.')
  }

  /** The pattern's reading and the independent description accept the same strings. */
  lemma EmailPatternShape(s: string)
    ensures EmailPattern(s) <==> EmailShape(s)
  {
    if EmailPattern(s) {
      PatternHasShape(s);
    }
    if EmailShape(s) {
      ShapeMatchesPattern(s);
    }
  }

  lemma PatternHasShape(s: string)
    requires EmailPattern(s)
    ensures EmailShape(s)
  {
    var i, j :| && 0 < i < |s| && i + 1 < j < |s| - 1
                && s[i] == '@' && s[j] == '.'
                && AllPlain(s[..i]) && AllPlain(s[i + 1..j]) && AllPlain(s[j + 1..]);
    forall k | 0 <= k < |s| && k != i && k != j
      ensures Plain(s[k])
    {
      if k < i { assert s[..i][k] == s[k]; }
      else if k < j { assert s[i + 1..j][k - i - 1] == s[k]; }
      else { assert s[j + 1..][k - j - 1] == s[k]; }
    }
  }

  lemma ShapeMatchesPattern(s: string)
    requires EmailShape(s)
    ensures EmailPattern(s)
  {
    var i :| && 0 < i < |s| && s[i] == '@'
             && (forall k :: 0 <= k < |s| && k != i ==> s[k] != '@')
             && (exists j :: i + 1 < j < |s| - 1 && s[j] == '.');
    var j :| i + 1 < j < |s| - 1 && s[j] == '.';
    assert AllPlain(s[..i]) && AllPlain(s[i + 1..j]) && AllPlain(s[j + 1..]);
  }
}

=== FILE: rating_ledger.dfy ===
/** The Ratings table as a ledger keyed by (user, store): `submitRating`, a validated
    upsert, and `getUserRatings`. Requests are handled one at a time, so the check for an
    existing row and the insert that follows it cannot interleave with another request. */
module RatingLedger {
  import opened Wrappers
  import opened Seqs
  import opened Schema

  /** The JSON body of a rating submission; `None` for an absent field. */
  datatype RatingBody = RatingBody(userId: Option<int>, storeId: Option<int>, rating: Option<real>)

  /** `req.body.userId || (req.user ? req.user.id : 1)`: a body id overrides the caller. */
  function ActingUser(bodyUserId: Option<int>, caller: Option<Principal>): (id: int)
    ensures TruthyNumber(bodyUserId) ==> id == bodyUserId.value
    ensures !TruthyNumber(bodyUserId) && caller.Some? ==> id == caller.value.UserId()
    ensures !TruthyNumber(bodyUserId) && caller.None? ==> id == 1
  {
    if TruthyNumber(bodyUserId) then bodyUserId.value
    else if caller.Some? then caller.value.UserId()
    else 1
  }

  /** The rating check as written: `!rating || rating < 1 || rating > 5` rejects. */
  predicate RatingRejected(rating: Option<real>) {
    rating.None? || rating.value == 0.0 || rating.value < 1.0 || rating.value > 5.0
  }

  /** Exactly the values from 1 to 5 inclusive pass; fractions in that range are not refused. */
  lemma RatingRejectedMeansOutOfRange(rating: Option<real>)
    ensures !RatingRejected(rating) <==> rating.Some? && 1.0 <= rating.value <= 5.0
  {
  }

  predicate SamePair(r: RatingRow, userId: int, storeId: int) {
    r.userId == userId && r.storeId == storeId
  }

  /** `Rating.findOne({ where: { userId, storeId } })`, then `update({ rating })` on the row
      found or `Rating.create(...)` when there is none. */
  function Upsert(ratings: seq<RatingRow>, userId: int, storeId: int, value: real)
    : (r: seq<RatingRow>)
  {
    match FirstIndex(ratings, (row: RatingRow) => SamePair(row, userId, storeId))
    case Some(i) => ratings[i := ratings[i].(value := value)]
    case None => ratings + [RatingRow(userId, storeId, value)]
  }

  /** The upsert keeps one row per pair, stores the value in the pair's row, changes no
      other row, and adds a row exactly when the pair had none. */
  lemma UpsertEffect(ratings: seq<RatingRow>, userId: int, storeId: int, value: real)
    requires UniquePairs(ratings)
    ensures UniquePairs(Upsert(ratings, userId, storeId, value))
    ensures (exists k :: 0 <= k < |ratings| && SamePair(ratings[k], userId, storeId)) ==>
      |Upsert(ratings, userId, storeId, value)| == |ratings|
    ensures var r := Upsert(ratings, userId, storeId, value);
      (forall k :: 0 <= k < |ratings| ==> !SamePair(ratings[k], userId, storeId)) ==>
        r == ratings + [RatingRow(userId, storeId, value)]
    ensures var r := Upsert(ratings, userId, storeId, value);
      && |ratings| <= |r| <= |ratings| + 1
      && (forall k :: 0 <= k < |ratings| && !SamePair(ratings[k], userId, storeId) ==> r[k] == ratings[k])
      && (forall k :: 0 <= k < |r| && SamePair(r[k], userId, storeId) ==> r[k].value == value)
      && (exists k :: 0 <= k < |r| && r[k] == RatingRow(userId, storeId, value))
  {
    var p := (row: RatingRow) => SamePair(row, userId, storeId);
    var r := Upsert(ratings, userId, storeId, value);
    match FirstIndex(ratings, p)
    case Some(i) =>
      assert r == ratings[i := ratings[i].(value := value)];
      assert r[i] == RatingRow(userId, storeId, value);
      forall a, b | 0 <= a < b < |r|
        ensures r[a].userId != r[b].userId || r[a].storeId != r[b].storeId
      {
        assert r[a].userId == ratings[a].userId && r[a].storeId == ratings[a].storeId;
        assert r[b].userId == ratings[b].userId && r[b].storeId == ratings[b].storeId;
      }
      forall k | 0 <= k < |r| && SamePair(r[k], userId, storeId)
        ensures r[k].value == value
      {
        if k != i {
          assert false;
        }
      }
    case None =>
      assert r == ratings + [RatingRow(userId, storeId, value)];
      assert r[|ratings|] == RatingRow(userId, storeId, value);
      forall a, b | 0 <= a < b < |r|
        ensures r[a].userId != r[b].userId || r[a].storeId != r[b].storeId
      {
        if b == |ratings| {
          assert !p(ratings[a]);
        }
      }
  }

  const CreateFailedMessage: string := "Failed to create rating in database"

  /** The outcome of `submitRating`, with the ledger it leaves. Inserting a new row for an
      acting user with no Users row breaks the foreign key on `Rating.userId`, which the
      handler reports as a 500; updating an existing row does not touch the key. */
  function SubmitRating(db: Db, caller: Option<Principal>, body: RatingBody): (st: Step<RatingRow>)
    ensures !TruthyNumber(body.storeId) ==> st == Step(db, Error(400, "Store ID is required"))
    ensures TruthyNumber(body.storeId) && RatingRejected(body.rating) ==>
      st == Step(db, Error(400, "Rating must be between 1 and 5"))
    ensures TruthyNumber(body.storeId) && !RatingRejected(body.rating)
            && FindStore(db.stores, body.storeId.value).None? ==>
      st == Step(db, Error(404, "Store not found"))
    ensures TruthyNumber(body.storeId) && !RatingRejected(body.rating)
            && FindStore(db.stores, body.storeId.value).Some?
            && FindRating(db.ratings, ActingUser(body.userId, caller), body.storeId.value).None?
            && FindUser(db.users, ActingUser(body.userId, caller)).None? ==>
      st == Step(db, Error(500, CreateFailedMessage))
    ensures st.reply.Ok? <==>
      && TruthyNumber(body.storeId) && !RatingRejected(body.rating)
      && FindStore(db.stores, body.storeId.value).Some?
      && (FindRating(db.ratings, ActingUser(body.userId, caller), body.storeId.value).Some?
          || FindUser(db.users, ActingUser(body.userId, caller)).Some?)
    ensures st.reply.Ok? ==>
      && st.reply.status == 200
      && st.reply.value == RatingRow(ActingUser(body.userId, caller), body.storeId.value, body.rating.value)
      && st.db == db.(ratings := Upsert(db.ratings, ActingUser(body.userId, caller),
                                       body.storeId.value, body.rating.value))
    ensures st.reply.Error? ==> st.db == db && st.reply.status in {400, 404, 500}
  {
    if !TruthyNumber(body.storeId) then Step(db, Error(400, "Store ID is required"))
    else if RatingRejected(body.rating) then Step(db, Error(400, "Rating must be between 1 and 5"))
    else
      var storeId := body.storeId.value;
      if FindStore(db.stores, storeId).None? then Step(db, Error(404, "Store not found"))
      else
        var userId := ActingUser(body.userId, caller);
        var value := body.rating.value;
        if FindRating(db.ratings, userId, storeId).None? && FindUser(db.users, userId).None? then
          Step(db, Error(500, CreateFailedMessage))
        else
          Step(db.(ratings := Upsert(db.ratings, userId, storeId, value)),
               Ok(200, RatingRow(userId, storeId, value)))
  }

  /** A submission keeps the table invariants, including the foreign keys of the ratings,
      and afterwards the acting user's rating of the store is the submitted value:
      submitting twice for a pair leaves one row. */
  lemma SubmitKeepsConsistent(db: Db, caller: Option<Principal>, body: RatingBody)
    requires Consistent(db)
    ensures Consistent(SubmitRating(db, caller, body).db)
    ensures SubmitRating(db, caller, body).reply.Ok? ==>
      var st := SubmitRating(db, caller, body);
      FindRating(st.db.ratings, ActingUser(body.userId, caller), body.storeId.value)
        == Some(body.rating.value)
  {
    var st := SubmitRating(db, caller, body);
    if st.reply.Ok? {
      var u := ActingUser(body.userId, caller);
      var sid := body.storeId.value;
      UpsertEffect(db.ratings, u, sid, body.rating.value);
      assert st.db.users == db.users && st.db.stores == db.stores;
      assert FindUser(db.users, u).Some? by {
        if FindRating(db.ratings, u, sid).Some? {
          var k :| 0 <= k < |db.ratings| && SamePair(db.ratings[k], u, sid);
          assert db.ratings[k].userId == u;
        }
      }
      UpsertKeepsKeys(db, u, sid, body.rating.value);
    }
  }

  /** The upsert keeps the ratings' foreign keys when the pair's user and store exist. */
  lemma UpsertKeepsKeys(db: Db, userId: int, storeId: int, value: real)
    requires RatingKeysExist(db) && UniquePairs(db.ratings)
    requires FindUser(db.users, userId).Some? && FindStore(db.stores, storeId).Some?
    ensures RatingKeysExist(db.(ratings := Upsert(db.ratings, userId, storeId, value)))
  {
    var r := Upsert(db.ratings, userId, storeId, value);
    UpsertEffect(db.ratings, userId, storeId, value);
    forall k | 0 <= k < |r|
      ensures FindUser(db.users, r[k].userId).Some? && FindStore(db.stores, r[k].storeId).Some?
    {
      if k < |db.ratings| && !SamePair(db.ratings[k], userId, storeId) {
        assert r[k] == db.ratings[k];
      } else {
        assert r[k].userId == userId && r[k].storeId == storeId;
      }
    }
  }

  /** The value of a user's rating of a store, if any (the first matching row). */
  function FindRating(ratings: seq<RatingRow>, userId: int, storeId: int): (r: Option<real>)
    ensures r.Some? <==> exists k :: 0 <= k < |ratings| && SamePair(ratings[k], userId, storeId)
    ensures r.Some? ==> RatingRow(userId, storeId, r.value) in ratings
  {
    match FirstIndex(ratings, (row: RatingRow) => SamePair(row, userId, storeId))
    case None => None
    case Some(i) => Some(ratings[i].value)
  }

  /** The store a rating belongs to, as `getUserRatings` includes it. */
  datatype StoreSummary = StoreSummary(id: int, name: string, address: string)

  /** A rating row with its store. */
  datatype RatedStore = RatedStore(rating: RatingRow, store: Option<StoreSummary>)

  function Summary(s: StoreRow): StoreSummary {
    StoreSummary(s.id, s.name, s.address)
  }

  /** `req.query.userId || (req.user ? req.user.id : 1)`. A query value is a string, so any
      present value (even `"0"`) is truthy; `queryUserId` is the number it names. */
  function QueryUser(queryUserId: Option<int>, caller: Option<Principal>): (id: int)
    ensures queryUserId.Some? ==> id == queryUserId.value
    ensures queryUserId.None? && caller.Some? ==> id == caller.value.UserId()
    ensures queryUserId.None? && caller.None? ==> id == 1
  {
    if queryUserId.Some? then queryUserId.value
    else if caller.Some? then caller.value.UserId()
    else 1
  }

  /** The store a rating row joins to, or `None` when no store has its id (a left join). */
  function JoinedStore(stores: seq<StoreRow>, storeId: int): (r: Option<StoreSummary>)
    ensures r.Some? <==> FindStore(stores, storeId).Some?
    ensures r.Some? ==> r.value.id == storeId
    ensures r.Some? ==> exists k :: 0 <= k < |stores| && stores[k].id == storeId
                                    && r.value == StoreSummary(storeId, stores[k].name, stores[k].address)
  {
    match FindStore(stores, storeId)
    case None => None
    case Some(s) => Some(Summary(s))
  }

  /** `include: [{ model: Store, attributes: ['id', 'name', 'address'] }]` on each row. */
  function WithStore(stores: seq<StoreRow>, rows: seq<RatingRow>): (r: seq<RatedStore>)
    ensures |r| == |rows|
    ensures forall k :: 0 <= k < |rows| ==> r[k].rating == rows[k]
    ensures forall k :: 0 <= k < |rows| ==> r[k].store == JoinedStore(stores, rows[k].storeId)
  {
    seq(|rows|, k requires 0 <= k < |rows| => RatedStore(rows[k], JoinedStore(stores, rows[k].storeId)))
  }

  /** The rating rows a list entry carries, in list order. */
  function ListedRows(list: seq<RatedStore>): (r: seq<RatingRow>)
    ensures |r| == |list| && forall k :: 0 <= k < |list| ==> r[k] == list[k].rating
  {
    seq(|list|, k requires 0 <= k < |list| => list[k].rating)
  }

  /** `Rating.findAll({ where: { userId } })`: the user's rows in table order. */
  function RatingsBy(ratings: seq<RatingRow>, userId: int): seq<RatingRow> {
    Filter(ratings, (row: RatingRow) => row.userId == userId)
  }

  /** `getUserRatings`: the rows of the chosen user, in table order, each with the id, name
      and address of its store. */
  function GetUserRatings(db: Db, queryUserId: Option<int>, caller: Option<Principal>)
    : (r: Reply<seq<RatedStore>>)
    ensures r.Ok? && r.status == 200
    ensures forall k :: 0 <= k < |r.value| ==>
      r.value[k].rating in db.ratings && r.value[k].rating.userId == QueryUser(queryUserId, caller)
    ensures forall k :: 0 <= k < |db.ratings| && db.ratings[k].userId == QueryUser(queryUserId, caller) ==>
      exists m :: 0 <= m < |r.value| && r.value[m].rating == db.ratings[k]
    ensures forall k :: 0 <= k < |r.value| ==>
      r.value[k].store == JoinedStore(db.stores, r.value[k].rating.storeId)
    ensures Subsequence(ListedRows(r.value), db.ratings)
    ensures ListedRows(r.value) == RatingsBy(db.ratings, QueryUser(queryUserId, caller))
  {
    var id := QueryUser(queryUserId, caller);
    var rows := RatingsBy(db.ratings, id);
    var out := WithStore(db.stores, rows);
    assert ListedRows(out) == rows;
    assert forall k :: 0 <= k < |db.ratings| && db.ratings[k].userId == id ==>
      exists m :: 0 <= m < |rows| && rows[m] == db.ratings[k];
    Ok(200, out)
  }

  /** In a database whose ratings reference existing stores, every listed rating carries
      its store. */
  lemma ListedRatingsHaveStores(db: Db, queryUserId: Option<int>, caller: Option<Principal>)
    requires RatingKeysExist(db)
    ensures forall k :: 0 <= k < |GetUserRatings(db, queryUserId, caller).value| ==>
      var e := GetUserRatings(db, queryUserId, caller).value[k];
      e.store.Some? && e.store.value.id == e.rating.storeId
  {
    var list := GetUserRatings(db, queryUserId, caller).value;
    forall k | 0 <= k < |list|
      ensures list[k].store.Some? && list[k].store.value.id == list[k].rating.storeId
    {
      var j :| 0 <= j < |db.ratings| && db.ratings[j] == list[k].rating;
    }
  }

  /** A rating submitted for a user shows up in that user's list. */
  lemma SubmittedRatingListed(db: Db, caller: Option<Principal>, body: RatingBody)
    requires UniquePairs(db.ratings)
    requires SubmitRating(db, caller, body).reply.Ok?
    ensures var st := SubmitRating(db, caller, body);
      exists m :: 0 <= m < |GetUserRatings(st.db, Some(ActingUser(body.userId, caller)), None).value|
        && GetUserRatings(st.db, Some(ActingUser(body.userId, caller)), None).value[m].rating
           == st.reply.value
  {
    var st := SubmitRating(db, caller, body);
    var u := ActingUser(body.userId, caller);
    UpsertEffect(db.ratings, u, body.storeId.value, body.rating.value);
    var k :| 0 <= k < |st.db.ratings| && st.db.ratings[k] == st.reply.value;
    assert st.db.ratings[k].userId == QueryUser(Some(u), None);
    var list := GetUserRatings(st.db, Some(u), None).value;
    assert exists m :: 0 <= m < |list| && list[m].rating == st.db.ratings[k];
  }
}

=== FILE: schema.dfy ===
/** The three tables of the application (Users, Stores, Ratings), the values that stand for
    bcrypt digests, the identity a request carries, the replies handlers send, and the
    table invariants the handlers are meant to keep. The tables are sequences in insertion
    order; a lookup by key returns the first matching row, as `findOne`/`findByPk` do. */
module Schema {
  import opened Wrappers
  import opened Text
  import opened Seqs

  /** The `role` enum of the user model. */
  datatype Role = Admin | NormalUser | StoreOwner

  /** The string the enum stores and the API sends. */
  function RoleName(r: Role): string {
    match r
    case Admin => "admin"
    case NormalUser => "user"
    case StoreOwner => "store_owner"
  }

  /** The enum value a request string names, if any. */
  function ParseRole(s: string): (r: Option<Role>)
    ensures r.Some? ==> RoleName(r.value) == s
    ensures r.None? ==> forall q: Role :: RoleName(q) != s
  {
    if s == "admin" then Some(Admin)
    else if s == "user" then Some(NormalUser)
    else if s == "store_owner" then Some(StoreOwner)
    else None
  }

  /** The database's refusal of a role outside the enum, on a query or an insert. */
  function BadRoleMessage(role: string): string {
    "invalid input value for enum \"enum_Users_role\": \"" + role + "\""
  }

  /** bcrypt reads at most this many bytes of a password. */
  const BcryptKeyBytes: nat := 72

  /** The part of a password bcrypt hashes: the first 72 bytes of its UTF-8 encoding. */
  function BcryptKey(plain: string): seq<Byte> {
    var b := Utf8(plain);
    if |b| <= BcryptKeyBytes then b else b[..BcryptKeyBytes]
  }

  /** Stands for a bcrypt digest of `key`. The hash is treated as ideal: digests of
      different keys differ, and the salt and cost are not modelled. */
  datatype Digest = BcryptDigest(key: seq<Byte>)

  /** `bcrypt.hash(plain, salt)`; the salt is left out. */
  function Hash(plain: string): Digest {
    BcryptDigest(BcryptKey(plain))
  }

  /** `bcrypt.compare(candidate, digest)`: the candidate's key is hashed and compared. */
  predicate Matches(d: Digest, candidate: string) {
    d.key == BcryptKey(candidate)
  }

  /** Two passwords bcrypt cannot tell apart: equal, or both at least 72 bytes long in UTF-8
      and equal in their first 72 bytes. */
  predicate SameBcryptInput(a: string, b: string) {
    || a == b
    || (&& |Utf8(a)| >= BcryptKeyBytes && |Utf8(b)| >= BcryptKeyBytes
        && Utf8(a)[..BcryptKeyBytes] == Utf8(b)[..BcryptKeyBytes])
  }

  /** A digest accepts the plaintext it was made from and the passwords that share its
      first 72 bytes, and nothing else. */
  lemma HashMatches(plain: string, candidate: string)
    ensures Matches(Hash(plain), candidate) <==> SameBcryptInput(candidate, plain)
  {
    var p, c := Utf8(plain), Utf8(candidate);
    if Matches(Hash(plain), candidate) && !(|p| >= BcryptKeyBytes && |c| >= BcryptKeyBytes) {
      assert |p| < BcryptKeyBytes && |c| < BcryptKeyBytes;
      Utf8Injective(candidate, plain);
    }
  }

  /** Text past the first 72 bytes of a password does not change its digest. */
  lemma TruncatedAfterKeyBytes(plain: string, extra: string)
    requires |Utf8(plain)| >= BcryptKeyBytes
    ensures Matches(Hash(plain + extra), plain)
  {
    Utf8Append(plain, extra);
    assert Utf8(plain + extra)[..BcryptKeyBytes] == Utf8(plain)[..BcryptKeyBytes];
  }

  /** Passwords shorter than 72 bytes compare equal only to themselves. */
  lemma ShortPasswordsCompareExactly(plain: string, candidate: string)
    requires |Utf8(plain)| < BcryptKeyBytes
    ensures Matches(Hash(plain), candidate) <==> candidate == plain
  {
    HashMatches(plain, candidate);
  }

  datatype UserRow = UserRow(id: int, name: string, email: string, password: Digest,
                             address: string, role: Role)

  /** `ownerId` is nullable; when set it references a user id. */
  datatype StoreRow = StoreRow(id: int, name: string, email: string, address: string,
                               ownerId: Option<int>)

  /** One user's rating of one store (a JavaScript number). */
  datatype RatingRow = RatingRow(userId: int, storeId: int, value: real)

  datatype Db = Db(users: seq<UserRow>, stores: seq<StoreRow>, ratings: seq<RatingRow>)

  /** A user record as the API returns it: every column except the password. */
  datatype UserView = UserView(id: int, name: string, email: string, address: string, role: Role)

  function ViewOf(u: UserRow): UserView {
    UserView(u.id, u.name, u.email, u.address, u.role)
  }

  /** An HTTP reply: a success status with a body, or an error status with its message. */
  datatype Reply<T> = Ok(status: nat, value: T) | Error(status: nat, message: string)

  /** The tables after a handler ran, and what it replied. */
  datatype Step<T> = Step(db: Db, reply: Reply<T>)

  /** `req.user`: the fixed development identity, or a user row loaded by the gate. */
  datatype Principal = DefaultPrincipal | Account(user: UserRow) {
    function UserId(): int {
      if DefaultPrincipal? then 1 else user.id
    }
    function RoleOf(): Role {
      if DefaultPrincipal? then NormalUser else user.role
    }
  }

  /** `User.findByPk(id)`. */
  function FindUser(users: seq<UserRow>, id: int): Option<UserRow> {
    First(users, (u: UserRow) => u.id == id)
  }

  /** `User.findOne({ where: { email } })`. */
  function FindUserByEmail(users: seq<UserRow>, email: string): Option<UserRow> {
    First(users, (u: UserRow) => u.email == email)
  }

  /** `Store.findByPk(id)`. */
  function FindStore(stores: seq<StoreRow>, id: int): Option<StoreRow> {
    First(stores, (s: StoreRow) => s.id == id)
  }

  /** `Store.findOne({ where: { email } })`. */
  function FindStoreByEmail(stores: seq<StoreRow>, email: string): Option<StoreRow> {
    First(stores, (s: StoreRow) => s.email == email)
  }

  /** `Store.findOne({ where: { ownerId } })`, also the user's `Store` association. */
  function FindStoreByOwner(stores: seq<StoreRow>, ownerId: int): Option<StoreRow> {
    First(stores, (s: StoreRow) => s.ownerId == Some(ownerId))
  }

  /** The id an auto-increment column hands out next: above every id in use. */
  function NextId(ids: seq<int>): (r: int)
    ensures r >= 1
    ensures forall k :: 0 <= k < |ids| ==> ids[k] < r
    decreases |ids|
  {
    if |ids| == 0 then 1
    else
      var rest := NextId(ids[1..]);
      if ids[0] < rest then rest else ids[0] + 1
  }

  function UserIds(users: seq<UserRow>): seq<int> {
    seq(|users|, k requires 0 <= k < |users| => users[k].id)
  }

  function StoreIds(stores: seq<StoreRow>): seq<int> {
    seq(|stores|, k requires 0 <= k < |stores| => stores[k].id)
  }

  /** The id the next user row receives is used by no user row. */
  lemma NextUserIdFresh(users: seq<UserRow>)
    ensures FindUser(users, NextId(UserIds(users))).None?
  {
    var n := NextId(UserIds(users));
    assert forall k :: 0 <= k < |users| ==> UserIds(users)[k] == users[k].id;
  }

  ghost predicate UniqueUserIds(users: seq<UserRow>) {
    forall i, j :: 0 <= i < j < |users| ==> users[i].id != users[j].id
  }

  /** The `unique: true` constraint on user emails. */
  ghost predicate UniqueUserEmails(users: seq<UserRow>) {
    forall i, j :: 0 <= i < j < |users| ==> users[i].email != users[j].email
  }

  ghost predicate UniqueStoreIds(stores: seq<StoreRow>) {
    forall i, j :: 0 <= i < j < |stores| ==> stores[i].id != stores[j].id
  }

  /** The `unique: true` constraint on store emails. */
  ghost predicate UniqueStoreEmails(stores: seq<StoreRow>) {
    forall i, j :: 0 <= i < j < |stores| ==> stores[i].email != stores[j].email
  }

  /** The foreign key from `Store.ownerId` to `User.id`. */
  ghost predicate OwnersExist(db: Db) {
    forall k :: 0 <= k < |db.stores| && db.stores[k].ownerId.Some? ==>
      FindUser(db.users, db.stores[k].ownerId.value).Some?
  }

  /** The foreign keys from `Rating.userId` to `User.id` and from `Rating.storeId` to
      `Store.id`. */
  ghost predicate RatingKeysExist(db: Db) {
    forall k :: 0 <= k < |db.ratings| ==>
      FindUser(db.users, db.ratings[k].userId).Some? && FindStore(db.stores, db.ratings[k].storeId).Some?
  }

  /** The ratings' foreign keys survive a change that leaves the ratings alone and every
      user and store findable. */
  lemma RatingKeysKept(before: Db, after: Db)
    requires RatingKeysExist(before) && after.ratings == before.ratings
    requires forall id :: FindUser(before.users, id).Some? ==> FindUser(after.users, id).Some?
    requires forall id :: FindStore(before.stores, id).Some? ==> FindStore(after.stores, id).Some?
    ensures RatingKeysExist(after)
  {
  }

  /** At most one rating per (user, store) pair. */
  ghost predicate UniquePairs(ratings: seq<RatingRow>) {
    forall i, j :: 0 <= i < j < |ratings| ==>
      ratings[i].userId != ratings[j].userId || ratings[i].storeId != ratings[j].storeId
  }

  /** The invariants the schema declares or the handlers' checks are meant to keep. */
  ghost predicate Consistent(db: Db) {
    && UniqueUserIds(db.users)
    && UniqueUserEmails(db.users)
    && UniqueStoreIds(db.stores)
    && UniqueStoreEmails(db.stores)
    && OwnersExist(db)
    && RatingKeysExist(db)
    && UniquePairs(db.ratings)
  }
}

=== FILE: seqs.dfy ===
/** Generic sequence queries the tables are read with: first match, filter, subsequence. */
module Seqs {
  import opened Wrappers

  /** Index of the first element satisfying `p`. */
  function FirstIndex<T>(s: seq<T>, p: T -> bool): (r: Option<nat>)
    ensures r.Some? ==> r.value < |s| && p(s[r.value])
    ensures r.Some? ==> forall k :: 0 <= k < r.value ==> !p(s[k])
    ensures r.None? <==> forall k :: 0 <= k < |s| ==> !p(s[k])
    decreases |s|
  {
    if |s| == 0 then None
    else if p(s[0]) then Some(0)
    else
      match FirstIndex(s[1..], p)
      case None => None
      case Some(k) => Some(k + 1)
  }

  /** The first element satisfying `p`. */
  function First<T>(s: seq<T>, p: T -> bool): (r: Option<T>)
    ensures r.Some? ==> r.value in s && p(r.value)
    ensures r.None? <==> forall k :: 0 <= k < |s| ==> !p(s[k])
  {
    match FirstIndex(s, p)
    case None => None
    case Some(k) => Some(s[k])
  }

  /** The elements satisfying `p`, in their original order. */
  function Filter<T>(s: seq<T>, p: T -> bool): (r: seq<T>)
    ensures |r| <= |s|
    ensures forall k :: 0 <= k < |r| ==> r[k] in s && p(r[k])
    ensures forall k :: 0 <= k < |s| && p(s[k]) ==> s[k] in r
    ensures Subsequence(r, s)
    decreases |s|
  {
    if |s| == 0 then []
    else if p(s[0]) then
      var t := Filter(s[1..], p);
      assert ([s[0]] + t)[1..] == t;
      [s[0]] + t
    else Filter(s[1..], p)
  }

  /** `r` is `s` with some elements left out, the rest kept in order (greedy matching). */
  ghost predicate Subsequence<T>(r: seq<T>, s: seq<T>)
    decreases |s|
  {
    |r| == 0 || (|s| > 0 && if r[0] == s[0] then Subsequence(r[1..], s[1..]) else Subsequence(r, s[1..]))
  }

  /** Filtering a sequence with one more element at the end filters the prefix and then
      keeps or drops that element. */
  lemma {:induction false} FilterAppend<T>(s: seq<T>, x: T, p: T -> bool)
    ensures Filter(s + [x], p) == Filter(s, p) + (if p(x) then [x] else [])
    decreases |s|
  {
    if |s| == 0 {
      assert s + [x] == [x];
      assert [x][1..] == [];
    } else {
      assert (s + [x])[1..] == s[1..] + [x];
      FilterAppend(s[1..], x, p);
    }
  }
}

=== FILE: store_model.dfy ===
/** The store model: column validators for name, email and address, and a nullable
    `ownerId` column. */
module StoreModel {
  import opened Wrappers
  import opened Text
  import opened Schema

  /** The request fields a store row is created from; `None` is an absent field. */
  datatype StoreDraft = StoreDraft(name: Option<string>, email: Option<string>,
                                   address: Option<string>, ownerId: Option<int>)

  /** `len: [1, 60]` and `notEmpty` (which rejects white-space-only text). */
  predicate ValidStoreName(n: string) {
    1 <= |n| <= 60 && !IsBlank(n)
  }

  /** `len: [1, 400]`. */
  predicate ValidStoreAddress(a: string) {
    1 <= |a| <= 400
  }

  predicate StoreFieldsValid(d: StoreDraft, isEmail: string -> bool) {
    && d.name.Some? && ValidStoreName(d.name.value)
    && d.email.Some? && isEmail(d.email.value)
    && d.address.Some? && ValidStoreAddress(d.address.value)
  }

  const StoreValidationMessage: string := "Validation error"

  /** `Store.create(draft)`: the validators, then the row with the next id. */
  function Create(stores: seq<StoreRow>, d: StoreDraft, isEmail: string -> bool)
    : (r: Result<StoreRow, string>)
    ensures r.Success? <==> StoreFieldsValid(d, isEmail)
    ensures r.Success? ==>
      && FindStore(stores, r.value.id).None?
      && r.value == StoreRow(r.value.id, d.name.value, d.email.value, d.address.value, d.ownerId)
  {
    if !StoreFieldsValid(d, isEmail) then Failure(StoreValidationMessage)
    else
      var id := NextId(StoreIds(stores));
      assert forall k :: 0 <= k < |stores| ==> StoreIds(stores)[k] == stores[k].id;
      Success(StoreRow(id, d.name.value, d.email.value, d.address.value, d.ownerId))
  }
}

=== FILE: store_registry.dfy ===
/** The store handlers: `getAllStores`, `getStoreById` with its rating aggregate and the
    caller's own rating, `createStore` with its duplicate check and owner promotion, and
    `getStoreOwnerDashboard`. */
module StoreRegistry {
  import opened Wrappers
  import opened Seqs
  import opened Ordering
  import opened Schema
  import opened UserModel
  import opened StoreModel
  import opened Aggregation
  import opened RatingLedger

  /** The store columns the handlers select: `id`, `name`, `email`, `address`. */
  datatype StoreInfo = StoreInfo(id: int, name: string, email: string, address: string)

  function Info(s: StoreRow): StoreInfo {
    StoreInfo(s.id, s.name, s.email, s.address)
  }

  function Infos(stores: seq<StoreRow>): (r: seq<StoreInfo>)
    ensures |r| == |stores| && forall k :: 0 <= k < |stores| ==> r[k] == Info(stores[k])
  {
    seq(|stores|, k requires 0 <= k < |stores| => Info(stores[k]))
  }

  function NameKey(s: StoreInfo): Key {
    Text(s.name)
  }

  /** An entry of the store list. `userRating` is `None` for JSON `null`. */
  datatype StoreListing = StoreListing(info: StoreInfo, averageRating: real, ratingCount: nat,
                                       userRating: Option<real>)

  function ListedInfos(ls: seq<StoreListing>): (r: seq<StoreInfo>)
    ensures |r| == |ls| && forall k :: 0 <= k < |ls| ==> r[k] == ls[k].info
  {
    seq(|ls|, k requires 0 <= k < |ls| => ls[k].info)
  }

  /** `getAllStores`: every store ordered by name, each with rating 0, count 0 and no
      user rating, whatever the Ratings table holds. */
  function GetAllStores(db: Db): (r: Reply<seq<StoreListing>>)
    ensures r.Ok? && r.status == 200
    ensures multiset(ListedInfos(r.value)) == multiset(Infos(db.stores))
    ensures SortedBy(ListedInfos(r.value), NameKey, Asc)
    ensures forall k :: 0 <= k < |r.value| ==>
      r.value[k].averageRating == 0.0 && r.value[k].ratingCount == 0 && r.value[k].userRating.None?
  {
    var sorted := Sort(Infos(db.stores), NameKey, Asc);
    var ls := seq(|sorted|, k requires 0 <= k < |sorted| => StoreListing(sorted[k], 0.0, 0, None));
    assert ListedInfos(ls) == sorted;
    Ok(200, ls)
  }

  /** A store's owner as `getStoreById` includes it: the id, name and email columns of the
      user the store's `ownerId` references. */
  datatype OwnerInfo = OwnerInfo(id: int, name: string, email: string)

  /** A store with its aggregate; `userRating` is `None` when the field is absent and
      `Some(None)` when it is present as `null`. */
  datatype StoreDetail = StoreDetail(info: StoreInfo, owner: Option<OwnerInfo>, averageRating: real,
                                     ratingCount: nat, userRating: Option<Option<real>>)

  function OwnerOf(users: seq<UserRow>, s: StoreRow): Option<OwnerInfo> {
    if s.ownerId.None? then None
    else
      match FindUser(users, s.ownerId.value)
      case None => None
      case Some(u) => Some(OwnerInfo(u.id, u.name, u.email))
  }

  /** `getStoreById(id)` for a request whose `req.user` is `caller`. */
  function GetStoreById(db: Db, id: int, caller: Option<Principal>): (r: Reply<StoreDetail>)
    ensures FindStore(db.stores, id).None? <==> r == Error(404, "Store not found")
    ensures r.Ok? <==> FindStore(db.stores, id).Some?
    ensures r.Ok? ==>
      var s := FindStore(db.stores, id).value;
      && (r.value.owner.Some? <==> s.ownerId.Some? && FindUser(db.users, s.ownerId.value).Some?)
      && (r.value.owner.Some? ==>
            var u := FindUser(db.users, s.ownerId.value).value;
            r.value.owner.value == OwnerInfo(u.id, u.name, u.email))
    ensures r.Ok? ==>
      && r.status == 200
      && r.value.info == Info(FindStore(db.stores, id).value)
      && r.value.info.id == id
      && r.value.ratingCount == |RatingsOf(db.ratings, id)|
      && r.value.averageRating == Average(Values(RatingsOf(db.ratings, id)))
      && (r.value.userRating.Some? <==> caller.Some? && caller.value.RoleOf() == NormalUser)
      && (r.value.userRating.Some? ==>
            r.value.userRating.value == FindRating(db.ratings, caller.value.UserId(), id))
  {
    match FindStore(db.stores, id)
    case None => Error(404, "Store not found")
    case Some(s) =>
      var rows := RatingsOf(db.ratings, id);
      var mine := if caller.Some? && caller.value.RoleOf() == NormalUser
                  then Some(FindRating(db.ratings, caller.value.UserId(), id))
                  else None;
      Ok(200, StoreDetail(Info(s), OwnerOf(db.users, s), Average(Values(rows)), |rows|, mine))
  }

  /** When every stored rating passed the submit check, a rated store's mean lies in
      [1, 5]; a store nobody rated reports mean 0 and count 0. */
  lemma StoreAverageInRange(db: Db, id: int, caller: Option<Principal>)
    requires FindStore(db.stores, id).Some?
    requires forall k :: 0 <= k < |db.ratings| ==> !RatingRejected(Some(db.ratings[k].value))
    ensures var d := GetStoreById(db, id, caller).value;
      d.ratingCount > 0 ==> 1.0 <= d.averageRating <= 5.0
    ensures var d := GetStoreById(db, id, caller).value;
      d.ratingCount == 0 ==> d.averageRating == 0.0
  {
    var rows := RatingsOf(db.ratings, id);
    var vs := Values(rows);
    if |rows| > 0 {
      forall k | 0 <= k < |vs|
        ensures 1.0 <= vs[k] <= 5.0
      {
        assert rows[k] in db.ratings;
        var j :| 0 <= j < |db.ratings| && db.ratings[j] == rows[k];
        assert !RatingRejected(Some(db.ratings[j].value));
      }
      AverageWithin(vs, 1.0, 5.0);
    }
  }

  /** A first rating of a store by a user raises the store's count by one; a repeated
      rating by the same user leaves the count as it was. */
  lemma SubmitCountEffect(db: Db, caller: Option<Principal>, body: RatingBody)
    requires UniquePairs(db.ratings)
    requires SubmitRating(db, caller, body).reply.Ok?
    ensures var s := body.storeId.value;
      var before := |RatingsOf(db.ratings, s)|;
      var after := |RatingsOf(SubmitRating(db, caller, body).db.ratings, s)|;
      after == (if FindRating(db.ratings, ActingUser(body.userId, caller), s).Some?
                then before else before + 1)
  {
    var s := body.storeId.value;
    var u := ActingUser(body.userId, caller);
    var v := body.rating.value;
    var p := (r: RatingRow) => r.storeId == s;
    var q := (row: RatingRow) => SamePair(row, u, s);
    match FirstIndex(db.ratings, q)
    case Some(i) =>
      assert Upsert(db.ratings, u, s, v) == db.ratings[i := db.ratings[i].(value := v)];
      FilterUpdateLength(db.ratings, i, db.ratings[i].(value := v), p);
    case None =>
      assert Upsert(db.ratings, u, s, v) == db.ratings + [RatingRow(u, s, v)];
      FilterAppend(db.ratings, RatingRow(u, s, v), p);
  }

  /** Replacing an element by one the predicate treats alike keeps the filtered length. */
  lemma {:induction false} FilterUpdateLength<T>(s: seq<T>, i: nat, y: T, p: T -> bool)
    requires i < |s| && p(y) == p(s[i])
    ensures |Filter(s[i := y], p)| == |Filter(s, p)|
    decreases |s|
  {
    if i > 0 {
      assert s[i := y][1..] == s[1..][i - 1 := y];
      FilterUpdateLength(s[1..], i - 1, y, p);
    } else {
      assert s[i := y][1..] == s[1..];
    }
  }

  const DuplicateStoreMessage: string := "Store already exists with this email"
  const OwnerNotFoundMessage: string := "Owner not found"
  /** The ORM's error for a `where` value that is `undefined`. */
  const UndefinedEmailMessage: string := "WHERE parameter \"email\" has invalid \"undefined\" value"

  /** The user `findByPk(id)` returns, made a store owner when it is not one already. */
  function PromoteOwner(users: seq<UserRow>, id: int): (r: seq<UserRow>)
    ensures |r| == |users|
    ensures forall k :: 0 <= k < |users| ==>
      r[k] == users[k] || (r[k] == ChangeRole(users[k], StoreOwner) && users[k].id == id)
    ensures FindUser(users, id).Some? ==> FindUser(r, id) == Some(ChangeRole(FindUser(users, id).value, StoreOwner))
    ensures FindUser(users, id).None? ==> r == users
  {
    var p := (u: UserRow) => u.id == id;
    match FirstIndex(users, p)
    case None => users
    case Some(i) =>
      if users[i].role == StoreOwner then
        assert ChangeRole(users[i], StoreOwner) == users[i];
        users
      else
        var r := users[i := ChangeRole(users[i], StoreOwner)];
        assert FirstIndex(r, p) == Some(i) by {
          FirstIndexAfterUpdate(users, i, ChangeRole(users[i], StoreOwner), p);
        }
        r
  }

  /** Changing the first match to another match keeps it the first match. */
  lemma {:induction false} FirstIndexAfterUpdate<T>(s: seq<T>, i: nat, y: T, p: T -> bool)
    requires FirstIndex(s, p) == Some(i) && p(y)
    ensures FirstIndex(s[i := y], p) == Some(i)
    decreases |s|
  {
    if i > 0 {
      assert s[i := y][1..] == s[1..][i - 1 := y];
      FirstIndexAfterUpdate(s[1..], i - 1, y, p);
    }
  }

  /** `createStore`. The owner is promoted before the store row is validated, so a store
      that fails validation still leaves its owner promoted. */
  function CreateStore(db: Db, d: StoreDraft, isEmail: string -> bool): (st: Step<StoreRow>)
    ensures d.email.None? ==> st == Step(db, Error(400, UndefinedEmailMessage))
    ensures d.email.Some? && FindStoreByEmail(db.stores, d.email.value).Some? ==>
      st == Step(db, Error(400, DuplicateStoreMessage))
    ensures d.email.Some? && FindStoreByEmail(db.stores, d.email.value).None?
            && TruthyNumber(d.ownerId) && FindUser(db.users, d.ownerId.value).None? ==>
      st == Step(db, Error(404, OwnerNotFoundMessage))
    ensures st.db.ratings == db.ratings
    ensures st.reply.Ok? <==>
      && d.email.Some? && FindStoreByEmail(db.stores, d.email.value).None?
      && (TruthyNumber(d.ownerId) ==> FindUser(db.users, d.ownerId.value).Some?)
      && StoreFieldsValid(d, isEmail)
    ensures st.reply.Ok? ==>
      && st.reply.status == 201
      && StoreFieldsValid(d, isEmail)
      && st.db.stores == db.stores + [st.reply.value]
      && FindStore(db.stores, st.reply.value.id).None?
      && FindStoreByEmail(db.stores, st.reply.value.email).None?
      && st.reply.value.name == d.name.value && st.reply.value.email == d.email.value
      && st.reply.value.address == d.address.value
      && st.reply.value.ownerId == (if TruthyNumber(d.ownerId) then d.ownerId else None)
    ensures st.reply.Error? ==> st.db.stores == db.stores
    ensures st.db.users == db.users || (
      && TruthyNumber(d.ownerId)
      && FindUser(db.users, d.ownerId.value).Some?
      && st.db.users == PromoteOwner(db.users, d.ownerId.value))
  {
    if d.email.None? then Step(db, Error(400, UndefinedEmailMessage))
    else if FindStoreByEmail(db.stores, d.email.value).Some? then
      Step(db, Error(400, DuplicateStoreMessage))
    else if TruthyNumber(d.ownerId) && FindUser(db.users, d.ownerId.value).None? then
      Step(db, Error(404, OwnerNotFoundMessage))
    else
      var users := if TruthyNumber(d.ownerId) then PromoteOwner(db.users, d.ownerId.value) else db.users;
      var ownerId := if TruthyNumber(d.ownerId) then d.ownerId else None;
      match StoreModel.Create(db.stores, d.(ownerId := ownerId), isEmail)
      case Failure(msg) => Step(db.(users := users), Error(400, msg))
      case Success(row) =>
        Step(Db(users, db.stores + [row], db.ratings), Ok(201, row))
  }

  /** With an owner named, a created store's owner has the store-owner role afterwards. */
  lemma CreateStorePromotesOwner(db: Db, d: StoreDraft, isEmail: string -> bool)
    requires CreateStore(db, d, isEmail).reply.Ok?
    requires TruthyNumber(d.ownerId)
    ensures var st := CreateStore(db, d, isEmail);
      && FindUser(st.db.users, d.ownerId.value).Some?
      && FindUser(st.db.users, d.ownerId.value).value.role == StoreOwner
      && st.reply.value.ownerId == d.ownerId
  {
  }

  /** A store that fails validation still leaves the named owner promoted. */
  lemma FailedCreateKeepsPromotion(db: Db, d: StoreDraft, isEmail: string -> bool)
    requires d.email.Some? && FindStoreByEmail(db.stores, d.email.value).None?
    requires TruthyNumber(d.ownerId) && FindUser(db.users, d.ownerId.value).Some?
    requires !StoreFieldsValid(d, isEmail)
    ensures var st := CreateStore(db, d, isEmail);
      && st.reply.Error? && st.reply.status == 400
      && FindUser(st.db.users, d.ownerId.value).value.role == StoreOwner
  {
  }

  /** Promotion changes only a role, so every key, email and id of the Users table stays. */
  lemma PromoteKeepsKeys(users: seq<UserRow>, id: int)
    ensures UserIds(PromoteOwner(users, id)) == UserIds(users)
    ensures forall k :: 0 <= k < |users| ==>
      PromoteOwner(users, id)[k].id == users[k].id && PromoteOwner(users, id)[k].email == users[k].email
  {
  }

  lemma FindUserSameIds(a: seq<UserRow>, b: seq<UserRow>, id: int)
    requires |a| == |b| && forall k :: 0 <= k < |a| ==> a[k].id == b[k].id
    ensures FindUser(a, id).Some? <==> FindUser(b, id).Some?
  {
    if FindUser(a, id).Some? {
      var k :| 0 <= k < |a| && a[k].id == id;
      assert b[k].id == id;
    }
    if FindUser(b, id).Some? {
      var k :| 0 <= k < |b| && b[k].id == id;
      assert a[k].id == id;
    }
  }

  /** `createStore` keeps the table invariants: store ids and emails stay unique, and every
      store's owner is still a user. */
  lemma CreateStoreKeepsConsistent(db: Db, d: StoreDraft, isEmail: string -> bool)
    requires Consistent(db)
    ensures Consistent(CreateStore(db, d, isEmail).db)
  {
    var st := CreateStore(db, d, isEmail);
    var users := st.db.users;
    PromoteKeepsKeys(db.users, if d.ownerId.Some? then d.ownerId.value else 0);
    assert |users| == |db.users| && forall k :: 0 <= k < |users| ==>
      users[k].id == db.users[k].id && users[k].email == db.users[k].email;
    forall k | 0 <= k < |st.db.stores| && st.db.stores[k].ownerId.Some?
      ensures FindUser(users, st.db.stores[k].ownerId.value).Some?
    {
      FindUserSameIds(users, db.users, st.db.stores[k].ownerId.value);
      if k < |db.stores| {
        assert st.db.stores[k] == db.stores[k];
      }
    }
    if st.reply.Ok? {
      var row := st.reply.value;
      forall a, b | 0 <= a < b < |st.db.stores|
        ensures st.db.stores[a].id != st.db.stores[b].id
        ensures st.db.stores[a].email != st.db.stores[b].email
      {
        if b == |db.stores| {
          assert st.db.stores[a] == db.stores[a];
        }
      }
    }
    forall id | FindUser(db.users, id).Some? ensures FindUser(users, id).Some? {
      FindUserSameIds(users, db.users, id);
    }
    forall id | FindStore(db.stores, id).Some? ensures FindStore(st.db.stores, id).Some? {
      var k :| 0 <= k < |db.stores| && db.stores[k].id == id;
      assert st.db.stores[k] == db.stores[k];
    }
    RatingKeysKept(db, st.db);
  }

  /** One rating as the owner's dashboard lists it: who rated, and how. */
  datatype Rater = Rater(id: int, name: string, email: string, rating: real)

  /** The raters of `rows`, in order; `None` when some row's user is missing, where the
      handler dereferences `null` and fails. */
  function Raters(users: seq<UserRow>, rows: seq<RatingRow>): (r: Option<seq<Rater>>)
    ensures r.Some? <==> forall k :: 0 <= k < |rows| ==> FindUser(users, rows[k].userId).Some?
    ensures r.Some? ==>
      && |r.value| == |rows|
      && forall k :: 0 <= k < |rows| ==>
           r.value[k].id == rows[k].userId && r.value[k].rating == rows[k].value
    ensures r.Some? ==>
      forall k :: 0 <= k < |rows| ==>
        var u := FindUser(users, rows[k].userId).value;
        r.value[k].name == u.name && r.value[k].email == u.email
    decreases |rows|
  {
    if |rows| == 0 then Some([])
    else
      match FindUser(users, rows[0].userId)
      case None => None
      case Some(u) =>
        match Raters(users, rows[1..])
        case None =>
          assert forall k :: 1 <= k < |rows| ==> rows[k] == rows[1..][k - 1];
          None
        case Some(rest) =>
          assert forall k :: 1 <= k < |rows| ==> rows[k] == rows[1..][k - 1];
          Some([Rater(u.id, u.name, u.email, rows[0].value)] + rest)
  }

  datatype OwnerDashboard = OwnerDashboard(store: StoreInfo, averageRating: real, totalRatings: nat,
                                           usersWhoRated: seq<Rater>)

  /** The message of the `TypeError` thrown by reading `.id` of an absent value. */
  const NoCallerMessage: string := "Cannot read properties of undefined (reading 'id')"
  const MissingRaterMessage: string := "Cannot read properties of null (reading 'id')"

  /** `getStoreOwnerDashboard` for a request whose `req.user` is `caller`. */
  function GetStoreOwnerDashboard(db: Db, caller: Option<Principal>): (r: Reply<OwnerDashboard>)
    ensures caller.None? ==> r == Error(400, NoCallerMessage)
    ensures caller.Some? && FindStoreByOwner(db.stores, caller.value.UserId()).None? ==>
      r == Error(404, "Store not found for this owner")
    ensures r.Ok? ==>
      && caller.Some?
      && var s := FindStoreByOwner(db.stores, caller.value.UserId());
      && s.Some? && s.value.ownerId == Some(caller.value.UserId())
      && r.value.store == Info(s.value)
      && r.value.totalRatings == |RatingsOf(db.ratings, s.value.id)|
      && r.value.averageRating == Average(Values(RatingsOf(db.ratings, s.value.id)))
      && |r.value.usersWhoRated| == r.value.totalRatings
      && forall k :: 0 <= k < r.value.totalRatings ==>
           var row := RatingsOf(db.ratings, s.value.id)[k];
           && FindUser(db.users, row.userId).Some?
           && var u := FindUser(db.users, row.userId).value;
              r.value.usersWhoRated[k] == Rater(u.id, u.name, u.email, row.value)
  {
    if caller.None? then Error(400, NoCallerMessage)
    else
      match FindStoreByOwner(db.stores, caller.value.UserId())
      case None => Error(404, "Store not found for this owner")
      case Some(s) =>
        var rows := RatingsOf(db.ratings, s.id);
        match Raters(db.users, rows)
        case None => Error(400, MissingRaterMessage)
        case Some(raters) =>
          Ok(200, OwnerDashboard(Info(s), Average(Values(rows)), |rows|, raters))
  }

  /** When every rating's user is stored, as the foreign key on `Rating.userId` (part of
      `Consistent`) guarantees, the dashboard of an owner with a store succeeds. */
  lemma OwnerDashboardSucceeds(db: Db, caller: Principal)
    requires forall k :: 0 <= k < |db.ratings| ==> FindUser(db.users, db.ratings[k].userId).Some?
    requires FindStoreByOwner(db.stores, caller.UserId()).Some?
    ensures GetStoreOwnerDashboard(db, Some(caller)).Ok?
  {
    var s := FindStoreByOwner(db.stores, caller.UserId()).value;
    var rows := RatingsOf(db.ratings, s.id);
    forall k | 0 <= k < |rows|
      ensures FindUser(db.users, rows[k].userId).Some?
    {
      var j :| 0 <= j < |db.ratings| && db.ratings[j] == rows[k];
    }
  }
}

=== FILE: text.dfy ===
/** String helpers with the meaning JavaScript gives them: `\s`, `trim`, `startsWith`,
    `includes` and `toLowerCase` (ASCII letters only). */
module Text {

  /** The characters of JavaScript's `\s` class, which `String.prototype.trim` also strips. */
  predicate IsSpace(c: char) {
    || c == ' ' || c == '\t' || c == '\n' || c == '\U{B}' || c == '\U{C}' || c == '\r'
    || c == '\U{A0}' || c == '\U{1680}' || ('\U{2000}' <= c <= '\U{200A}')
    || c == '\U{2028}' || c == '\U{2029}' || c == '\U{202F}' || c == '\U{205F}'
    || c == '\U{3000}' || c == '\U{FEFF}'
  }

  /** Every character is white space (vacuously true of ""). */
  predicate IsBlank(s: string) {
    forall i :: 0 <= i < |s| ==> IsSpace(s[i])
  }

  predicate IsDigit(c: char) {
    '0' <= c <= '9'
  }

  /** `s.startsWith(p)`. */
  predicate StartsWith(s: string, p: string) {
    |p| <= |s| && s[..|p|] == p
  }

  /** `s.includes(t)`: `t` occurs in `s` at some offset. */
  predicate Contains(s: string, t: string)
    decreases |s|
  {
    StartsWith(s, t) || (|s| > 0 && Contains(s[1..], t))
  }

  /** Drops leading white space; what remains is a suffix of `s`. */
  function TrimStart(s: string): (r: string)
    ensures |r| <= |s| && r == s[|s| - |r|..]
    ensures IsBlank(s[..|s| - |r|])
    ensures |r| > 0 ==> !IsSpace(r[0])
    decreases |s|
  {
    if |s| > 0 && IsSpace(s[0]) then
      var r := TrimStart(s[1..]);
      assert s[1..][..|s| - 1 - |r|] == s[1..|s| - |r|];
      r
    else s
  }

  /** Drops trailing white space; what remains is a prefix of `s`. */
  function TrimEnd(s: string): (r: string)
    ensures |r| <= |s| && r == s[..|r|]
    ensures IsBlank(s[|r|..])
    ensures |r| > 0 ==> !IsSpace(r[|r| - 1])
    decreases |s|
  {
    if |s| > 0 && IsSpace(s[|s| - 1]) then
      var r := TrimEnd(s[..|s| - 1]);
      assert s[..|s| - 1][|r|..] == s[|r|..|s| - 1];
      r
    else s
  }

  /** `s.trim()`: the slice of `s` left after removing white space from both ends. It is
      empty exactly when `s` is all white space, otherwise it starts and ends with a
      non-space character. */
  function Trim(s: string): (r: string)
    ensures exists i :: 0 <= i <= |s| - |r| && r == s[i..i + |r|]
                        && IsBlank(s[..i]) && IsBlank(s[i + |r|..])
    ensures r == "" <==> IsBlank(s)
    ensures |r| > 0 ==> !IsSpace(r[0]) && !IsSpace(r[|r| - 1])
  {
    var t := TrimStart(s);
    var r := TrimEnd(t);
    TrimSlice(s, t, r);
    if r == "" then
      assert IsBlank(t) by { assert t[|r|..] == t; }
      assert s == s[..|s| - |t|] + t;
      r
    else
      assert r[0] == t[0];
      r
  }

  /** Removing white space from the start and then from the end cuts a slice out of `s`
      with white space on either side. */
  lemma TrimSlice(s: string, t: string, r: string)
    requires |t| <= |s| && t == s[|s| - |t|..] && IsBlank(s[..|s| - |t|])
    requires |r| <= |t| && r == t[..|r|] && IsBlank(t[|r|..])
    ensures var i := |s| - |t|;
      && 0 <= i <= |s| - |r| && r == s[i..i + |r|]
      && IsBlank(s[..i]) && IsBlank(s[i + |r|..])
  {
    var i := |s| - |t|;
    assert forall k :: 0 <= k < |r| ==> r[k] == t[k] == s[i + k];
    assert s[i + |r|..] == t[|r|..];
  }

  /** `s.length`: JavaScript counts UTF-16 code units, so a character above U+FFFF counts
      twice. */
  function Utf16Length(s: string): (n: nat)
    ensures |s| <= n <= 2 * |s|
    ensures (forall k :: 0 <= k < |s| ==> s[k] as int < 0x1_0000) ==> n == |s|
    decreases |s|
  {
    if |s| == 0 then 0
    else (if s[0] as int < 0x1_0000 then 1 else 2) + Utf16Length(s[1..])
  }

  /** A UTF-8 byte. */
  type Byte = b: int | 0 <= b < 256

  /** The UTF-8 encoding of one character: one to four bytes, the first telling how many. */
  function EncodeChar(c: char): (b: seq<Byte>)
    ensures 1 <= |b| <= 4 && |b| == LeadLength(b[0])
    ensures forall k :: 1 <= k < |b| ==> 0x80 <= b[k] < 0xC0
  {
    var v := c as int;
    if v < 0x80 then [v]
    else if v < 0x800 then [0xC0 + v / 64, 0x80 + v % 64]
    else if v < 0x1_0000 then [0xE0 + v / 4096, 0x80 + v / 64 % 64, 0x80 + v % 64]
    else [0xF0 + v / 0x4_0000, 0x80 + v / 4096 % 64, 0x80 + v / 64 % 64, 0x80 + v % 64]
  }

  /** The length of a UTF-8 sequence, read from its first byte. */
  function LeadLength(b: Byte): nat {
    if b < 0x80 then 1 else if b < 0xE0 then 2 else if b < 0xF0 then 3 else 4
  }

  /** The character a UTF-8 sequence of one to four bytes stands for, as a number. */
  function DecodeChar(b: seq<Byte>): int
    requires 1 <= |b| <= 4
  {
    if |b| == 1 then b[0]
    else if |b| == 2 then (b[0] as int - 0xC0) * 64 + Tail(b[1])
    else if |b| == 3 then (b[0] as int - 0xE0) * 4096 + Tail(b[1]) * 64 + Tail(b[2])
    else (b[0] as int - 0xF0) * 0x4_0000 + Tail(b[1]) * 4096 + Tail(b[2]) * 64 + Tail(b[3])
  }

  /** The six payload bits of a continuation byte. */
  function Tail(b: Byte): int {
    b as int - 0x80
  }

  /** Decoding a character's bytes gives the character back. */
  lemma DecodeEncodeChar(c: char)
    ensures DecodeChar(EncodeChar(c)) == c as int
  {
    var v := c as int;
    assert v == v / 64 * 64 + v % 64;
    assert v / 64 == v / 4096 * 64 + v / 64 % 64;
    assert v / 4096 == v / 0x4_0000 * 64 + v / 4096 % 64;
  }

  /** `Buffer.from(s, 'utf8')`: the bytes of `s`, character by character. */
  function Utf8(s: string): (b: seq<Byte>)
    ensures |s| <= |b| <= 4 * |s|
    ensures |b| == 0 <==> |s| == 0
    decreases |s|
  {
    if |s| == 0 then [] else EncodeChar(s[0]) + Utf8(s[1..])
  }

  /** Different strings have different UTF-8 bytes. */
  lemma {:induction false} Utf8Injective(s: string, t: string)
    requires Utf8(s) == Utf8(t)
    ensures s == t
    decreases |s|
  {
    if |s| > 0 {
      var e, f := EncodeChar(s[0]), EncodeChar(t[0]);
      assert Utf8(s) == e + Utf8(s[1..]) && Utf8(t) == f + Utf8(t[1..]);
      assert e[0] == Utf8(s)[0] == f[0];
      assert e == Utf8(s)[..|e|] == f;
      DecodeEncodeChar(s[0]);
      DecodeEncodeChar(t[0]);
      assert Utf8(s[1..]) == Utf8(s)[|e|..] == Utf8(t[1..]);
      Utf8Injective(s[1..], t[1..]);
      assert s == [s[0]] + s[1..] && t == [t[0]] + t[1..];
    }
  }

  /** The bytes of a concatenation are the bytes of its parts. */
  lemma {:induction false} Utf8Append(s: string, t: string)
    ensures Utf8(s + t) == Utf8(s) + Utf8(t)
    decreases |s|
  {
    if |s| > 0 {
      assert (s + t)[0] == s[0] && (s + t)[1..] == s[1..] + t;
      Utf8Append(s[1..], t);
    } else {
      assert s + t == t;
    }
  }

  /** `toLowerCase` on one character, for the ASCII letters. */
  function LowerChar(c: char): char {
    if 'A' <= c <= 'Z' then (c as int + 32) as char else c
  }

  /** `s.toLowerCase()` restricted to ASCII letters. */
  function ToLower(s: string): string {
    seq(|s|, i requires 0 <= i < |s| => LowerChar(s[i]))
  }

  /** Lowering the case never turns white space into text or text into white space. */
  lemma LowerKeepsBlank(s: string)
    ensures IsBlank(ToLower(s)) <==> IsBlank(s)
  {
    assert forall i :: 0 <= i < |s| ==> (IsSpace(ToLower(s)[i]) <==> IsSpace(s[i]));
  }

  /** Lowering the case twice is lowering it once. */
  lemma ToLowerIdempotent(s: string)
    ensures ToLower(ToLower(s)) == ToLower(s)
  {
  }
}

=== FILE: user_model.dfy ===
/** The user model: column validators, the role enum and its default, the password rule
    of the `beforeCreate`/`beforeUpdate` hooks, hashing, and `comparePassword`.
    Validators run before the hooks, as the ORM orders them; on an update only the
    changed columns are validated, and the hook rehashes only a changed password. The
    role column has no validator: a value outside the enum reaches the database, which
    refuses the insert. */
module UserModel {
  import opened Wrappers
  import opened Text
  import opened Policy
  import opened Schema

  /** The request fields a user row is created from; `None` is an absent field. */
  datatype Draft = Draft(name: Option<string>, email: Option<string>, password: Option<string>,
                         address: Option<string>, role: Option<string>)

  /** `len: [2, 60]` and `notEmpty` (the ORM's `notEmpty` rejects white-space-only text). */
  predicate ValidName(n: string) {
    2 <= |n| <= 60 && !IsBlank(n)
  }

  /** `len: [4, 100]` on the plaintext. */
  predicate ValidPasswordLength(p: string) {
    4 <= |p| <= 100
  }

  /** `len: [1, 400]`. */
  predicate ValidAddress(a: string) {
    1 <= |a| <= 400
  }

  /** The role a draft receives: `'user'` when absent, otherwise the enum value it names. */
  function ResolveRole(role: Option<string>): (r: Option<Role>)
    ensures role.None? ==> r == Some(NormalUser)
    ensures role.Some? && r.Some? ==> RoleName(r.value) == role.value
    ensures role.Some? && r.None? ==> role.value !in {"admin", "user", "store_owner"}
  {
    match role
    case None => Some(NormalUser)
    case Some(s) => ParseRole(s)
  }

  /** Every column validator passes: all required columns present, each within its rule,
      and the email accepted by the email validator. The role is not validated. */
  predicate FieldsValid(d: Draft, isEmail: string -> bool) {
    && d.name.Some? && ValidName(d.name.value)
    && d.email.Some? && isEmail(d.email.value)
    && d.password.Some? && ValidPasswordLength(d.password.value)
    && d.address.Some? && ValidAddress(d.address.value)
  }

  const ValidationMessage: string := "Validation error"
  const PolicyMessage: string :=
    "Password must be 8-16 characters with at least one uppercase letter and one special character"
  const ShortPasswordMessage: string := "Password must be at least 4 characters"

  /** The hooks' password rule: the full policy in production, otherwise a `length` of four
      or more, counted in UTF-16 code units. */
  predicate PasswordRule(production: bool, p: string) {
    if production then StrongPassword(p) else Utf16Length(p) >= 4
  }

  /** The hooks' check as written: the message it throws, if any. */
  function HookError(production: bool, p: string): Option<string> {
    if production then
      if StrongPassword(p) then None else Some(PolicyMessage)
    else if Utf16Length(p) < 4 then Some(ShortPasswordMessage)
    else None
  }

  /** `User.create(draft)`: validators, then the `beforeCreate` hook, then the insert of the
      row with the hashed password and the next id, which the database refuses when the
      role is outside the enum. */
  function Create(users: seq<UserRow>, d: Draft, production: bool, isEmail: string -> bool)
    : (r: Result<UserRow, string>)
    ensures r.Success? <==>
      FieldsValid(d, isEmail) && PasswordRule(production, d.password.value) && ResolveRole(d.role).Some?
    ensures r.Success? ==>
      && r.value.id == NextId(UserIds(users))
      && r.value.name == d.name.value && r.value.email == d.email.value
      && r.value.address == d.address.value
      && r.value.password == Hash(d.password.value)
      && Some(r.value.role) == ResolveRole(d.role)
    ensures r.Failure? && !FieldsValid(d, isEmail) ==> r.error == ValidationMessage
    ensures FieldsValid(d, isEmail) && !PasswordRule(production, d.password.value) ==>
      r.Failure? && r.error == (if production then PolicyMessage else ShortPasswordMessage)
    ensures FieldsValid(d, isEmail) && PasswordRule(production, d.password.value)
            && ResolveRole(d.role).None? ==>
      r == Failure(BadRoleMessage(d.role.value))
  {
    if !FieldsValid(d, isEmail) then Failure(ValidationMessage)
    else
      match HookError(production, d.password.value)
      case Some(msg) => Failure(msg)
      case None =>
        match ResolveRole(d.role)
        case None => Failure(BadRoleMessage(d.role.value))
        case Some(role) =>
          Success(UserRow(NextId(UserIds(users)), d.name.value, d.email.value,
                          Hash(d.password.value), d.address.value, role))
  }

  /** Outside production the hook never rejects a password the length validator let through:
      the only rule left is length four or more. */
  lemma DevelopmentHookRedundant(p: string)
    requires ValidPasswordLength(p)
    ensures HookError(false, p).None?
  {
  }

  /** In production a created user's plaintext met the full policy. */
  lemma ProductionCreateNeedsStrongPassword(users: seq<UserRow>, d: Draft, isEmail: string -> bool)
    requires Create(users, d, true, isEmail).Success?
    ensures StrongPassword(d.password.value)
  {
  }

  /** `user.password = p; user.save()`: the password column is validated, then the
      `beforeUpdate` hook checks the rule and rehashes. */
  function ChangePassword(u: UserRow, newPassword: Option<string>, production: bool)
    : (r: Result<UserRow, string>)
    ensures r.Success? <==>
      newPassword.Some? && ValidPasswordLength(newPassword.value)
      && PasswordRule(production, newPassword.value)
    ensures r.Success? ==> r.value == u.(password := Hash(newPassword.value))
  {
    match newPassword
    case None => Failure(ValidationMessage)
    case Some(p) =>
      if !ValidPasswordLength(p) then Failure(ValidationMessage)
      else
        match HookError(production, p)
        case Some(msg) => Failure(msg)
        case None => Success(u.(password := Hash(p)))
  }

  /** `user.update({ role })`: the password is unchanged, so the hook does not rehash it. */
  function ChangeRole(u: UserRow, role: Role): (r: UserRow)
    ensures r.role == role
    ensures r.password == u.password && r.id == u.id && r.email == u.email
    ensures r.name == u.name && r.address == u.address
  {
    u.(role := role)
  }

  /** `user.comparePassword(candidate)`. */
  predicate ComparePassword(u: UserRow, candidate: string) {
    Matches(u.password, candidate)
  }

  /** A strong password is at most 16 ASCII characters, so bcrypt reads all of it. */
  lemma StrongPasswordFitsKey(p: string)
    requires StrongPassword(p)
    ensures |Utf8(p)| < BcryptKeyBytes
  {
  }

  /** A created user's password compares equal to the plaintext it was created with and to
      the passwords sharing its first 72 bytes; in production, where the policy caps the
      length, to that plaintext alone. */
  lemma CreatedPasswordCompares(users: seq<UserRow>, d: Draft, production: bool,
                                isEmail: string -> bool, candidate: string)
    requires Create(users, d, production, isEmail).Success?
    ensures ComparePassword(Create(users, d, production, isEmail).value, candidate)
            <==> SameBcryptInput(candidate, d.password.value)
    ensures production ==>
      (ComparePassword(Create(users, d, production, isEmail).value, candidate)
       <==> candidate == d.password.value)
  {
    HashMatches(d.password.value, candidate);
    if production {
      StrongPasswordFitsKey(d.password.value);
      ShortPasswordsCompareExactly(d.password.value, candidate);
    }
  }

  /** After a change the stored password compares equal to the new password and to the
      passwords sharing its first 72 bytes, so the old one fails unless bcrypt cannot tell
      it from the new one; in production only the new password compares equal. */
  lemma ChangedPasswordCompares(u: UserRow, newPassword: Option<string>, production: bool,
                                candidate: string)
    requires ChangePassword(u, newPassword, production).Success?
    ensures ComparePassword(ChangePassword(u, newPassword, production).value, candidate)
            <==> SameBcryptInput(candidate, newPassword.value)
    ensures production ==>
      (ComparePassword(ChangePassword(u, newPassword, production).value, candidate)
       <==> candidate == newPassword.value)
  {
    HashMatches(newPassword.value, candidate);
    if production {
      StrongPasswordFitsKey(newPassword.value);
      ShortPasswordsCompareExactly(newPassword.value, candidate);
    }
  }
}

=== FILE: user_registry.dfy ===
/** The admin's user handlers: `getAllUsers` with its filters and order, `getUserById` with
    the owned store's mean rating, `createUser`, and `getDashboardStats`. The insertion step
    `createUser` shares with registration is `InsertUser`. */
module UserRegistry {
  import opened Wrappers
  import opened Text
  import opened Seqs
  import opened Ordering
  import opened Schema
  import opened UserModel
  import opened Aggregation
  import opened StoreRegistry

  /** The query parameters of the user list; `None` for an absent parameter. */
  datatype UserQuery = UserQuery(name: Option<string>, email: Option<string>,
                                 address: Option<string>, role: Option<string>)

  /** The `LIKE '%v%'` condition of a text filter, imposed only when the parameter is
      non-empty. */
  predicate TextFilter(f: Option<string>, field: string) {
    Truthy(f) ==> Contains(field, f.value)
  }

  /** A user passes every filter the query sets; `role` is the parsed role filter. */
  predicate Keep(q: UserQuery, role: Option<Role>, u: UserRow) {
    && TextFilter(q.name, u.name)
    && TextFilter(q.email, u.email)
    && TextFilter(q.address, u.address)
    && (role.Some? ==> u.role == role.value)
  }

  function ViewNameKey(v: UserView): Key {
    Text(v.name)
  }

  function Views(users: seq<UserRow>): (r: seq<UserView>)
    ensures |r| == |users| && forall k :: 0 <= k < |users| ==> r[k] == ViewOf(users[k])
  {
    seq(|users|, k requires 0 <= k < |users| => ViewOf(users[k]))
  }

  /** The role filter: the role a non-empty `role` parameter names, if any. */
  function RoleFilter(q: UserQuery): Option<Role> {
    if Truthy(q.role) then ParseRole(q.role.value) else None
  }

  /** `getAllUsers`: the users passing every given filter, without passwords, ordered by
      name. A role filter that names no role is refused by the database. */
  function GetAllUsers(users: seq<UserRow>, q: UserQuery): (r: Reply<seq<UserView>>)
    ensures r.Error? <==> Truthy(q.role) && ParseRole(q.role.value).None?
    ensures r.Error? ==> r == Error(400, BadRoleMessage(q.role.value))
    ensures r.Ok? ==>
      && r.status == 200
      && multiset(r.value) == multiset(Views(Filter(users, (u: UserRow) => Keep(q, RoleFilter(q), u))))
      && SortedBy(r.value, ViewNameKey, Asc)
  {
    if Truthy(q.role) && ParseRole(q.role.value).None? then Error(400, BadRoleMessage(q.role.value))
    else Ok(200, Sort(Views(Filter(users, (u: UserRow) => Keep(q, RoleFilter(q), u))), ViewNameKey, Asc))
  }

  /** The filters in the request's own terms: substring tests for the non-empty text
      parameters and equality of the role's name for a non-empty role parameter. */
  lemma KeepMeans(q: UserQuery, u: UserRow)
    requires !(Truthy(q.role) && ParseRole(q.role.value).None?)
    ensures Keep(q, RoleFilter(q), u) <==>
      && (Truthy(q.name) ==> Contains(u.name, q.name.value))
      && (Truthy(q.email) ==> Contains(u.email, q.email.value))
      && (Truthy(q.address) ==> Contains(u.address, q.address.value))
      && (Truthy(q.role) ==> RoleName(u.role) == q.role.value)
  {
    if Truthy(q.role) {
      var r := RoleFilter(q).value;
      assert RoleName(r) == q.role.value;
      assert u.role == r <==> RoleName(u.role) == RoleName(r);
    }
  }

  /** A kept user's view is among the views of the kept users. */
  lemma KeptIsListed(users: seq<UserRow>, p: UserRow -> bool, k: nat)
    requires k < |users| && p(users[k])
    ensures ViewOf(users[k]) in multiset(Views(Filter(users, p)))
  {
    var kept := Filter(users, p);
    assert users[k] in kept;
    var m :| 0 <= m < |kept| && kept[m] == users[k];
    assert Views(kept)[m] == ViewOf(users[k]);
  }

  /** With unique ids, a user whose view is among the kept views was kept. */
  lemma ListedIsKept(users: seq<UserRow>, p: UserRow -> bool, k: nat)
    requires UniqueUserIds(users) && k < |users|
    requires ViewOf(users[k]) in multiset(Views(Filter(users, p)))
    ensures p(users[k])
  {
    var kept := Filter(users, p);
    var m :| 0 <= m < |kept| && Views(kept)[m] == ViewOf(users[k]);
    assert kept[m] in users && p(kept[m]);
    var j :| 0 <= j < |users| && users[j] == kept[m];
    assert users[j].id == users[k].id;
    if j != k {
      assert false;
    }
  }

  /** A user is listed exactly when it passes every filter: a text filter keeps the users
      whose field contains the value, the role filter keeps that role, and an absent or
      empty parameter keeps everyone. */
  lemma GetAllUsersListsMatches(users: seq<UserRow>, q: UserQuery, k: nat)
    requires UniqueUserIds(users)
    requires k < |users|
    requires !(Truthy(q.role) && ParseRole(q.role.value).None?)
    ensures ViewOf(users[k]) in GetAllUsers(users, q).value <==>
      && (Truthy(q.name) ==> Contains(users[k].name, q.name.value))
      && (Truthy(q.email) ==> Contains(users[k].email, q.email.value))
      && (Truthy(q.address) ==> Contains(users[k].address, q.address.value))
      && (Truthy(q.role) ==> RoleName(users[k].role) == q.role.value)
  {
    var p := (u: UserRow) => Keep(q, RoleFilter(q), u);
    var r := GetAllUsers(users, q).value;
    assert multiset(r) == multiset(Views(Filter(users, p)));
    KeepMeans(q, users[k]);
    if p(users[k]) {
      KeptIsListed(users, p, k);
    }
    if ViewOf(users[k]) in r {
      assert ViewOf(users[k]) in multiset(r);
      ListedIsKept(users, p, k);
    }
  }

  /** With no filters the list holds every user, once each. */
  lemma NoFiltersListAll(users: seq<UserRow>)
    ensures GetAllUsers(users, UserQuery(None, None, None, None)).Ok?
    ensures multiset(GetAllUsers(users, UserQuery(None, None, None, None)).value) == multiset(Views(users))
  {
    var q := UserQuery(None, None, None, None);
    FilterAll(users, (u: UserRow) => Keep(q, RoleFilter(q), u));
  }

  /** Filtering with a predicate every element meets keeps the sequence. */
  lemma {:induction false} FilterAll<T>(s: seq<T>, p: T -> bool)
    requires forall k :: 0 <= k < |s| ==> p(s[k])
    ensures Filter(s, p) == s
    decreases |s|
  {
    if |s| > 0 {
      FilterAll(s[1..], p);
      assert s == [s[0]] + s[1..];
    }
  }

  /** `getUserById`: the user without password and, for a store owner with a rated store,
      the store's mean rating. */
  datatype UserDetail = UserDetail(view: UserView, storeRating: Option<real>)

  /** The sum of a store's ratings over their count; absent when there are none. */
  function StoreRating(db: Db, u: UserRow): (r: Option<real>)
    ensures r.Some? ==>
      && u.role == StoreOwner
      && FindStoreByOwner(db.stores, u.id).Some?
      && |RatingsOf(db.ratings, FindStoreByOwner(db.stores, u.id).value.id)| > 0
  {
    if u.role != StoreOwner then None
    else
      match FindStoreByOwner(db.stores, u.id)
      case None => None
      case Some(s) =>
        var rows := RatingsOf(db.ratings, s.id);
        if |rows| > 0 then Some(Sum(Values(rows)) / (|rows| as real)) else None
  }

  function GetUserById(db: Db, id: int): (r: Reply<UserDetail>)
    ensures FindUser(db.users, id).None? <==> r == Error(404, "User not found")
    ensures r.Ok? <==> FindUser(db.users, id).Some?
    ensures r.Ok? ==> r.status == 200 && r.value.view == ViewOf(FindUser(db.users, id).value)
    ensures r.Ok? ==> r.value.view.id == id
    ensures r.Ok? ==> r.value.storeRating == StoreRating(db, FindUser(db.users, id).value)
  {
    match FindUser(db.users, id)
    case None => Error(404, "User not found")
    case Some(u) => Ok(200, UserDetail(ViewOf(u), StoreRating(db, u)))
  }

  /** A store owner's `storeRating` is the mean `getStoreById` reports for the owned store,
      and it is present exactly when that store has a rating. */
  lemma StoreRatingAgreesWithStore(db: Db, id: int, caller: Option<Principal>)
    requires GetUserById(db, id).Ok?
    requires FindUser(db.users, id).value.role == StoreOwner
    requires FindStoreByOwner(db.stores, id).Some?
    requires UniqueStoreIds(db.stores)
    ensures var s := FindStoreByOwner(db.stores, id).value;
      var detail := GetStoreById(db, s.id, caller);
      && detail.Ok?
      && (GetUserById(db, id).value.storeRating.Some? <==> detail.value.ratingCount > 0)
      && (GetUserById(db, id).value.storeRating.Some? ==>
            GetUserById(db, id).value.storeRating.value == detail.value.averageRating)
  {
    var s := FindStoreByOwner(db.stores, id).value;
    var j :| 0 <= j < |db.stores| && db.stores[j] == s;
    FindStoreUnique(db.stores, j);
  }

  /** With unique ids, looking up a stored row's id finds that row. */
  lemma FindStoreUnique(stores: seq<StoreRow>, j: nat)
    requires UniqueStoreIds(stores) && j < |stores|
    ensures FindStore(stores, stores[j].id) == Some(stores[j])
  {
  }

  const DuplicateUserMessage: string := "User already exists with this email"
  const UndefinedUserEmailMessage: string := "WHERE parameter \"email\" has invalid \"undefined\" value"

  /** The duplicate check and `User.create` that `createUser` and `register` share. */
  function InsertUser(db: Db, d: Draft, production: bool, isEmail: string -> bool)
    : (st: Step<UserRow>)
    ensures d.email.None? ==> st == Step(db, Error(400, UndefinedUserEmailMessage))
    ensures d.email.Some? && FindUserByEmail(db.users, d.email.value).Some? ==>
      st == Step(db, Error(400, DuplicateUserMessage))
    ensures st.reply.Ok? <==>
      && d.email.Some? && FindUserByEmail(db.users, d.email.value).None?
      && UserModel.Create(db.users, d, production, isEmail).Success?
    ensures st.reply.Ok? ==>
      && st.reply.status == 201
      && st.reply.value == UserModel.Create(db.users, d, production, isEmail).value
      && st.db == db.(users := db.users + [st.reply.value])
    ensures st.reply.Error? ==> st.db == db && st.reply.status == 400
  {
    if d.email.None? then Step(db, Error(400, UndefinedUserEmailMessage))
    else if FindUserByEmail(db.users, d.email.value).Some? then Step(db, Error(400, DuplicateUserMessage))
    else
      match UserModel.Create(db.users, d, production, isEmail)
      case Failure(msg) => Step(db, Error(400, msg))
      case Success(u) => Step(db.(users := db.users + [u]), Ok(201, u))
  }

  /** Inserting a user keeps the table invariants: ids and emails stay unique and every
      existing reference stays valid. */
  lemma InsertUserKeepsConsistent(db: Db, d: Draft, production: bool, isEmail: string -> bool)
    requires Consistent(db)
    ensures Consistent(InsertUser(db, d, production, isEmail).db)
  {
    var st := InsertUser(db, d, production, isEmail);
    if st.reply.Ok? {
      var u := st.reply.value;
      var users := st.db.users;
      NextUserIdFresh(db.users);
      assert FindUser(db.users, u.id).None?;
      assert FindUserByEmail(db.users, u.email).None?;
      forall a, b | 0 <= a < b < |users|
        ensures users[a].id != users[b].id && users[a].email != users[b].email
      {
        if b == |db.users| {
          assert users[a] == db.users[a];
        }
      }
      forall k | 0 <= k < |db.stores| && db.stores[k].ownerId.Some?
        ensures FindUser(users, db.stores[k].ownerId.value).Some?
      {
        var id := db.stores[k].ownerId.value;
        var j :| 0 <= j < |db.users| && db.users[j].id == id;
        assert users[j] == db.users[j];
      }
      forall id | FindUser(db.users, id).Some? ensures FindUser(users, id).Some? {
        var j :| 0 <= j < |db.users| && db.users[j].id == id;
        assert users[j] == db.users[j];
      }
      RatingKeysKept(db, st.db);
    }
  }

  /** What `createUser` replies with: the new user's id, name, email and role. */
  datatype CreatedUser = CreatedUser(id: int, name: string, email: string, role: Role)

  function Created(u: UserRow): CreatedUser {
    CreatedUser(u.id, u.name, u.email, u.role)
  }

  /** `createUser`: the role is whatever the request names, `'user'` when absent. */
  function CreateUser(db: Db, d: Draft, production: bool, isEmail: string -> bool)
    : (st: Step<CreatedUser>)
    ensures st.reply.Ok? <==> InsertUser(db, d, production, isEmail).reply.Ok?
    ensures InsertUser(db, d, production, isEmail).reply.Error? ==>
      st == Step(db, Error(400, InsertUser(db, d, production, isEmail).reply.message))
    ensures st.reply.Ok? ==>
      && st.reply.status == 201
      && |st.db.users| == |db.users| + 1
      && st.db.users[..|db.users|] == db.users
      && Created(st.db.users[|db.users|]) == st.reply.value
      && FindUser(db.users, st.reply.value.id).None?
      && Some(st.reply.value.role) == ResolveRole(d.role)
      && st.reply.value.email == d.email.value
  {
    var ins := InsertUser(db, d, production, isEmail);
    match ins.reply
    case Error(s, m) => Step(ins.db, Error(s, m))
    case Ok(s, u) =>
      NextUserIdFresh(db.users);
      assert ins.db.users[..|db.users|] == db.users;
      Step(ins.db, Ok(s, Created(u)))
  }

  /** An admin-created user with role `'admin'` is an administrator: the role is not
      downgraded the way registration does. */
  lemma CreateUserKeepsRequestedRole(db: Db, d: Draft, production: bool, isEmail: string -> bool)
    requires d.role == Some("admin")
    requires CreateUser(db, d, production, isEmail).reply.Ok?
    ensures CreateUser(db, d, production, isEmail).reply.value.role == Admin
  {
  }

  /** `getDashboardStats`: the sizes of the three tables. */
  datatype Stats = Stats(totalUsers: nat, totalStores: nat, totalRatings: nat)

  function GetDashboardStats(db: Db): (r: Reply<Stats>)
    ensures r.Ok? && r.status == 200
    ensures r.value.totalUsers == |db.users| && r.value.totalStores == |db.stores|
    ensures r.value.totalRatings == |db.ratings|
  {
    Ok(200, Stats(|db.users|, |db.stores|, |db.ratings|))
  }

  /** A created user adds one to the user count and nothing to the others. */
  lemma CreateUserCounts(db: Db, d: Draft, production: bool, isEmail: string -> bool)
    requires CreateUser(db, d, production, isEmail).reply.Ok?
    ensures var after := GetDashboardStats(CreateUser(db, d, production, isEmail).db).value;
      var before := GetDashboardStats(db).value;
      after == before.(totalUsers := before.totalUsers + 1)
  {
  }
}

=== FILE: wrappers.dfy ===
/** Failure-compatible helper datatypes shared by every module of the model. */
module Wrappers {

  /** A value that may be absent: JavaScript's `undefined`/`null` next to a present value. */
  datatype Option<+T> = None | Some(value: T) {

    /** The wrapped value, or `default` when absent. */
    function GetOr(default: T): T {
      match this
      case Some(v) => v
      case None => default
    }
  }

  /** The outcome of a step that can be refused with a reason. */
  datatype Result<+T, +E> = Success(value: T) | Failure(error: E)

  /** A string JavaScript treats as true: present and non-empty. */
  predicate Truthy(v: Option<string>) {
    v.Some? && v.value != ""
  }

  /** A number JavaScript treats as true: present and not zero. */
  predicate TruthyNumber(n: Option<int>) {
    n.Some? && n.value != 0
  }
}
